=== FILE: README.md ===
# cloudx catalog and path logic in Dafny

cloudx is a small self-hosted cloud service. It has three parts:

- an Express server offering storage buckets, per-user SQLite databases and a simulated compute registry;
- a `cloudx` command line;
- a browser file manager and a React Native file screen.

This project models the decision logic of those parts as pure functions over immutable values, and proves what the code promises:

- **Storage** covers the bucket table keyed by `"<userId>:<name>"`, and how bucket paths are built with `path.join`. It also covers the folder, browse, upload and download handlers, whose only traversal check is the raw string test `resolved.startsWith(bucketPath)`.
- **The two key stores.**
  - The `requireAuth` / `requireAdmin` middleware checks the master key first, then looks for the first active record in `keys.apiKeys`.
  - Separately, the auth router keeps its own table keyed by the secret. It supports create, list with preview, revoke by prefix, and the `validateApiKey` permission check.
- **Databases** covers the per-user catalog: the name check, the `<name>.db` file mapping, the listing, and SELECT/PRAGMA query classification. It also covers the 404 rules of query, tables and delete.
- **The drive pool** keeps two parallel lists: the selected mount paths and the pool entries. The first drive is where every new bucket goes.
- **The compute registry** is a name-keyed service map with required-field validation. A redeploy overwrites the old record.
- **The command line** covers how the first two arguments pick a command, how `indexOf` finds a flag's value, the defaults, and the JSON bodies, where `undefined` fields are dropped.
- **The clients' path helpers** are the child path, the breadcrumb trail, going back one level, rename, the file icon, and the master-key login comparison.

Supporting modules:

- `NodePath` models POSIX `path.join` / `path.normalize` on segment lists.
- `JsObject` models a plain object as a table in insertion order, the order JavaScript enumerates keys that are not array indices. An assignment to `__proto__` creates no own key.
- `FileSystem` models a file system as a map from resolved segment lists to nodes. It supports `existsSync`, `ensureDirSync`, writing a file and `readdirSync`.

In the model:

- each handler takes the state and the request's fields and returns the new state and a `Result`;
- a `Fail(status, message)` result carries the HTTP status and the error text of the code;
- time stamps, the 32 random bytes of a key and the module directory are parameters.

## Model

| member | source | states |
|---|---|---|
| Storage.CreateBucket | services/storage/index.js:59-84 | A missing or empty name gives 400 and an existing `userId:name` key gives 400, both leaving the state unchanged. Without a user id, `path.join` throws and the result is 500. For a fresh key and a user id, the create succeeds if and only if no file stands on the way to the user directory or the bucket directory. On success exactly one entry is appended under the new key, with region `us-east-1` by default. The entry's path is the joined bucket directory, which now exists. Every earlier file system entry is kept, and every new one is a directory. |
| Storage.ListFrom | services/storage/index.js:87-103 | The listing never repeats a name, because later owned entries with the same name overwrite earlier ones. |
| Storage.ListFromKeys | services/storage/index.js:91-99 | A name is listed if and only if it is not `__proto__` and some entry whose key starts with `userId:` has that name as its second colon-separated field. A bucket named `__proto__` becomes the prototype of the response object, which `res.json` does not show. |
| Storage.ListFromValues | services/storage/index.js:93-98 | Under each listed name stand the region and creation time of the last owned entry with that name. Under `__proto__` stands nothing. |
| Storage.CreateFolder | services/storage/index.js:106-120 | An unknown bucket gives 404 with nothing changed. Otherwise it succeeds exactly when a folder path is given and no file blocks the way. It creates every directory on the joined path with no traversal check, and keeps all earlier entries. |
| Storage.Items | services/storage/index.js:144-153 | Every child of the directory is listed, and every listed item is a child. An item's type is "folder" if and only if the child is a directory, and its size is the child's size: a file's byte count, and 0 for a folder. |
| Storage.Browse | services/storage/index.js:123-156 | An unknown bucket gives 404. The result is 403 if and only if the joined path does not string-start with the bucket path. An admitted path that does not exist lists nothing. An admitted existing directory gives exactly its items, and an admitted existing file gives 500 (ENOTDIR). |
| Storage.Upload | services/storage/index.js:159-184 | Without a file part the upload reports success and changes nothing. With a file and an unknown bucket it fails with 500, because the error goes to Express. The destination uses the `folder` field only when the form sent it before the file part, because the parser fills `req.body` in arrival order. With a file and a known bucket, a file on the destination's way gives 500 with nothing changed. Otherwise the upload succeeds if and only if the file can be written into the created destination; no guard is applied. On success the file is stored under its original name there, replacing a file of that name. Every directory on the way exists afterwards, and all other entries are kept. |
| Storage.Download | services/storage/index.js:187-210 | An unknown bucket gives 404. The result is 403 if and only if the joined path fails the string test. An admitted but missing file gives 404 "File not found". Otherwise the result is the joined path. |
| StorageProps.BucketPathShape | services/storage/index.js:19-28 | For an absolute storage root and plain user id and bucket name, the bucket directory is `<root>/<userId>/<name>`. |
| StorageProps.KeyFields | services/storage/index.js:67-93 | A colon-free user id and name produce a key the user owns, which lists under the name. |
| StorageProps.CreateThenListed | services/storage/index.js:72-99 | After a successful create, the owner's listing shows the bucket with the region it was given (or the default) and the creation time. A bucket named `__proto__` is created but never listed. |
| StorageProps.OthersNotOwned | services/storage/index.js:92 | With colon-free ids, one user's key never passes another user's ownership test. |
| StorageProps.ListSkipsForeign | services/storage/index.js:91-99 | An entry the caller does not own never changes the caller's listing. |
| StorageProps.CreateFreshSucceeds | services/storage/index.js:67-84 | On a file system of directories only, a fresh name is always created. Its key is appended, and the file system still holds only directories. |
| StorageProps.SameNameOtherUser | services/storage/index.js:67-84 | After user `u` creates a name, a different colon-free user `v` creates the same name too. Both keys are then stored. |
| StorageProps.CreateIsolated | services/storage/index.js:59-103 | Creating a bucket for one colon-free user id, whatever the outcome, leaves every other user's listing as it was. |
| StorageProps.ColonKeyFields | services/storage/index.js:67-93 | The key of user `a:b` and bucket `x` passes user `a`'s ownership test and lists under the name `b`. |
| StorageProps.ListSingle | services/storage/index.js:91-99 | A one-entry table the caller owns lists exactly that entry's second key field. |
| StorageProps.ColonUserLeaks | services/storage/index.js:67-93 | If user `a:b` creates bucket `x` in an empty table, user `a`'s listing shows a bucket named `b`. |
| StorageProps.BrowseBucketRoot | services/storage/index.js:125-136 | Without a folder, the browse path is the bucket directory itself, which passes the guard. |
| StorageProps.BrowseInsideAdmitted | services/storage/index.js:133-138 | Any folder that resolves inside the bucket, segment by segment, passes the guard. |
| StorageProps.BrowseEscapeRejected | services/storage/index.js:133-138 | A folder that resolves to a proper ancestor of the bucket is refused with 403. |
| StorageProps.BrowseParentRejected | services/storage/index.js:133-138 | `folder=..` is refused with 403. |
| StorageProps.BrowseSiblingAdmitted | services/storage/index.js:133-138 | `../<bucket><suffix>` resolves to a sibling directory outside the bucket, yet it passes the guard. |
| StorageProps.BrowseSiblingExample | services/storage/index.js:133-138 | For bucket `<root>/u/b`, `folder=../b2` browses `<root>/u/b2` and is admitted. |
| StorageProps.DownloadJoin | services/storage/index.js:198 | Joining the bucket path with the folder and the file name is the same as joining it with their relative join. |
| StorageProps.DownloadEscapeRejected | services/storage/index.js:198-203 | A folder and file name that together climb above the bucket are refused with 403. |
| StorageProps.CreateFolderThenBrowse | services/storage/index.js:116-153 | A folder created at the top of a bucket appears in the bucket's browse listing as a folder. |
| StorageProps.UploadThenDownload | services/storage/index.js:170-209 | A file uploaded to the top of a bucket can be downloaded by its name. The download yields `<bucket>/<name>`. |
| StorageProps.LateFolderAtTop | services/storage/index.js:168-173 | When the `folder` field comes after the file part, as both clients send it, the file lands at the top of the bucket. A download without a folder finds it there. |
| StorageProps.EscapeLocate | services/storage/index.js:116 | From bucket `<pre>/<u>/<b>`, joining `../../<v>/<x>` prints `<pre>/<v>/<x>` and names that directory. |
| StorageProps.CreateFolderEscapes | services/storage/index.js:116-117 | Folder creation has no guard. User `u` can create a directory inside user `v`'s storage with `../../<v>/<x>`. |
| StorageProps.UploadInto | services/storage/index.js:168-178 | An upload whose destination is a normal absolute directory stores a plain-named file inside it and succeeds, whenever no file blocks the directory and no directory has the file's name. |
| StorageProps.UploadEscapes | services/storage/index.js:168-173 | Upload has no guard. With the folder `../../<v>/<x>` sent before the file, user `u`'s upload succeeds and writes the file inside user `v`'s storage, at `<pre>/<v>/<x>/<name>`. |
| PathGuard.InsideAdmitted | services/storage/index.js:136 | Every printed path component-wise inside the bucket string-starts-with the bucket path. |
| PathGuard.AncestorRejected | services/storage/index.js:136 | No proper ancestor of the bucket string-starts-with the bucket path. |
| PathGuard.SiblingAdmitted | services/storage/index.js:136 | A sibling whose last segment extends the bucket's passes the string test but is not inside the bucket. |
| AuthGate.MasterKey | services/auth/middleware.js:5 | The master key is the environment value when it is set and non-empty, otherwise the fixed default. |
| AuthGate.FindActive | services/auth/middleware.js:20 | The search finds the first active record whose key equals the header, or reports that none exists. |
| AuthGate.RequireAuth | services/auth/middleware.js:8-37 | The master key gives the admin identity with no user id, and no record changes. Any other header is accepted if and only if some active record carries it. The first such record gives a non-admin identity with that record's user id, and only that record is touched. A rejection is 401 with no record changed. |
| AuthGate.RequireAdmin | services/auth/middleware.js:40-45 | Passes if and only if the identity is an admin; otherwise 403. |
| AuthGate.AdminOnlyByMasterKey | services/auth/middleware.js:12-45 | A request reaches an admin route if and only if its header is the master key. |
| AuthGate.AuthKeepsMatches | services/auth/middleware.js:27-29 | Authentication never changes which records match any header, nor how many records there are. |
| AuthGate.AuthTwice | services/auth/middleware.js:20-29 | Two accepted requests with the same user key yield the same identity. The same record's usage rises by two (an absent count is 0), and its last-used time is the later one. |
| AuthGate.FindAfterTouch | services/auth/middleware.js:20-29 | Touching the matched record keeps it the first match. |
| AuthGate.TouchTwice | services/auth/middleware.js:28-29 | Two touches add two uses and keep the second time. |
| AuthGate.FindFirst | services/auth/middleware.js:20 | The first matching index is what the search returns. |
| KeyStore.Hex | services/auth/index.js:22 | Hex output has two lower-case hex digits per byte. |
| KeyStore.UnhexHex | services/auth/index.js:22 | The hex text of the bytes reads back to the same bytes. |
| KeyStore.GenerateApiKey | services/auth/index.js:21-23 | A key is `cx_` followed by the hex digits of the random bytes, which read back to those bytes. |
| KeyStore.GeneratedKeyWellFormed | services/auth/index.js:21-23 | From 32 bytes the key is 67 characters, `cx_` and then 64 hex digits. |
| KeyStore.CreateKey | services/auth/index.js:26-49 | A missing name gives 400 with the table unchanged; any present name succeeds. Success stores the new secret with `lastUsed` null, and the caller's permissions or the four defaults. The response carries that key and those permissions. Every other key keeps its record, and a new secret is appended at the end. |
| KeyStore.Preview | services/auth/index.js:54 | The preview is the key's first ten characters (fewer for a shorter key) followed by `...`. |
| KeyStore.ListKeys | services/auth/index.js:52-62 | There is one item per stored key, in order, with the key replaced by its preview and the other fields copied. |
| KeyStore.PreviewHidesKeys | services/auth/index.js:22-54 | The preview of a generated key is never itself a generated key, nor a prefix of one. |
| KeyStore.RevokeKey | services/auth/index.js:65-77 | Revoking gives 404, with nothing changed, if and only if no key starts with the prefix. Otherwise it deletes exactly the first such key in enumeration order. |
| KeyStore.RevokeByPreviewFails | services/auth/index.js:54-71 | Among generated keys, the preview the list shows never revokes anything. |
| KeyStore.RemoveAppended | services/auth/index.js:73 | Deleting the last-added key restores the table. |
| KeyStore.FindAppendedKey | services/auth/index.js:67 | Among generated keys, the prefix search for a full secret finds exactly that secret. |
| KeyStore.CreateThenRevoke | services/auth/index.js:26-77 | Revoking by the full secret just created restores the previous table and reports success. |
| KeyStore.ValidateApiKey | services/auth/index.js:80-107 | A missing header gives 401, and a key not stored gives 401. A key passes if and only if it is stored and holds the required permission, when one is given. A failure leaves the table unchanged. A pass changes only that key's `lastUsed`. |
| KeyStore.ValidateAsWritten | services/auth/index.js:88-95 | For headers that are not inherited object names, the check as written agrees with the corrected one. |
| KeyStore.InheritedNamePasses | services/auth/index.js:88-95 | As written, the header `constructor` passes on an empty table when no permission is required. The corrected check refuses it with 401. |
| KeyStore.ValidateOnlyStoredKeys | services/auth/index.js:88-103 | The corrected check passes only headers that are stored keys. |
| Database.UserDbPath | services/database/index.js:13-17 | Without a user id the call fails. With one, it succeeds if and only if no file stands on the way to `DB_PATH/<userId>`. On success the result is that path, and the directory has been ensured. |
| Database.DbNames | services/database/index.js:25-38 | A name is listed if and only if it is not `__proto__` and some child of the directory ends in `.db` and has that name with its first `.db` removed. The name `__proto__` sets the response object's prototype, so `res.json` omits it. |
| Database.ListDatabases | services/database/index.js:20-44 | The listing succeeds if and only if the caller's directory can be ensured. Otherwise the result is 500 with nothing changed. On success it lists the `.db` names of that directory. |
| Database.CreateDatabase | services/database/index.js:47-86 | A missing name gives 400, and a name outside `[a-zA-Z0-9_]+` gives 400. A valid name without a user id, or with a file blocking the user directory, gives 500. An existing `<name>.db` gives 400 "Database already exists". Otherwise the create succeeds if and only if the file can be written. Success creates the empty file `<userDir>/<name>.db` and keeps every other entry. |
| Database.LowerStartsWith | services/database/index.js:107-110 | Lower-casing and then testing a prefix is the same as a case-insensitive prefix test. |
| Database.ReadPathIff | services/database/index.js:107-123 | A query takes the read path if and only if its trimmed text begins with SELECT or PRAGMA in any letter case. |
| Database.QueryDatabase | services/database/index.js:89-139 | A missing query gives 400, and an unreachable user directory gives 500. Otherwise the result is 404 if and only if the caller's `<name>.db` is absent. When it exists the result is the query's read-or-write classification. |
| Database.DatabaseTables | services/database/index.js:142-169 | The result is 404 if and only if the caller's `<name>.db` is absent. Otherwise it is the file that would be opened. |
| Database.RemoveTree | services/database/index.js:184 | Removal deletes exactly the node and everything below it. |
| Database.DeleteDatabase | services/database/index.js:172-190 | The result is 404 if and only if the caller's `<name>.db`, built from the unchecked name, is absent. Otherwise that node is removed. |
| Database.DeleteChecked | services/database/index.js:57-190 | The corrected delete refuses a name outside `[a-zA-Z0-9_]+` with 400, and otherwise behaves as written. |
| DatabaseProps.NameRoundTrip | services/database/index.js:25-62 | A checked name maps to `<name>.db`, and listing maps it back to the name. |
| DatabaseProps.FileNameNormal | services/database/index.js:57-62 | The file name of a checked name is a single plain path segment. |
| DatabaseProps.DbFileShape | services/database/index.js:13-62 | A checked database of user `u` is the file `<DB_PATH>/<u>/<name>.db`. |
| DatabaseProps.UserDirShape | services/database/index.js:13-17 | The user directory is `<DB_PATH>/<u>`. |
| DatabaseProps.CreateThenListed | services/database/index.js:20-86 | A database just created appears in its owner's listing if and only if its name is not `__proto__`. |
| DatabaseProps.CreateRejectsExisting | services/database/index.js:64-66 | Creating a name whose file already exists gives 400 "Database already exists". |
| DatabaseProps.DeleteThenQueryMissing | services/database/index.js:100-185 | After a delete, a query on the same name gives 404. |
| DatabaseProps.DbFileEscapes | services/database/index.js:100-178 | The unchecked name `../<v>/<x>` from user `u` names user `v`'s database `x`. |
| DatabaseProps.DeleteReachesOtherUser | services/database/index.js:172-185 | As written, user `u` deletes user `v`'s database `x` by asking for `../<v>/<x>`. |
| DatabaseProps.DeleteCheckedIsolated | services/database/index.js:172-185 | With the name check, a delete by user `u` removes only entries inside `<DB_PATH>/<u>`. |
| DiskManager.AddDrive | services/storage/disk-manager.js:37-59 | A missing path, the empty path included, gives "Drive path does not exist". A selected path gives "Drive already in storage pool". Both failures leave the state unchanged. Success appends the mount and a pool entry for `<mount>/cloudx-storage` and returns that path. The directory then exists. |
| DiskManager.DropMount | services/storage/disk-manager.js:69 | The filter keeps exactly the entries of other mounts. |
| DiskManager.RemoveDrive | services/storage/disk-manager.js:62-72 | An unselected drive gives "Drive not in storage pool" with nothing changed. Otherwise its first occurrence is spliced out of the mounts and every pool entry for it is dropped. |
| DiskManager.NextDrive | services/storage/disk-manager.js:75-83 | An empty pool gives "No drives in storage pool". Otherwise the result is always the first entry's storage path. |
| DiskManager.StoragePathForBucket | services/storage/disk-manager.js:86-94 | With an empty pool the result is `<moduleDir>/data/<bucket>`. Otherwise it is `<first storage path>/buckets/<bucket>`. |
| DiskManager.DropAbsent | services/storage/disk-manager.js:69 | Filtering a mount no entry has changes nothing. |
| DiskManager.DropAt | services/storage/disk-manager.js:69 | With distinct mounts, the filter removes exactly the one entry of the mount. |
| DiskManager.RemoveAtDistinct | services/storage/disk-manager.js:68 | Splicing one element out of a duplicate-free list keeps it duplicate-free and removes that element. |
| DiskManager.AddKeepsSynced | services/storage/disk-manager.js:42-55 | Adding keeps the mounts of the pool equal to the selected drives, duplicate-free, with each entry in its mount's `cloudx-storage`. |
| DiskManager.MountsRemoveAt | services/storage/disk-manager.js:68-69 | Removing one pool entry removes the same position from its mounts. |
| DiskManager.RemoveKeepsSynced | services/storage/disk-manager.js:62-69 | Removing keeps the two lists in step, and the drive is no longer selected. |
| DiskManager.AddThenRemove | services/storage/disk-manager.js:50-69 | Adding a drive and then removing it restores the configuration. |
| DiskManager.RemoveAppended | services/storage/disk-manager.js:63-69 | Removing the drive of an entry appended to a synced configuration restores it. |
| DiskManager.AddKeepsBucketPath | services/storage/disk-manager.js:82-93 | Once a drive exists, adding more drives never changes where a bucket goes. |
| DiskManager.StorageDirShape | services/storage/disk-manager.js:47 | The storage directory of an absolute mount is its `cloudx-storage` child. |
| DiskManager.DriveBucketPath | services/storage/disk-manager.js:86-94 | When the first entry stores into `<mount>/cloudx-storage`, a bucket lands in `<mount>/cloudx-storage/buckets/<bucket>`. |
| DiskManager.FirstDriveBucketPath | services/storage/disk-manager.js:47-94 | In a synced pool whose first drive is an absolute mount, a bucket lands in `<mount>/cloudx-storage/buckets/<bucket>`. |
| Compute.ServiceUrl | services/compute/index.js:44 | The url is the compute base followed by exactly the service name. |
| Compute.Deploy | services/compute/index.js:23-49 | A missing `name`, `source` or `runtime` gives 400 with nothing changed. Otherwise the deploy succeeds unless a file blocks the service directory (500). Success stores the record under the name with status "running" and the name's url. The response is the name merged with the record. Every other service is unchanged and the directory exists. |
| Compute.GetService | services/compute/index.js:57-63 | An absent name gives 404 "Service not found". Otherwise the result is exactly the stored record. |
| Compute.DeployThenGet | services/compute/index.js:39-62 | A deployed service is found under its name, with the record the deploy returned. It is in the list, and its status is "running". |
| Compute.DeployKeepsOthers | services/compute/index.js:39-62 | Deploying never changes what another name finds. |
| Compute.RedeployOverwrites | services/compute/index.js:30-45 | Deploying a name twice succeeds. It keeps one entry in its first position, holding the second record. |
| Compute.ServiceDirShape | services/compute/index.js:30 | The service directory of an absolute deployments directory is its child named after the service. |
| Cli.Field | bin/cloudx.js:20-110 | A field is absent if and only if no member of the body has that key. A present field is a member of the body. |
| Cli.CreateStorage | bin/cloudx.js:8-20 | It exits if and only if `--bucket` is absent. Otherwise the body's name is the argument after the first `--bucket`. The region is the argument after the first `--region`, or "default". |
| Cli.CreateDatabase | bin/cloudx.js:51-65 | It exits if and only if `--name` is absent. Otherwise name, engine and size are the arguments after their flags, with engine defaulting to "sqlite" and size to "small". |
| Cli.DeployService | bin/cloudx.js:96-110 | It exits if and only if one of `--name`, `--source` or `--runtime` is absent. Otherwise the three fields are the arguments after their flags. |
| Cli.Run | bin/cloudx.js:4-149 | Usage is printed if and only if the first two arguments are not one of the three known commands. `create storage`, `create database` and `deploy service` each run exactly their handler. |
| Cli.StorageRoundTrip | bin/cloudx.js:8-146 | Running a bucket command written as the usage text shows sends the given bucket and region. |
| Cli.StorageFlagAsValue | bin/cloudx.js:10-18 | A bucket named `--region` is also taken as the region flag, so the region sent is `--region`. |
| Cli.StorageDefaultRegion | bin/cloudx.js:18 | Without `--region` the request carries region "default". |
| Cli.TrailingFlagDropped | bin/cloudx.js:17-20 | A `--region` given last has no value, and the region field is left out of the request. |
| Cli.DatabaseRoundTrip | bin/cloudx.js:51-147 | Running a database command written as the usage text shows sends the given name, engine and size. |
| Cli.ServiceRoundTrip | bin/cloudx.js:96-148 | Running a deploy command written as the usage text shows sends the given name, source and runtime. |
| WebClient.Compact | public/app.js:119 | The filter keeps exactly the non-empty segments, in order. |
| WebClient.Breadcrumbs | public/app.js:117-130 | There is one link per non-empty segment. Link k joins the first k+1 segments, and each link extends the previous one by the next segment. The last link is the folder with its empty segments removed. |
| WebClient.ItemClick | public/app.js:199-203 | Only folder items navigate. The target's segments are the folder's followed by the name's. |
| WebClient.RenamePath | public/app.js:322-336 | Nothing is sent if and only if the new name is empty or equals the old last segment. |
| WebClient.RenameReplacesLast | public/app.js:325-335 | A rename keeps everything before the last segment and replaces only that segment. |
| WebClient.RenameBack | public/app.js:325-335 | Renaming to a plain name gives that last segment in the same directory. Renaming back restores the path. |
| WebClient.FileIcon | public/app.js:171-187 | Folders get the folder icon. A file never gets it. Its lower-cased last extension picks the icon: `pdf` and any extension not in the table give the default icon. Each other icon is given exactly for its table entries (doc/docx, xls/xlsx, jpg/jpeg/png/gif, mp4/avi/mov, mp3/wav, zip/rar, txt). Every result is one of the table's icons. |
| WebClient.IconByLastExtension | public/app.js:174 | Only the text after the last `.` decides the icon. |
| WebClient.IconIgnoresCase | public/app.js:174 | The icon does not depend on the letter case of the name. |
| WebClient.LoginWithMasterKey | public/app.js:5-23 | The page accepts exactly the server's default master key. |
| WebClient.LoginMatchesServer | public/app.js:21-26 | With `MASTER_KEY` unset, the accepted key is the server's admin key. With it set to another value, the accepted key no longer grants admin. |
| MobileClient.NavigateToFolder | mobile-client/screens/FilesScreen.js:79-82 | The new folder's segments are the current folder's followed by the name's. From the root it is the name. |
| MobileClient.GoBack | mobile-client/screens/FilesScreen.js:84-89 | Going back drops exactly the last segment. A single-segment folder goes back to the root. |
| MobileClient.GoBackToRoot | mobile-client/screens/FilesScreen.js:84-89 | Going back from the root or a top-level folder gives the root. |
| MobileClient.GoBackNavigate | mobile-client/screens/FilesScreen.js:79-89 | Going back undoes entering a folder whose name has no `/`. |
| MobileClient.CreateFolderPath | mobile-client/screens/FilesScreen.js:129-133 | Nothing is posted if and only if the name is empty. Otherwise the path is the child path. |
| MobileClient.DeleteItemPath | mobile-client/screens/FilesScreen.js:155-156 | A delete uses the same child path as navigation. |
| MobileClient.CreateThenBack | mobile-client/screens/FilesScreen.js:79-133 | A folder created from the current one is left again by going back. |
| JsObject.Put | services/compute/index.js:39 | Assignment keeps an existing key in its place, or appends a new one. The key then holds the value, and every other key is unchanged. |
| JsObject.Assign | services/storage/index.js:94-98 | Assigning `__proto__` leaves the own keys as they were. Any other key is assigned as by `Put`. Other keys keep their values, and no key is duplicated. |
| JsObject.Remove | services/auth/index.js:73 | `delete` removes the key and keeps every other lookup. |
| FileSystem.EnsureDir | services/storage/index.js:73 | Ensuring a directory fails if and only if a file is in the way. Otherwise every directory on the path exists, exactly those are added, and existing entries are kept. |
| FileSystem.EnsureDirIdempotent | services/compute/index.js:31 | A second `ensureDirSync` on the same path changes nothing. |

## Left out

- Persistence: `saveKeys`, `saveMetadata`, `saveConfig`, `writeJsonSync` and the `require` cache of `keys.json`. A persisted state is the state after the change.
- Timestamps: `new Date()` values are opaque string parameters.
- Randomness: the 32 bytes of `crypto.randomBytes` are a parameter.
- Express routing, body parsing, the `/stats` endpoint and `getAvailableDisks`. They depend on a foreign disk query.
- SQLite itself: opening, running and listing tables. A query is modelled only up to the choice between `db.all` and `db.run`. The tables handler returns the file it would open.
- File metadata: database sizes and times, and the `modified` field of browse items.
- `readdirSync` order: the browse and database listings are sets.
- Streaming and size limits: multer streaming and `res.download` are not modelled, and no upload size limit exists.
- The clients: `formatBytes` (floating point), React and DOM rendering, `fetch`, `localStorage` and AsyncStorage.
- Client routes without a server: the client calls item delete and rename routes the server does not define. Only the paths the clients build are modelled.
- Request values that are not strings: bodies and query values are absent or strings. Numbers, arrays and objects where a string is expected are not modelled. For key creation, `permissions` is either absent or a list.
- Storage root: `storageDir` comes from `getStoragePath`, which `services/storage/disk-manager.js` does not export (`services/storage/index.js:10`). It is taken as an abstract absolute root.
- The two auth stores write `keys.json` in incompatible shapes. They are modelled as two independent tables.
- WebClient.FileIcon: the icon table is looked up as own properties only. An extension such as `constructor` would find an inherited member and return it; that is not modelled.
- Compute.GetService: an inherited name such as `constructor` is treated as absent, giving 404. The code would return the inherited member.
- Common.Lower: lower-casing covers ASCII letters only. That is exact for the SELECT/PRAGMA keywords and the icon table's extensions, but not for other scripts.
- KeyStore.ValidateAsWritten: only the outcome is modelled. When an inherited member passes, the code then writes `lastUsed` onto that member (`Object.lastUsed`, or `Object.prototype.lastUsed` for `__proto__`) and saves the table. That write is not modelled: the member returns only the outcome, not a table.
- Database.ListDatabases: it reports names only. Two files that map to the same name collapse into one.
- JsObject.Put: keys are kept in insertion order. JavaScript enumerates array-index keys such as `"42"` first, in numeric order. This changes only the order of the bucket and service listings for all-digit names. The bucket table and key store keys always contain `:` or start with `cx_`, so their order is exact.
- Compute.Deploy: a service named `__proto__` is stored as an own key. In the code the assignment replaces the prototype of `metadata.services`. Listing and saving then leave it out, and lookups of other names see its fields.
- Compute.DeployThenGet: for the name `__proto__` the code does not list the service, so the promise that it is in the list holds only for other names.
- Storage.Items: a folder's size is 0. The code reports the directory's `stats.size`, which depends on the file system.
- Storage.Upload: `originalName` may contain `/`. The multipart parser strips directory parts from file names, so the server never receives such names.
- DiskManager.AddDrive: a non-empty mount path is resolved from the file system root. `existsSync` resolves a relative path against the working directory, which the model does not have.

## Findings

| source | as written | input that shows it | evidently intended | confidence | as-written member | corrected member |
|---|---|---|---|---|---|---|
| services/database/index.js:172-185 | Query, tables and delete build `<userDir>/<name>.db` from the URL name without the `[a-zA-Z0-9_]+` check that create applies. | User `u` sends `DELETE /databases/..%2Fv%2Fx`, so the name is `../v/x`. This removes `DB_PATH/v/x.db`, another user's database. | Each user reaches only the files inside `DB_PATH/<userId>`, which the code's own comment calls critical for user isolation. | high; not executed | DatabaseProps.DeleteReachesOtherUser | DatabaseProps.DeleteCheckedIsolated |
| services/auth/index.js:88-95 | `apiKeys[apiKey]` on a plain object also finds inherited members. | On an empty table, with no required permission, the header `constructor` passes the check. | Only stored keys pass. The defect is latent: no route uses `validateApiKey`; the routes use `requireAuth`. | medium; not executed | KeyStore.InheritedNamePasses | KeyStore.ValidateOnlyStoredKeys |

=== FILE: auth_gate.dfy ===
/** The `requireAuth` / `requireAdmin` middleware: the master key first, then
    the first active record of the `apiKeys` array whose `key` equals the
    `x-api-key` header. An accepted user key has its usage counter bumped and
    its last-used time set. */
module AuthGate {
  import opened Common

  const DefaultMasterKey := "cloudx-admin-2024-secure-key"

  /** `process.env.MASTER_KEY || 'cloudx-admin-2024-secure-key'` */
  function MasterKey(env: Option<string>): (k: string)
    ensures Truthy(env) ==> k == env.value
    ensures !Truthy(env) ==> k == DefaultMasterKey
  {
    OrElse(env, DefaultMasterKey)
  }

  /** One element of `keys.apiKeys`; absent fields are `None`. */
  datatype KeyRecord = KeyRecord(key: Option<string>, userId: Option<string>, active: bool,
                                 usage: Option<nat>, lastUsed: Option<string>)

  /** What the middleware attaches to the request. */
  datatype Identity = Identity(userType: string, isAdmin: bool, userId: Option<string>)

  const AdminIdentity := Identity("admin", true, None)

  /** `k.key === apiKey && k.active`; an absent header equals an absent `key` field. */
  predicate Matches(rec: KeyRecord, header: Option<string>) {
    rec.key == header && rec.active
  }

  /** `keys.apiKeys.find(...)`, as an index into the array, searching from `from`. */
  function FindActive(records: seq<KeyRecord>, header: Option<string>, from: nat): (r: Option<nat>)
    requires from <= |records|
    ensures r.Some? ==> from <= r.value < |records| && Matches(records[r.value], header)
                        && forall j :: from <= j < r.value ==> !Matches(records[j], header)
    ensures r.None? <==> forall j :: from <= j < |records| ==> !Matches(records[j], header)
    decreases |records| - from
  {
    if from == |records| then None
    else if Matches(records[from], header) then Some(from)
    else FindActive(records, header, from + 1)
  }

  /** `(validKey.usage || 0) + 1` */
  function Bumped(usage: Option<nat>): nat {
    match usage
    case None => 1
    case Some(n) => n + 1
  }

  /** The record after an accepted request at time `now`. */
  function Touch(rec: KeyRecord, now: string): KeyRecord {
    rec.(usage := Some(Bumped(rec.usage)), lastUsed := Some(now))
  }

  const Unauthenticated := "Authentication required. Please provide a valid API key."

  /** `requireAuth`: the new records and the identity, or 401. */
  function RequireAuth(records: seq<KeyRecord>, masterKey: string, header: Option<string>, now: string)
    : (r: (seq<KeyRecord>, Result<Identity>))
    ensures header == Some(masterKey) ==> r == (records, Ok(AdminIdentity))
    ensures r.1.Ok? <==> header == Some(masterKey) || exists i :: 0 <= i < |records| && Matches(records[i], header)
    ensures r.1.Fail? ==> r == (records, Fail(401, Unauthenticated))
    ensures r.1.Ok? && header != Some(masterKey) ==>
              exists i :: 0 <= i < |records| && Matches(records[i], header)
                && (forall j :: 0 <= j < i ==> !Matches(records[j], header))
                && r.1.value == Identity("user", false, records[i].userId)
                && r.0 == records[i := Touch(records[i], now)]
  {
    if header == Some(masterKey) then (records, Ok(AdminIdentity))
    else
      match FindActive(records, header, 0)
      case None => (records, Fail(401, Unauthenticated))
      case Some(i) => (records[i := Touch(records[i], now)], Ok(Identity("user", false, records[i].userId)))
  }

  /** `requireAdmin`: passes iff `req.isAdmin` is set; an unauthenticated request has none. */
  function RequireAdmin(id: Option<Identity>): (r: Result<()>)
    ensures r.Ok? <==> id.Some? && id.value.isAdmin
    ensures r.Fail? ==> r == Fail(403, "Admin access required")
  {
    if id.Some? && id.value.isAdmin then Ok(()) else Fail(403, "Admin access required")
  }

  /** Only the master key reaches admin routes: no key record grants `isAdmin`. */
  lemma AdminOnlyByMasterKey(records: seq<KeyRecord>, masterKey: string, header: Option<string>, now: string)
    ensures var r := RequireAuth(records, masterKey, header, now);
            (r.1.Ok? && RequireAdmin(Some(r.1.value)).Ok?) <==> header == Some(masterKey)
  {
  }

  /** Accepting a request never changes which records match any header. */
  lemma AuthKeepsMatches(records: seq<KeyRecord>, masterKey: string, header: Option<string>, now: string,
                         other: Option<string>)
    ensures var records' := RequireAuth(records, masterKey, header, now).0;
            && |records'| == |records|
            && forall j :: 0 <= j < |records| ==> (Matches(records'[j], other) <==> Matches(records[j], other))
  {
  }

  /** Two accepted requests with the same user key bump the same record twice. */
  lemma {:induction false} AuthTwice(records: seq<KeyRecord>, masterKey: string, header: Option<string>,
                                     now1: string, now2: string)
    requires header != Some(masterKey)
    requires RequireAuth(records, masterKey, header, now1).1.Ok?
    ensures var r1 := RequireAuth(records, masterKey, header, now1);
            var r2 := RequireAuth(r1.0, masterKey, header, now2);
            && r2.1 == r1.1
            && exists i :: 0 <= i < |records| && Matches(records[i], header)
                 && r2.0 == records[i := records[i].(usage := Some(Bumped(records[i].usage) + 1), lastUsed := Some(now2))]
  {
    var i := FindActive(records, header, 0).value;
    var records1 := records[i := Touch(records[i], now1)];
    assert RequireAuth(records, masterKey, header, now1) == (records1, Ok(Identity("user", false, records[i].userId)));
    FindAfterTouch(records, header, i, now1);
    assert RequireAuth(records1, masterKey, header, now2)
           == (records1[i := Touch(records1[i], now2)], Ok(Identity("user", false, records1[i].userId)));
    assert records1[i].userId == records[i].userId;
    TouchTwice(records, i, now1, now2);
    var r2 := RequireAuth(records1, masterKey, header, now2);
    assert 0 <= i < |records| && Matches(records[i], header)
           && r2.0 == records[i := records[i].(usage := Some(Bumped(records[i].usage) + 1), lastUsed := Some(now2))];
  }

  /** The matching record stays the first match after it is touched. */
  lemma FindAfterTouch(records: seq<KeyRecord>, header: Option<string>, i: nat, now: string)
    requires FindActive(records, header, 0) == Some(i)
    ensures FindActive(records[i := Touch(records[i], now)], header, 0) == Some(i)
  {
    var records1 := records[i := Touch(records[i], now)];
    assert Matches(records1[i], header);
    forall j | 0 <= j < i ensures !Matches(records1[j], header) {
      assert records1[j] == records[j];
    }
    FindFirst(records1, header, i);
  }

  /** Touching a record twice counts two uses and keeps the later time. */
  lemma TouchTwice(records: seq<KeyRecord>, i: nat, now1: string, now2: string)
    requires i < |records|
    ensures var records1 := records[i := Touch(records[i], now1)];
            records1[i := Touch(records1[i], now2)]
            == records[i := records[i].(usage := Some(Bumped(records[i].usage) + 1), lastUsed := Some(now2))]
  {
    var records1 := records[i := Touch(records[i], now1)];
    assert Touch(records1[i], now2) == records[i].(usage := Some(Bumped(records[i].usage) + 1), lastUsed := Some(now2));
  }

  /** The search returns the first matching index. */
  lemma {:induction false} FindFirst(records: seq<KeyRecord>, header: Option<string>, i: nat)
    requires i < |records| && Matches(records[i], header)
    requires forall j :: 0 <= j < i ==> !Matches(records[j], header)
    ensures FindActive(records, header, 0) == Some(i)
  {
    var r := FindActive(records, header, 0);
    assert r.Some?;
    assert !(r.value < i) && !(i < r.value);
  }
}

=== FILE: cli.dfy ===
/** The `cloudx` command line: the first two arguments pick a command, flags
    are found with `args.indexOf(flag)` and take the argument right after the
    first occurrence, and the command either exits with an error, prints the
    usage text, or sends one JSON request to the server. `JSON.stringify`
    leaves out fields whose value is `undefined`. The HTTP exchange itself
    and the printed replies are not modelled. */
module Cli {
  import opened Common

  /** What one invocation does. */
  datatype Outcome =
    | Request(path: string, body: seq<(string, string)>)
    | Exit(message: string)
    | Usage

  const StoragePath := "/api/v1/storage/buckets"
  const DatabasePath := "/api/v1/database/databases"
  const ComputePath := "/api/v1/compute/services"

  /** `args[i]`, `undefined` out of range. */
  function Arg(args: seq<string>, i: int): (r: Option<string>)
    ensures r.Some? <==> 0 <= i < |args|
    ensures r.Some? ==> r.value == args[i]
  {
    if 0 <= i < |args| then Some(args[i]) else None
  }

  /** `args[args.indexOf(flag) + 1]` */
  function FlagValue(args: seq<string>, flag: string): Option<string> {
    Arg(args, IndexOf(args, flag) + 1)
  }

  /** The value of an optional flag, or its default when the flag is absent. */
  function FlagOr(args: seq<string>, flag: string, default: string): Option<string> {
    if IndexOf(args, flag) != -1 then FlagValue(args, flag) else Some(default)
  }

  /** One member of the object passed to `JSON.stringify`: dropped when `undefined`. */
  function Member(key: string, v: Option<string>): seq<(string, string)> {
    match v
    case None => []
    case Some(s) => [(key, s)]
  }

  /** The value of `key` in a JSON body, `undefined` when it was left out. */
  function Field(body: seq<(string, string)>, key: string): (r: Option<string>)
    ensures r.Some? ==> (key, r.value) in body
    ensures r.None? <==> forall i :: 0 <= i < |body| ==> body[i].0 != key
    decreases |body|
  {
    if |body| == 0 then None
    else if body[0].0 == key then Some(body[0].1)
    else Field(body[1..], key)
  }

  /** Looking a key up in two bodies written one after the other. */
  lemma {:induction false} FieldAppend(a: seq<(string, string)>, b: seq<(string, string)>, key: string)
    ensures Field(a + b, key) == if Field(a, key).Some? then Field(a, key) else Field(b, key)
    decreases |a|
  {
    if |a| == 0 {
      assert a + b == b;
    } else {
      assert (a + b)[0] == a[0];
      assert (a + b)[1..] == a[1..] + b;
      FieldAppend(a[1..], b, key);
    }
  }

  /** A member is found under its own key only, holding its value. */
  lemma FieldMember(key: string, v: Option<string>, k: string)
    ensures Field(Member(key, v), k) == if k == key then v else None
  {
  }

  /** The three members of a body with three distinct keys are each found under their key. */
  lemma FieldMembers3(a: string, va: Option<string>, b: string, vb: Option<string>, c: string, vc: Option<string>)
    requires a != b && a != c && b != c
    ensures var body := Member(a, va) + Member(b, vb) + Member(c, vc);
            && |body| <= 3
            && Field(body, a) == va && Field(body, b) == vb && Field(body, c) == vc
  {
    var ab := Member(a, va) + Member(b, vb);
    forall k | k in {a, b, c}
      ensures Field(ab + Member(c, vc), k) == if k == a then va else if k == b then vb else vc
    {
      FieldAppend(Member(a, va), Member(b, vb), k);
      FieldAppend(ab, Member(c, vc), k);
      FieldMember(a, va, k);
      FieldMember(b, vb, k);
      FieldMember(c, vc, k);
    }
  }

  /** `cloudx create storage --bucket <name> [--region <region>]` */
  function CreateStorage(args: seq<string>): (o: Outcome)
    ensures o.Exit? <==> "--bucket" !in args
    ensures o.Exit? ==> o.message == "Error: --bucket argument is required"
    ensures o.Request? ==> o.path == StoragePath && |o.body| <= 2
    ensures o.Request? ==> Field(o.body, "name") == FlagValue(args, "--bucket")
    ensures o.Request? ==> Field(o.body, "region") == FlagOr(args, "--region", "default")
    ensures !o.Usage?
  {
    if IndexOf(args, "--bucket") == -1 then Exit("Error: --bucket argument is required")
    else Request(StoragePath, Member("name", FlagValue(args, "--bucket"))
                              + Member("region", FlagOr(args, "--region", "default")))
  }

  /** `cloudx create database --name <name> [--engine <engine>] [--size <size>]` */
  function CreateDatabase(args: seq<string>): (o: Outcome)
    ensures o.Exit? <==> "--name" !in args
    ensures o.Exit? ==> o.message == "Error: --name argument is required"
    ensures o.Request? ==> o.path == DatabasePath && |o.body| <= 3
    ensures o.Request? ==> Field(o.body, "name") == FlagValue(args, "--name")
    ensures o.Request? ==> Field(o.body, "engine") == FlagOr(args, "--engine", "sqlite")
    ensures o.Request? ==> Field(o.body, "size") == FlagOr(args, "--size", "small")
    ensures !o.Usage?
  {
    if IndexOf(args, "--name") == -1 then Exit("Error: --name argument is required")
    else
      FieldMembers3("name", FlagValue(args, "--name"), "engine", FlagOr(args, "--engine", "sqlite"),
                    "size", FlagOr(args, "--size", "small"));
      Request(DatabasePath, Member("name", FlagValue(args, "--name"))
                               + Member("engine", FlagOr(args, "--engine", "sqlite"))
                               + Member("size", FlagOr(args, "--size", "small")))
  }

  /** `cloudx deploy service --name <name> --source <path> --runtime <runtime>` */
  function DeployService(args: seq<string>): (o: Outcome)
    ensures o.Exit? <==> "--name" !in args || "--source" !in args || "--runtime" !in args
    ensures o.Exit? ==> o.message == "Error: --name, --source, and --runtime arguments are required"
    ensures o.Request? ==> o.path == ComputePath && |o.body| <= 3
    ensures o.Request? ==> Field(o.body, "name") == FlagValue(args, "--name")
    ensures o.Request? ==> Field(o.body, "source") == FlagValue(args, "--source")
    ensures o.Request? ==> Field(o.body, "runtime") == FlagValue(args, "--runtime")
    ensures !o.Usage?
  {
    if IndexOf(args, "--name") == -1 || IndexOf(args, "--source") == -1 || IndexOf(args, "--runtime") == -1 then
      Exit("Error: --name, --source, and --runtime arguments are required")
    else
      FieldMembers3("name", FlagValue(args, "--name"), "source", FlagValue(args, "--source"),
                    "runtime", FlagValue(args, "--runtime"));
      Request(ComputePath, Member("name", FlagValue(args, "--name"))
                              + Member("source", FlagValue(args, "--source"))
                              + Member("runtime", FlagValue(args, "--runtime")))
  }

  /** The whole program, on `process.argv.slice(2)`. */
  function Run(args: seq<string>): (o: Outcome)
    ensures o.Usage? <==> !(Arg(args, 0) == Some("create") && Arg(args, 1) == Some("storage"))
                          && !(Arg(args, 0) == Some("create") && Arg(args, 1) == Some("database"))
                          && !(Arg(args, 0) == Some("deploy") && Arg(args, 1) == Some("service"))
    ensures Arg(args, 0) == Some("create") && Arg(args, 1) == Some("storage") ==> o == CreateStorage(args)
    ensures Arg(args, 0) == Some("create") && Arg(args, 1) == Some("database") ==> o == CreateDatabase(args)
    ensures Arg(args, 0) == Some("deploy") && Arg(args, 1) == Some("service") ==> o == DeployService(args)
    ensures o.Request? && o.path == StoragePath ==> o == CreateStorage(args)
    ensures o.Request? && o.path == DatabasePath ==> o == CreateDatabase(args)
    ensures o.Request? && o.path == ComputePath ==> o == DeployService(args)
  {
    var command := Arg(args, 0);
    var resource := Arg(args, 1);
    if command == Some("create") && resource == Some("storage") then CreateStorage(args)
    else if command == Some("create") && resource == Some("database") then CreateDatabase(args)
    else if command == Some("deploy") && resource == Some("service") then DeployService(args)
    else Usage
  }

  /** The arguments the usage text shows for a bucket. */
  function StorageArgs(bucket: string, region: string): seq<string> {
    ["create", "storage", "--bucket", bucket, "--region", region]
  }

  /** Formatting a bucket command and running it sends the bucket and region it was given. */
  lemma StorageRoundTrip(bucket: string, region: string)
    requires bucket != "--region"
    ensures Run(StorageArgs(bucket, region)) == Request(StoragePath, [("name", bucket), ("region", region)])
  {
    var args := StorageArgs(bucket, region);
    assert Run(args) == CreateStorage(args) by {
      assert Arg(args, 0) == Some("create") && Arg(args, 1) == Some("storage");
    }
    IndexOfAt(args, "--bucket", 2);
    IndexOfAt(args, "--region", 4);
    StorageBody(args, bucket, region);
  }

  /** A bucket named like the region flag is read as the region flag. */
  lemma StorageFlagAsValue(region: string)
    ensures Run(StorageArgs("--region", region)) == Request(StoragePath, [("name", "--region"), ("region", "--region")])
  {
    var args := StorageArgs("--region", region);
    assert Run(args) == CreateStorage(args) by {
      assert Arg(args, 0) == Some("create") && Arg(args, 1) == Some("storage");
    }
    IndexOfAt(args, "--bucket", 2);
    IndexOfAt(args, "--region", 3);
    StorageBody(args, "--region", "--region");
  }

  /** Without `--region` the request carries the region "default". */
  lemma StorageDefaultRegion(bucket: string)
    requires bucket != "--region"
    ensures Run(["create", "storage", "--bucket", bucket]) == Request(StoragePath, [("name", bucket), ("region", "default")])
  {
    var args := ["create", "storage", "--bucket", bucket];
    assert Run(args) == CreateStorage(args) by {
      assert Arg(args, 0) == Some("create") && Arg(args, 1) == Some("storage");
    }
    IndexOfAt(args, "--bucket", 2);
    assert "--region" !in args;
    StorageBody(args, bucket, "default");
  }

  /** A bucket command whose flags carry values sends exactly those values. */
  lemma StorageBody(args: seq<string>, bucket: string, region: string)
    requires "--bucket" in args && FlagValue(args, "--bucket") == Some(bucket)
    requires FlagOr(args, "--region", "default") == Some(region)
    ensures CreateStorage(args) == Request(StoragePath, [("name", bucket), ("region", region)])
  {
    assert [("name", bucket)] + [("region", region)] == [("name", bucket), ("region", region)];
  }

  /** A flag given last has no value: its field is left out of the request. */
  lemma TrailingFlagDropped(args: seq<string>)
    requires |args| >= 2 && args[0] == "create" && args[1] == "storage"
    requires "--bucket" in args && "--region" !in args[..|args| - 1] && args[|args| - 1] == "--region"
    ensures Run(args).Request? && Field(Run(args).body, "region").None?
  {
    var k := IndexOf(args, "--region");
    forall j | 0 <= j < |args| - 1 ensures args[j] != "--region" {
      assert args[..|args| - 1][j] == args[j];
    }
    assert k == |args| - 1;
  }

  /** The arguments the usage text shows for a database. */
  function DatabaseArgs(name: string, engine: string, size: string): seq<string> {
    ["create", "database", "--name", name, "--engine", engine, "--size", size]
  }

  /** Formatting a database command and running it sends the fields it was given. */
  lemma DatabaseRoundTrip(name: string, engine: string, size: string)
    requires name != "--engine" && name != "--size" && engine != "--size"
    ensures Run(DatabaseArgs(name, engine, size))
            == Request(DatabasePath, [("name", name), ("engine", engine), ("size", size)])
  {
    var args := DatabaseArgs(name, engine, size);
    assert Run(args) == CreateDatabase(args) by {
      assert Arg(args, 0) == Some("create") && Arg(args, 1) == Some("database");
      assert Arg(args, 1) != Some("storage");
    }
    assert "--name" in args by { assert args[2] == "--name"; }
    DatabaseFlags(name, engine, size);
    DatabaseBody(args, name, engine, size);
  }

  /** Where the flags of a formatted database command are found. */
  lemma DatabaseFlags(name: string, engine: string, size: string)
    requires name != "--engine" && name != "--size" && engine != "--size"
    ensures var args := DatabaseArgs(name, engine, size);
            && FlagValue(args, "--name") == Some(name)
            && FlagOr(args, "--engine", "sqlite") == Some(engine)
            && FlagOr(args, "--size", "small") == Some(size)
  {
    var args := DatabaseArgs(name, engine, size);
    IndexOfAt(args, "--name", 2);
    IndexOfAt(args, "--engine", 4);
    IndexOfAt(args, "--size", 6);
  }

  /** A database command whose three flags all carry values sends exactly those values. */
  lemma DatabaseBody(args: seq<string>, name: string, engine: string, size: string)
    requires "--name" in args && FlagValue(args, "--name") == Some(name)
    requires FlagOr(args, "--engine", "sqlite") == Some(engine) && FlagOr(args, "--size", "small") == Some(size)
    ensures CreateDatabase(args) == Request(DatabasePath, [("name", name), ("engine", engine), ("size", size)])
  {
    assert [("name", name)] + [("engine", engine)] + [("size", size)] == [("name", name), ("engine", engine), ("size", size)];
  }

  /** The arguments the usage text shows for a service. */
  function ServiceArgs(name: string, source: string, runtime: string): seq<string> {
    ["deploy", "service", "--name", name, "--source", source, "--runtime", runtime]
  }

  /** Formatting a deploy command and running it sends the fields it was given. */
  lemma ServiceRoundTrip(name: string, source: string, runtime: string)
    requires name != "--source" && name != "--runtime" && source != "--runtime"
    ensures Run(ServiceArgs(name, source, runtime))
            == Request(ComputePath, [("name", name), ("source", source), ("runtime", runtime)])
  {
    var args := ServiceArgs(name, source, runtime);
    assert Run(args) == DeployService(args) by {
      assert Arg(args, 0) == Some("deploy") && Arg(args, 1) == Some("service");
      assert Arg(args, 0) != Some("create");
    }
    assert "--name" in args && "--source" in args && "--runtime" in args by {
      assert args[2] == "--name" && args[4] == "--source" && args[6] == "--runtime";
    }
    ServiceFlags(name, source, runtime);
    ServiceBody(args, name, source, runtime);
  }

  /** Where the flags of a formatted deploy command are found. */
  lemma ServiceFlags(name: string, source: string, runtime: string)
    requires name != "--source" && name != "--runtime" && source != "--runtime"
    ensures var args := ServiceArgs(name, source, runtime);
            && FlagValue(args, "--name") == Some(name)
            && FlagValue(args, "--source") == Some(source)
            && FlagValue(args, "--runtime") == Some(runtime)
  {
    var args := ServiceArgs(name, source, runtime);
    IndexOfAt(args, "--name", 2);
    IndexOfAt(args, "--source", 4);
    IndexOfAt(args, "--runtime", 6);
  }

  /** A deploy command whose three flags all carry values sends exactly those values. */
  lemma ServiceBody(args: seq<string>, name: string, source: string, runtime: string)
    requires "--name" in args && "--source" in args && "--runtime" in args
    requires FlagValue(args, "--name") == Some(name) && FlagValue(args, "--source") == Some(source)
    requires FlagValue(args, "--runtime") == Some(runtime)
    ensures DeployService(args) == Request(ComputePath, [("name", name), ("source", source), ("runtime", runtime)])
  {
    assert [("name", name)] + [("source", source)] + [("runtime", runtime)] == [("name", name), ("source", source), ("runtime", runtime)];
  }
}

=== FILE: common.dfy ===
/** Shared vocabulary of the model: optional values (JavaScript's `undefined`),
    HTTP-style results, and the string primitives the JavaScript code relies on
    (`split`, `join`, `startsWith`, `trim`, `toLowerCase`). */
module Common {

  /** A value that may be `undefined`. */
  datatype Option<+T> = None | Some(value: T) {
    function GetOr(default: T): T {
      match this
      case Some(v) => v
      case None => default
    }
  }

  /** The outcome of a request handler: a value, or an HTTP status with its error text. */
  datatype Result<+T> = Ok(value: T) | Fail(status: nat, message: string)

  /** JavaScript truthiness of an optional string field: `undefined` and `''` are falsy. */
  predicate Truthy(o: Option<string>) {
    o.Some? && o.value != ""
  }

  /** `a || b` for an optional string: the value when truthy, otherwise the fallback. */
  function OrElse(o: Option<string>, fallback: string): (r: string)
    ensures Truthy(o) ==> r == o.value
    ensures !Truthy(o) ==> r == fallback
  {
    if Truthy(o) then o.value else fallback
  }

  /** How a template literal renders an optional string: `undefined` prints as "undefined". */
  function Render(o: Option<string>): string {
    match o
    case Some(s) => s
    case None => "undefined"
  }

  /** `s.startsWith(p)` */
  predicate StartsWith(s: string, p: string) {
    |p| <= |s| && s[..|p|] == p
  }

  /** `s.endsWith(p)` */
  predicate EndsWith(s: string, p: string) {
    |p| <= |s| && s[|s| - |p|..] == p
  }

  /** `s.split(c)` for a one-character separator: never empty, one more part than occurrences of `c`. */
  function Split(s: string, c: char): (parts: seq<string>)
    ensures |parts| >= 1
    ensures forall i :: 0 <= i < |parts| ==> c !in parts[i]
    decreases |s|
  {
    if |s| == 0 then [""]
    else if s[0] == c then [""] + Split(s[1..], c)
    else
      var rest := Split(s[1..], c);
      [[s[0]] + rest[0]] + rest[1..]
  }

  /** `parts.join(c)` */
  function Join(parts: seq<string>, c: char): string
    decreases |parts|
  {
    if |parts| == 0 then ""
    else if |parts| == 1 then parts[0]
    else parts[0] + [c] + Join(parts[1..], c)
  }

  /** Joining a split string gives the string back. */
  lemma {:induction false} JoinSplit(s: string, c: char)
    ensures Join(Split(s, c), c) == s
    decreases |s|
  {
    if |s| == 0 {
    } else if s[0] == c {
      JoinSplit(s[1..], c);
      assert s == [c] + s[1..];
    } else {
      JoinSplit(s[1..], c);
      var rest := Split(s[1..], c);
      if |rest| == 1 {
        assert Join(Split(s, c), c) == [s[0]] + rest[0];
      } else {
        assert Join(rest, c) == rest[0] + [c] + Join(rest[1..], c);
        assert Split(s, c)[1..] == rest[1..];
        assert Join(Split(s, c), c) == ([s[0]] + rest[0]) + [c] + Join(rest[1..], c);
      }
      assert s == [s[0]] + s[1..];
    }
  }

  /** Splitting at a separator occurrence splits the two sides independently. */
  lemma {:induction false} SplitConcat(a: string, b: string, c: char)
    ensures Split(a + [c] + b, c) == Split(a, c) + Split(b, c)
    decreases |a|
  {
    var s := a + [c] + b;
    if |a| == 0 {
      assert s == [c] + b;
      assert s[1..] == b;
    } else {
      assert s[1..] == a[1..] + [c] + b;
      assert s[0] == a[0];
      SplitConcat(a[1..], b, c);
      var rest := Split(a[1..], c);
      var tail := Split(b, c);
      assert Split(s[1..], c) == rest + tail;
      if a[0] == c {
        assert Split(s, c) == [""] + (rest + tail);
        assert Split(a, c) == [""] + rest;
        assert [""] + (rest + tail) == ([""] + rest) + tail;
      } else {
        assert Split(s, c) == [[a[0]] + (rest + tail)[0]] + (rest + tail)[1..];
        assert (rest + tail)[0] == rest[0];
        assert (rest + tail)[1..] == rest[1..] + tail;
        assert Split(a, c) == [[a[0]] + rest[0]] + rest[1..];
        assert [[a[0]] + rest[0]] + (rest[1..] + tail) == ([[a[0]] + rest[0]] + rest[1..]) + tail;
      }
    }
  }

  /** A string without the separator splits into itself. */
  lemma {:induction false} SplitNoSeparator(s: string, c: char)
    requires c !in s
    ensures Split(s, c) == [s]
    decreases |s|
  {
    if |s| > 0 {
      assert c !in s[1..] by {
        forall i | 0 <= i < |s[1..]| ensures s[1..][i] != c {
          assert s[1..][i] == s[i + 1];
        }
      }
      SplitNoSeparator(s[1..], c);
      assert s == [s[0]] + s[1..];
    }
  }

  /** Splitting a join of separator-free parts recovers the parts. */
  lemma {:induction false} SplitJoin(parts: seq<string>, c: char)
    requires |parts| >= 1
    requires forall i :: 0 <= i < |parts| ==> c !in parts[i]
    ensures Split(Join(parts, c), c) == parts
    decreases |parts|
  {
    if |parts| == 1 {
      SplitNoSeparator(parts[0], c);
    } else {
      SplitJoin(parts[1..], c);
      SplitNoSeparator(parts[0], c);
      SplitConcat(parts[0], Join(parts[1..], c), c);
      assert parts == [parts[0]] + parts[1..];
    }
  }

  /** Joining two non-empty lists of parts puts one separator between them. */
  lemma {:induction false} JoinAppend(a: seq<string>, b: seq<string>, c: char)
    requires |a| >= 1 && |b| >= 1
    ensures Join(a + b, c) == Join(a, c) + [c] + Join(b, c)
    decreases |a|
  {
    if |a| == 1 {
      assert (a + b)[1..] == b;
    } else {
      assert (a + b)[1..] == a[1..] + b;
      JoinAppend(a[1..], b, c);
    }
  }

  /** `s.replace(p, "")` with a string pattern: only the first occurrence is removed. */
  function RemoveFirst(s: string, p: string): (r: string)
    requires |p| > 0
    decreases |s|
  {
    if |s| < |p| then s
    else if s[..|p|] == p then s[|p|..]
    else [s[0]] + RemoveFirst(s[1..], p)
  }

  /** Removing a pattern that occurs exactly once, at the end, strips that suffix. */
  lemma {:induction false} RemoveFirstSuffix(s: string, p: string)
    requires |p| > 0
    requires forall i :: 0 <= i < |s| ==> s[i] != p[0]
    ensures RemoveFirst(s + p, p) == s
    decreases |s|
  {
    if |s| > 0 {
      assert (s + p)[..|p|][0] == s[0] != p[0];
      assert (s + p)[1..] == s[1..] + p;
      RemoveFirstSuffix(s[1..], p);
      assert s == [s[0]] + s[1..];
    } else {
      assert s + p == p;
    }
  }

  /** JavaScript's `String.prototype.trim` white space and line terminators. */
  predicate IsJsSpace(ch: char) {
    ch == '\t' || ch == '\n' || ch == '\U{0B}' || ch == '\U{0C}' || ch == '\r' || ch == ' '
    || ch == '\U{A0}' || ch == '\U{1680}' || ('\U{2000}' <= ch <= '\U{200A}')
    || ch == '\U{2028}' || ch == '\U{2029}' || ch == '\U{202F}' || ch == '\U{205F}'
    || ch == '\U{3000}' || ch == '\U{FEFF}'
  }

  function TrimStart(s: string): (r: string)
    ensures |r| <= |s| && r == s[|s| - |r|..]
    ensures |r| > 0 ==> !IsJsSpace(r[0])
    ensures forall i :: 0 <= i < |s| - |r| ==> IsJsSpace(s[i])
    decreases |s|
  {
    if |s| > 0 && IsJsSpace(s[0]) then TrimStart(s[1..]) else s
  }

  function TrimEnd(s: string): (r: string)
    ensures |r| <= |s| && r == s[..|r|]
    ensures |r| > 0 ==> !IsJsSpace(r[|r| - 1])
    ensures forall i :: |r| <= i < |s| ==> IsJsSpace(s[i])
    decreases |s|
  {
    if |s| > 0 && IsJsSpace(s[|s| - 1]) then TrimEnd(s[..|s| - 1]) else s
  }

  /** `s.trim()` */
  function Trim(s: string): string {
    TrimEnd(TrimStart(s))
  }

  /** `toLowerCase` on one character, for the ASCII letters. */
  function LowerChar(ch: char): char {
    if 'A' <= ch <= 'Z' then (ch as int + 32) as char else ch
  }

  /** `s.toLowerCase()`, restricted to ASCII letters (see README). */
  function Lower(s: string): (r: string)
    ensures |r| == |s|
    ensures forall i :: 0 <= i < |s| ==> r[i] == LowerChar(s[i])
  {
    seq(|s|, i requires 0 <= i < |s| => LowerChar(s[i]))
  }

  /** `array.indexOf(x)`, with -1 for absent. */
  function IndexOf(s: seq<string>, x: string): (i: int)
    ensures -1 <= i < |s|
    ensures i == -1 <==> x !in s
    ensures i >= 0 ==> s[i] == x && forall j :: 0 <= j < i ==> s[j] != x
    decreases |s|
  {
    if |s| == 0 then -1
    else if s[0] == x then 0
    else
      var k := IndexOf(s[1..], x);
      if k == -1 then -1 else k + 1
  }

  /** The first occurrence is where `indexOf` stops. */
  lemma IndexOfAt(s: seq<string>, x: string, i: nat)
    requires i < |s| && s[i] == x && x !in s[..i]
    ensures IndexOf(s, x) == i
  {
    forall j | 0 <= j < i ensures s[j] != x {
      assert s[..i][j] == s[j];
    }
  }
}

=== FILE: compute.dfy ===
/** The compute registry: `metadata.services`, an object from service name to
    its record, and one directory per service under the deployments
    directory. A deployment only records the request; nothing is started.
    The handlers have no `try`, so a thrown `ensureDirSync` reaches Express's
    default handler, modelled as a 500. */
module Compute {
  import opened Common
  import opened JsObject
  import opened NodePath
  import opened FileSystem

  datatype Service = Service(source: string, runtime: string, status: string, deployedAt: string, url: string)

  const UrlBase := "http://localhost:3000/api/v1/compute/"

  /** The simulated endpoint of a service. */
  function ServiceUrl(name: string): (u: string)
    ensures StartsWith(u, UrlBase) && u[|UrlBase|..] == name
  {
    UrlBase + name
  }

  /** `path.join(deploymentsDir, name)` */
  function ServiceDir(deploymentsDir: string, name: string): string {
    JoinPaths([deploymentsDir, name])
  }

  /** POST /services: the new registry, the new file system, and the response `{ name, ...record }`. */
  function Deploy(services: Table<Service>, fs: Fs, deploymentsDir: string, name: Option<string>,
                  source: Option<string>, runtime: Option<string>, now: string)
    : (r: (Table<Service>, Fs, Result<(string, Service)>))
    ensures !(Truthy(name) && Truthy(source) && Truthy(runtime))
            ==> r == (services, fs, Fail(400, "Missing required fields: name, source, runtime"))
    ensures r.2.Fail? ==> r.0 == services && r.1 == fs
    ensures r.2.Ok? <==> Truthy(name) && Truthy(source) && Truthy(runtime)
                         && !Blocked(fs, Locate(ServiceDir(deploymentsDir, name.value)))
    ensures r.2.Ok? ==>
              var rec := Service(source.value, runtime.value, "running", now, ServiceUrl(name.value));
              && r.2.value == (name.value, rec)
              && Get(r.0, name.value) == Some(rec)
              && (forall k :: k != name.value ==> Get(r.0, k) == Get(services, k))
              && Locate(ServiceDir(deploymentsDir, name.value)) in r.1
              && r.1[Locate(ServiceDir(deploymentsDir, name.value))] == Dir
              && (forall p :: p in fs ==> p in r.1 && r.1[p] == fs[p])
  {
    if !(Truthy(name) && Truthy(source) && Truthy(runtime)) then
      (services, fs, Fail(400, "Missing required fields: name, source, runtime"))
    else
      var dir := Locate(ServiceDir(deploymentsDir, name.value));
      match EnsureDir(fs, dir)
      case Fail(_, _) => (services, fs, Fail(500, "Internal Server Error"))
      case Ok(fs1) =>
        assert dir == dir[..|dir|];
        var rec := Service(source.value, runtime.value, "running", now, ServiceUrl(name.value));
        (Put(services, name.value, rec), fs1, Ok((name.value, rec)))
  }

  /** GET /services/:name */
  function GetService(services: Table<Service>, name: string): (r: Result<Service>)
    ensures r.Fail? <==> name !in Keys(services)
    ensures r.Fail? ==> r == Fail(404, "Service not found")
    ensures r.Ok? ==> exists i :: 0 <= i < |services| && services[i] == (name, r.value)
  {
    match Get(services, name)
    case None => Fail(404, "Service not found")
    case Some(rec) => Ok(rec)
  }

  /** GET /services: the whole registry, in insertion order. */
  function ListServices(services: Table<Service>): Table<Service> {
    services
  }

  /** A deployed service is found under its name, with the record the deployment returned. */
  lemma DeployThenGet(services: Table<Service>, fs: Fs, deploymentsDir: string, name: Option<string>,
                      source: Option<string>, runtime: Option<string>, now: string)
    requires Deploy(services, fs, deploymentsDir, name, source, runtime, now).2.Ok?
    ensures var r := Deploy(services, fs, deploymentsDir, name, source, runtime, now);
            && GetService(r.0, name.value) == Ok(r.2.value.1)
            && name.value in Keys(ListServices(r.0))
            && r.2.value.1.status == "running"
  {
  }

  /** Deploying never changes what another name finds. */
  lemma DeployKeepsOthers(services: Table<Service>, fs: Fs, deploymentsDir: string, name: Option<string>,
                          source: Option<string>, runtime: Option<string>, now: string, other: string)
    requires name != Some(other)
    ensures GetService(Deploy(services, fs, deploymentsDir, name, source, runtime, now).0, other)
            == GetService(services, other)
  {
  }

  /** Deploying a name twice keeps one entry, in its first position, holding the second record. */
  lemma {:induction false} RedeployOverwrites(services: Table<Service>, fs: Fs, deploymentsDir: string,
                                              name: string, source1: string, runtime1: string, now1: string,
                                              source2: string, runtime2: string, now2: string)
    requires Distinct(services) && source2 != "" && runtime2 != ""
    requires Deploy(services, fs, deploymentsDir, Some(name), Some(source1), Some(runtime1), now1).2.Ok?
    ensures var r1 := Deploy(services, fs, deploymentsDir, Some(name), Some(source1), Some(runtime1), now1);
            var r2 := Deploy(r1.0, r1.1, deploymentsDir, Some(name), Some(source2), Some(runtime2), now2);
            && r2.2.Ok?
            && Keys(r2.0) == Keys(r1.0)
            && Distinct(r2.0)
            && GetService(r2.0, name) == Ok(Service(source2, runtime2, "running", now2, ServiceUrl(name)))
  {
    var r1 := Deploy(services, fs, deploymentsDir, Some(name), Some(source1), Some(runtime1), now1);
    var dir := Locate(ServiceDir(deploymentsDir, name));
    assert r1.1 == EnsureDir(fs, dir).value;
    EnsureDirIdempotent(fs, dir);
    PutDistinct(services, name, Service(source1, runtime1, "running", now1, ServiceUrl(name)));
    PutDistinct(r1.0, name, Service(source2, runtime2, "running", now2, ServiceUrl(name)));
  }

  /** For an absolute deployments directory and a plain name, the service
      directory is the name's child. */
  lemma ServiceDirShape(root: seq<string>, name: string)
    requires NormalSegs(root) && NormalSeg(name)
    ensures ServiceDir(Abs(root), name) == Abs(root + [name])
    ensures Locate(ServiceDir(Abs(root), name)) == root + [name]
  {
    JoinName(root, name);
    LocateAbsStr(root + [name], false);
  }
}

=== FILE: database.dfy ===
/** The database router's catalog rules. Each user's databases are files
    `<name>.db` in `DB_PATH/<userId>`, a directory created on every request.
    Create checks the name's character set; query, tables and delete take the
    name from the URL unchecked. SQLite itself is not modelled: a query is
    only classified into the read path (`db.all`) or the write path
    (`db.run`). Handlers wrap their bodies in `try`, so a thrown error (an
    absent `userId`, a file in the way) becomes 500 with the handler's text. */
module Database {
  import opened Common
  import opened NodePath
  import opened FileSystem
  import JsObject

  /** `[a-zA-Z0-9_]` */
  predicate IsWordChar(c: char) {
    ('a' <= c <= 'z') || ('A' <= c <= 'Z') || ('0' <= c <= '9') || c == '_'
  }

  /** `/^[a-zA-Z0-9_]+$/.test(name)` */
  predicate ValidName(name: string) {
    |name| > 0 && forall i :: 0 <= i < |name| ==> IsWordChar(name[i])
  }

  const Ext := ".db"

  /** `getUserDbPath(userId)`: the path of the user's directory, after `ensureDirSync`. */
  function UserDbPath(fs: Fs, dbRoot: string, user: Option<string>): (r: Result<(Fs, string)>)
    ensures user.None? ==> r.Fail?
    ensures user.Some? ==> (r.Ok? <==> !Blocked(fs, Locate(JoinPaths([dbRoot, user.value]))))
    ensures r.Ok? ==> user.Some? && r.value.1 == JoinPaths([dbRoot, user.value])
                      && EnsureDir(fs, Locate(r.value.1)) == Ok(r.value.0)
  {
    if user.None? then Fail(500, "The \"path\" argument must be of type string")
    else
      var p := JoinPaths([dbRoot, user.value]);
      match EnsureDir(fs, Locate(p))
      case Fail(code, msg) => Fail(code, msg)
      case Ok(fs1) => Ok((fs1, p))
  }

  /** `path.join(userPath, `${name}.db`)` */
  function DbFile(userPath: string, name: string): string {
    JoinPaths([userPath, name + Ext])
  }

  /** The names `GET /databases` reports for the entries of directory `dir`:
      those ending in ".db", with the first ".db" removed. The name `__proto__`
      is assigned to the result object's prototype, so `res.json` omits it. */
  function DbNames(fs: Fs, dir: seq<string>): (names: set<string>)
    ensures forall n :: n in names <==>
              && n != JsObject.ProtoKey
              && exists c :: c in ChildPaths(fs, dir) && EndsWith(c[|dir|], Ext) && RemoveFirst(c[|dir|], Ext) == n
  {
    set c | c in ChildPaths(fs, dir) && EndsWith(c[|dir|], Ext) && RemoveFirst(c[|dir|], Ext) != JsObject.ProtoKey
      :: RemoveFirst(c[|dir|], Ext)
  }

  /** GET /databases (the names; sizes and timestamps are not modelled). */
  function ListDatabases(fs: Fs, dbRoot: string, user: Option<string>): (r: (Fs, Result<set<string>>))
    ensures user.None? ==> r == (fs, Fail(500, "Failed to list databases"))
    ensures r.1.Ok? <==> UserDbPath(fs, dbRoot, user).Ok?
    ensures UserDbPath(fs, dbRoot, user).Fail? ==> r == (fs, Fail(500, "Failed to list databases"))
    ensures r.1.Ok? ==> r.0 == UserDbPath(fs, dbRoot, user).value.0
                        && r.1.value == DbNames(r.0, Locate(UserDbPath(fs, dbRoot, user).value.1))
  {
    match UserDbPath(fs, dbRoot, user)
    case Fail(_, _) => (fs, Fail(500, "Failed to list databases"))
    case Ok((fs1, userPath)) => (fs1, Ok(DbNames(fs1, Locate(userPath))))
  }

  /** POST /databases. The SQLite open creates the empty file; its own failure is not modelled. */
  function CreateDatabase(fs: Fs, dbRoot: string, user: Option<string>, name: Option<string>)
    : (r: (Fs, Result<string>))
    ensures !Truthy(name) ==> r == (fs, Fail(400, "Database name is required"))
    ensures (Truthy(name) && !ValidName(name.value))
              ==> r == (fs, Fail(400, "Database name can only contain letters, numbers, and underscores"))
    ensures (Truthy(name) && ValidName(name.value) && user.None?) ==> r == (fs, Fail(500, "Failed to create database"))
    ensures (Truthy(name) && ValidName(name.value) && UserDbPath(fs, dbRoot, user).Fail?)
              ==> r == (fs, Fail(500, "Failed to create database"))
    ensures (Truthy(name) && ValidName(name.value) && UserDbPath(fs, dbRoot, user).Ok?) ==>
              var up := UserDbPath(fs, dbRoot, user).value;
              var f := DbFile(up.1, name.value);
              && (Exists(up.0, f) ==> r == (up.0, Fail(400, "Database already exists")))
              && (r.1.Ok? <==> !Exists(up.0, f) && WriteFile(up.0, f, 0).Ok?)
    ensures r.1.Ok? ==>
              && Truthy(name) && ValidName(name.value) && user.Some? && r.1.value == name.value
              && var userPath := JoinPaths([dbRoot, user.value]);
                 var f := Locate(DbFile(userPath, name.value));
                 && f in r.0 && r.0[f] == File(0)
                 && (forall k :: k in fs && k != f ==> k in r.0 && r.0[k] == fs[k])
  {
    if !Truthy(name) then (fs, Fail(400, "Database name is required"))
    else if !ValidName(name.value) then
      (fs, Fail(400, "Database name can only contain letters, numbers, and underscores"))
    else
      match UserDbPath(fs, dbRoot, user)
      case Fail(_, _) => (fs, Fail(500, "Failed to create database"))
      case Ok((fs1, userPath)) =>
        var dbFile := DbFile(userPath, name.value);
        if Exists(fs1, dbFile) then (fs1, Fail(400, "Database already exists"))
        else
          match WriteFile(fs1, dbFile, 0)
          case Fail(_, _) => (fs1, Fail(500, "Failed to create database"))
          case Ok(fs2) => (fs2, Ok(name.value))
  }

  /** Which SQLite call a query takes. */
  datatype QueryPath = ReadPath | WritePath

  /** `query.trim().toLowerCase()` starts with "select" or "pragma". */
  function Classify(query: string): (p: QueryPath) {
    var q := Lower(Trim(query));
    if StartsWith(q, "select") || StartsWith(q, "pragma") then ReadPath else WritePath
  }

  /** `s` begins with the lower-case keyword `kw`, ignoring ASCII case. */
  predicate KeywordAt(s: string, kw: string) {
    |kw| <= |s| && forall i :: 0 <= i < |kw| ==> LowerChar(s[i]) == kw[i]
  }

  /** Lower-casing then testing the prefix is a case-insensitive prefix test. */
  lemma LowerStartsWith(s: string, kw: string)
    ensures StartsWith(Lower(s), kw) <==> KeywordAt(s, kw)
  {
    if |kw| <= |s| {
      if KeywordAt(s, kw) {
        assert Lower(s)[..|kw|] == kw;
      }
      if StartsWith(Lower(s), kw) {
        forall i | 0 <= i < |kw| ensures LowerChar(s[i]) == kw[i] {
          assert Lower(s)[..|kw|][i] == kw[i];
        }
      }
    }
  }

  /** A query takes the read path iff its text, after the surrounding white
      space, begins with SELECT or PRAGMA in any letter case. */
  lemma ReadPathIff(query: string)
    ensures Classify(query) == ReadPath <==> KeywordAt(Trim(query), "select") || KeywordAt(Trim(query), "pragma")
  {
    LowerStartsWith(Trim(query), "select");
    LowerStartsWith(Trim(query), "pragma");
  }

  /** POST /databases/:name/query, up to the choice of SQLite call. */
  function QueryDatabase(fs: Fs, dbRoot: string, user: Option<string>, name: string, query: Option<string>)
    : (r: (Fs, Result<QueryPath>))
    ensures !Truthy(query) ==> r == (fs, Fail(400, "Query is required"))
    ensures Truthy(query) && user.None? ==> r == (fs, Fail(500, "Failed to execute query"))
    ensures r.1.Ok? ==> Truthy(query) && r.1.value == Classify(query.value)
                        && UserDbPath(fs, dbRoot, user).Ok?
                        && Exists(r.0, DbFile(UserDbPath(fs, dbRoot, user).value.1, name))
    ensures r.1.Fail? && r.1.status == 404 ==>
              && r.1.message == "Database not found"
              && UserDbPath(fs, dbRoot, user).Ok?
              && !Exists(r.0, DbFile(UserDbPath(fs, dbRoot, user).value.1, name))
    ensures Truthy(query) && UserDbPath(fs, dbRoot, user).Fail? ==> r == (fs, Fail(500, "Failed to execute query"))
    ensures Truthy(query) && UserDbPath(fs, dbRoot, user).Ok? ==>
              var up := UserDbPath(fs, dbRoot, user).value;
              && r.0 == up.0
              && (!Exists(up.0, DbFile(up.1, name)) ==> r.1 == Fail(404, "Database not found"))
              && (Exists(up.0, DbFile(up.1, name)) ==> r.1 == Ok(Classify(query.value)))
  {
    if !Truthy(query) then (fs, Fail(400, "Query is required"))
    else
      match UserDbPath(fs, dbRoot, user)
      case Fail(_, _) => (fs, Fail(500, "Failed to execute query"))
      case Ok((fs1, userPath)) =>
        if !Exists(fs1, DbFile(userPath, name)) then (fs1, Fail(404, "Database not found"))
        else (fs1, Ok(Classify(query.value)))
  }

  /** GET /databases/:name/tables, up to the SQLite query; on success the file it opens. */
  function DatabaseTables(fs: Fs, dbRoot: string, user: Option<string>, name: string): (r: (Fs, Result<string>))
    ensures user.None? ==> r == (fs, Fail(500, "Failed to get tables"))
    ensures UserDbPath(fs, dbRoot, user).Ok? ==>
              var up := UserDbPath(fs, dbRoot, user).value;
              && r.0 == up.0
              && (r.1.Ok? <==> Exists(up.0, DbFile(up.1, name)))
              && (r.1.Ok? ==> r.1.value == DbFile(up.1, name))
              && (r.1.Fail? ==> r.1 == Fail(404, "Database not found"))
  {
    match UserDbPath(fs, dbRoot, user)
    case Fail(_, _) => (fs, Fail(500, "Failed to get tables"))
    case Ok((fs1, userPath)) =>
      if !Exists(fs1, DbFile(userPath, name)) then (fs1, Fail(404, "Database not found"))
      else (fs1, Ok(DbFile(userPath, name)))
  }

  /** `fs.removeSync(p)`: the node at `segs` and everything below it. */
  function RemoveTree(fs: Fs, segs: seq<string>): (r: Fs)
    ensures forall k :: k in r <==> k in fs && !(segs <= k)
    ensures forall k :: k in r ==> r[k] == fs[k]
  {
    map k | k in fs && !(segs <= k) :: fs[k]
  }

  /** DELETE /databases/:name, as written: the name is not checked. */
  function DeleteDatabase(fs: Fs, dbRoot: string, user: Option<string>, name: string): (r: (Fs, Result<string>))
    ensures user.None? ==> r == (fs, Fail(500, "Failed to delete database"))
    ensures UserDbPath(fs, dbRoot, user).Ok? ==>
              var up := UserDbPath(fs, dbRoot, user).value;
              var p := DbFile(up.1, name);
              && (r.1.Ok? <==> Exists(up.0, p))
              && (r.1.Ok? ==> r.0 == RemoveTree(up.0, Locate(p)))
              && (r.1.Fail? ==> r == (up.0, Fail(404, "Database not found")))
  {
    match UserDbPath(fs, dbRoot, user)
    case Fail(_, _) => (fs, Fail(500, "Failed to delete database"))
    case Ok((fs1, userPath)) =>
      var p := DbFile(userPath, name);
      if !Exists(fs1, p) then (fs1, Fail(404, "Database not found"))
      else (RemoveTree(fs1, Locate(p)), Ok("Database deleted successfully"))
  }

  /** DELETE /databases/:name with the character-set check create applies. */
  function DeleteChecked(fs: Fs, dbRoot: string, user: Option<string>, name: string): (r: (Fs, Result<string>))
    ensures !ValidName(name) ==> r == (fs, Fail(400, "Database name can only contain letters, numbers, and underscores"))
    ensures ValidName(name) ==> r == DeleteDatabase(fs, dbRoot, user, name)
  {
    if !ValidName(name) then (fs, Fail(400, "Database name can only contain letters, numbers, and underscores"))
    else DeleteDatabase(fs, dbRoot, user, name)
  }
}

=== FILE: database_props.dfy ===
/** Properties of the database catalog across calls, for a storage root
    `DB_PATH` that is a printed absolute path of normal segments and a user
    id that is a plain name. */
module DatabaseProps {
  import opened Common
  import opened NodePath
  import opened FileSystem
  import opened Database
  import JsObject

  /** A checked name maps to `<name>.db` and back. */
  lemma NameRoundTrip(name: string)
    requires ValidName(name)
    ensures EndsWith(name + Ext, Ext)
    ensures RemoveFirst(name + Ext, Ext) == name
  {
    assert (name + Ext)[|name + Ext| - |Ext|..] == Ext;
    forall i | 0 <= i < |name| ensures name[i] != Ext[0] {
      assert IsWordChar(name[i]);
    }
    RemoveFirstSuffix(name, Ext);
  }

  /** The file name of a checked database name is a plain path segment. */
  lemma FileNameNormal(name: string)
    requires ValidName(name)
    ensures NormalSeg(name + Ext)
  {
    assert |name + Ext| >= 4;
    forall i | 0 <= i < |name + Ext| ensures (name + Ext)[i] != '/' {
      if i < |name| { assert IsWordChar(name[i]); }
    }
  }

  /** A checked database of user `u` is the file `<DB_PATH>/<u>/<name>.db`. */
  lemma DbFileShape(root: seq<string>, u: string, name: string)
    requires NormalSegs(root) && NormalSeg(u) && ValidName(name)
    ensures JoinPaths([Abs(root), u]) == Abs(root + [u])
    ensures DbFile(Abs(root + [u]), name) == Abs(root + [u, name + Ext])
    ensures Locate(DbFile(Abs(root + [u]), name)) == root + [u, name + Ext]
    ensures NormalSegs(root + [u, name + Ext])
  {
    JoinName(root, u);
    FileNameNormal(name);
    JoinName(root + [u], name + Ext);
    assert root + [u] + [name + Ext] == root + [u, name + Ext];
    LocateAbsStr(root + [u, name + Ext], false);
  }

  /** The user directory resolves to `<DB_PATH>/<u>`. */
  lemma UserDirShape(fs: Fs, root: seq<string>, u: string)
    requires NormalSegs(root) && NormalSeg(u)
    ensures JoinPaths([Abs(root), u]) == Abs(root + [u])
    ensures Locate(Abs(root + [u])) == root + [u]
  {
    JoinName(root, u);
    LocateAbsStr(root + [u], false);
  }

  /** A database just created appears in its owner's listing under its name,
      except one named `__proto__`, which the listing never shows. */
  lemma CreateThenListed(fs: Fs, root: seq<string>, u: string, name: string)
    requires NormalSegs(root) && NormalSeg(u) && ValidName(name)
    requires CreateDatabase(fs, Abs(root), Some(u), Some(name)).1.Ok?
    ensures var fs' := CreateDatabase(fs, Abs(root), Some(u), Some(name)).0;
            ListDatabases(fs', Abs(root), Some(u)) == (fs', Ok(DbNames(fs', root + [u])))
            && (name in ListDatabases(fs', Abs(root), Some(u)).1.value <==> name != JsObject.ProtoKey)
  {
    var dir := root + [u];
    UserDirShape(fs, root, u);
    DbFileShape(root, u, name);
    var fs1 := EnsureDir(fs, dir).value;
    var f := dir + [name + Ext];
    assert UserDbPath(fs, Abs(root), Some(u)) == Ok((fs1, Abs(dir)));
    JoinLastChar(dir + [name + Ext]);
    var p := DbFile(Abs(dir), name);
    assert f == root + [u, name + Ext];
    assert p == "/" + Join(f, '/');
    assert !EndsWithSlash(p) by {
      assert p[|p| - 1] == Join(f, '/')[|Join(f, '/')| - 1];
    }
    assert Locate(p) == f;
    assert !Exists(fs1, p);
    assert f !in fs1;
    assert f[..|f| - 1] == dir && dir == dir[..|dir|];
    assert dir in fs1 && fs1[dir] == Dir;
    assert WriteFile(fs1, DbFile(Abs(dir), name), 0) == Ok(fs1[f := File(0)]);
    assert CreateDatabase(fs, Abs(root), Some(u), Some(name)).0 == fs1[f := File(0)];
    var fs' := fs1[f := File(0)];
    forall i | 0 <= i <= |dir| ensures dir[..i] in fs' && fs'[dir[..i]] == Dir {
      assert dir[..i] != f;
    }
    EnsureDirPresent(fs', dir);
    assert f in ChildPaths(fs', dir) && f[|dir|] == name + Ext;
    NameRoundTrip(name);
  }

  /** Creating a name whose file is already there fails with 400. */
  lemma CreateRejectsExisting(fs: Fs, root: seq<string>, u: string, name: string)
    requires NormalSegs(root) && NormalSeg(u) && ValidName(name)
    requires root + [u, name + Ext] in fs && !Blocked(fs, root + [u])
    ensures CreateDatabase(fs, Abs(root), Some(u), Some(name)).1 == Fail(400, "Database already exists")
  {
    var dir := root + [u];
    UserDirShape(fs, root, u);
    DbFileShape(root, u, name);
    var fs1 := EnsureDir(fs, dir).value;
    assert UserDbPath(fs, Abs(root), Some(u)) == Ok((fs1, Abs(dir)));
    JoinLastChar(root + [u, name + Ext]);
    assert Exists(fs1, DbFile(Abs(dir), name));
  }

  /** After a delete, the same name is reported missing by a query. */
  lemma DeleteThenQueryMissing(fs: Fs, root: seq<string>, u: string, name: string, query: string)
    requires NormalSegs(root) && NormalSeg(u) && ValidName(name) && query != ""
    requires DeleteDatabase(fs, Abs(root), Some(u), name).1.Ok?
    ensures var fs' := DeleteDatabase(fs, Abs(root), Some(u), name).0;
            QueryDatabase(fs', Abs(root), Some(u), name, Some(query)).1 == Fail(404, "Database not found")
  {
    var dir := root + [u];
    UserDirShape(fs, root, u);
    DbFileShape(root, u, name);
    var fs1 := EnsureDir(fs, dir).value;
    var f := dir + [name + Ext];
    var fs' := RemoveTree(fs1, f);
    assert DeleteDatabase(fs, Abs(root), Some(u), name).0 == fs';
    forall i | 0 <= i <= |dir| ensures dir[..i] in fs' && fs'[dir[..i]] == Dir {
      assert !(f <= dir[..i]);
    }
    EnsureDirPresent(fs', dir);
  }

  /** The unchecked name `../<v>/<x>` names user `v`'s database `x`. */
  lemma DbFileEscapes(root: seq<string>, u: string, v: string, x: string)
    requires NormalSegs(root) && NormalSeg(u) && NormalSeg(v) && ValidName(x)
    ensures DbFile(Abs(root + [u]), "../" + v + "/" + x) == Abs(root + [v, x + Ext])
    ensures Locate(DbFile(Abs(root + [u]), "../" + v + "/" + x)) == root + [v, x + Ext]
  {
    FileNameNormal(x);
    assert "../" + v + "/" + x + Ext == "../" + v + "/" + (x + Ext);
    JoinUpOver(root, u, v, x + Ext);
  }

  /** As written, user `u` deletes user `v`'s database `x` by asking for `../<v>/<x>`. */
  lemma DeleteReachesOtherUser(fs: Fs, root: seq<string>, u: string, v: string, x: string)
    requires NormalSegs(root) && NormalSeg(u) && NormalSeg(v) && ValidName(x)
    requires root + [v, x + Ext] in fs && fs[root + [v, x + Ext]].File?
    requires forall i :: 0 <= i <= |root + [u]| ==> (root + [u])[..i] in fs && fs[(root + [u])[..i]] == Dir
    ensures var r := DeleteDatabase(fs, Abs(root), Some(u), "../" + v + "/" + x);
            r.1.Ok? && root + [v, x + Ext] !in r.0
  {
    UserDirShape(fs, root, u);
    EnsureDirPresent(fs, root + [u]);
    DbFileEscapes(root, u, v, x);
    DbFileShape(root, v, x);
    JoinLastChar(root + [v, x + Ext]);
    assert UserDbPath(fs, Abs(root), Some(u)) == Ok((fs, Abs(root + [u])));
    assert Exists(fs, DbFile(Abs(root + [u]), "../" + v + "/" + x));
  }

  /** With the check, a delete by user `u` removes only entries inside `<DB_PATH>/<u>`. */
  lemma DeleteCheckedIsolated(fs: Fs, root: seq<string>, u: string, name: string)
    requires NormalSegs(root) && NormalSeg(u)
    ensures var r := DeleteChecked(fs, Abs(root), Some(u), name);
            forall k :: k in fs && k !in r.0 ==> root + [u] <= k
  {
    if ValidName(name) {
      UserDirShape(fs, root, u);
      DbFileShape(root, u, name);
      var f := root + [u, name + Ext];
      assert root + [u] <= f;
      var r := DeleteChecked(fs, Abs(root), Some(u), name);
      if EnsureDir(fs, root + [u]).Ok? {
        var fs1 := EnsureDir(fs, root + [u]).value;
        forall k | k in fs && k !in r.0 ensures root + [u] <= k {
          assert k in fs1;
          if r.1.Ok? {
            assert f <= k;
            assert (root + [u]) == f[..|root + [u]|];
          }
        }
      }
    }
  }
}

=== FILE: disk_manager.dfy ===
/** The drive pool of the storage service: the configured mount paths and,
    in parallel, one pool entry per mount with its `cloudx-storage`
    directory. Errors are thrown as plain `Error`s; the model reports them
    as failures carrying the error text. */
module DiskManager {
  import opened Common
  import opened NodePath
  import opened FileSystem

  datatype PoolEntry = PoolEntry(mountPath: string, storagePath: string, addedAt: string)

  datatype Config = Config(selectedDrives: seq<string>, storagePool: seq<PoolEntry>)

  /** The configuration before any drive is added. */
  const EmptyConfig := Config([], [])

  /** The mount paths of the pool entries, in order. */
  function Mounts(pool: seq<PoolEntry>): (ms: seq<string>)
    ensures |ms| == |pool|
    ensures forall i :: 0 <= i < |pool| ==> ms[i] == pool[i].mountPath
  {
    seq(|pool|, i requires 0 <= i < |pool| => pool[i].mountPath)
  }

  predicate NoDuplicates(s: seq<string>) {
    forall i, j :: 0 <= i < j < |s| ==> s[i] != s[j]
  }

  /** `path.join(mountPath, 'cloudx-storage')` */
  function StorageDirOf(mountPath: string): string {
    JoinPaths([mountPath, "cloudx-storage"])
  }

  /** The two lists describe the same drives, in the same order, once each,
      and every entry stores into its mount's `cloudx-storage` directory. */
  predicate Synced(cfg: Config) {
    && Mounts(cfg.storagePool) == cfg.selectedDrives
    && NoDuplicates(cfg.selectedDrives)
    && forall e :: e in cfg.storagePool ==> e.storagePath == StorageDirOf(e.mountPath)
  }

  /** `addDriveToPool(mountPath)`: the new configuration and file system, and the storage path. */
  function AddDrive(cfg: Config, fs: Fs, mountPath: string, now: string): (r: (Config, Fs, Result<string>))
    ensures !Exists(fs, mountPath) ==> r == (cfg, fs, Fail(500, "Drive path does not exist"))
    ensures (Exists(fs, mountPath) && mountPath in cfg.selectedDrives)
              ==> r == (cfg, fs, Fail(500, "Drive already in storage pool"))
    ensures r.2.Fail? ==> r.0 == cfg && r.1 == fs
    ensures r.2.Ok? <==> Exists(fs, mountPath) && mountPath !in cfg.selectedDrives
                         && !Blocked(fs, Locate(StorageDirOf(mountPath)))
    ensures r.2.Ok? ==>
              && r.2.value == StorageDirOf(mountPath)
              && r.0 == Config(cfg.selectedDrives + [mountPath],
                               cfg.storagePool + [PoolEntry(mountPath, StorageDirOf(mountPath), now)])
              && Locate(StorageDirOf(mountPath)) in r.1 && r.1[Locate(StorageDirOf(mountPath))] == Dir
  {
    if !Exists(fs, mountPath) then (cfg, fs, Fail(500, "Drive path does not exist"))
    else if mountPath in cfg.selectedDrives then (cfg, fs, Fail(500, "Drive already in storage pool"))
    else
      var storagePath := StorageDirOf(mountPath);
      match EnsureDir(fs, Locate(storagePath))
      case Fail(code, msg) => (cfg, fs, Fail(code, msg))
      case Ok(fs1) =>
        assert Locate(storagePath) == Locate(storagePath)[..|Locate(storagePath)|];
        (Config(cfg.selectedDrives + [mountPath], cfg.storagePool + [PoolEntry(mountPath, storagePath, now)]),
         fs1, Ok(storagePath))
  }

  /** `pool.filter(d => d.mountPath !== mountPath)` */
  function DropMount(pool: seq<PoolEntry>, mountPath: string): (r: seq<PoolEntry>)
    ensures forall e :: e in r <==> e in pool && e.mountPath != mountPath
    decreases |pool|
  {
    if |pool| == 0 then []
    else if pool[0].mountPath == mountPath then DropMount(pool[1..], mountPath)
    else [pool[0]] + DropMount(pool[1..], mountPath)
  }

  /** `removeDriveFromPool(mountPath)` */
  function RemoveDrive(cfg: Config, mountPath: string): (r: (Config, Result<()>))
    ensures mountPath !in cfg.selectedDrives ==> r == (cfg, Fail(500, "Drive not in storage pool"))
    ensures mountPath in cfg.selectedDrives ==>
              var i := IndexOf(cfg.selectedDrives, mountPath);
              && r.1.Ok?
              && r.0.selectedDrives == cfg.selectedDrives[..i] + cfg.selectedDrives[i + 1..]
              && r.0.storagePool == DropMount(cfg.storagePool, mountPath)
  {
    var i := IndexOf(cfg.selectedDrives, mountPath);
    if i == -1 then (cfg, Fail(500, "Drive not in storage pool"))
    else (Config(cfg.selectedDrives[..i] + cfg.selectedDrives[i + 1..], DropMount(cfg.storagePool, mountPath)), Ok(()))
  }

  /** `getNextDrive()`: always the first pool entry. */
  function NextDrive(cfg: Config): (r: Result<string>)
    ensures r.Fail? <==> |cfg.storagePool| == 0
    ensures r.Ok? ==> r.value == cfg.storagePool[0].storagePath
    ensures r.Fail? ==> r == Fail(500, "No drives in storage pool")
  {
    if |cfg.storagePool| == 0 then Fail(500, "No drives in storage pool")
    else Ok(cfg.storagePool[0].storagePath)
  }

  /** `getStoragePathForBucket(bucketName)`, with the module's directory as `moduleDir`. */
  function StoragePathForBucket(cfg: Config, moduleDir: string, bucketName: string): (p: string)
    ensures |cfg.storagePool| == 0 ==> p == JoinPaths([moduleDir, "data", bucketName])
    ensures |cfg.storagePool| > 0 ==> p == JoinPaths([NextDrive(cfg).value, "buckets", bucketName])
  {
    if |cfg.storagePool| == 0 then JoinPaths([moduleDir, "data", bucketName])
    else JoinPaths([NextDrive(cfg).value, "buckets", bucketName])
  }

  /** A filter for a mount that no entry has keeps the pool as it is. */
  lemma {:induction false} DropAbsent(pool: seq<PoolEntry>, mountPath: string)
    requires mountPath !in Mounts(pool)
    ensures DropMount(pool, mountPath) == pool
    decreases |pool|
  {
    if |pool| > 0 {
      assert Mounts(pool)[0] == pool[0].mountPath;
      assert mountPath !in Mounts(pool[1..]) by {
        forall j | 0 <= j < |pool| - 1 ensures Mounts(pool[1..])[j] != mountPath {
          assert Mounts(pool[1..])[j] == Mounts(pool)[j + 1];
        }
      }
      DropAbsent(pool[1..], mountPath);
      assert [pool[0]] + pool[1..] == pool;
    }
  }

  /** In a pool whose mounts are distinct, the filter removes exactly the one entry for the mount. */
  lemma {:induction false} DropAt(pool: seq<PoolEntry>, mountPath: string, i: nat)
    requires NoDuplicates(Mounts(pool))
    requires i < |pool| && pool[i].mountPath == mountPath
    ensures DropMount(pool, mountPath) == pool[..i] + pool[i + 1..]
    decreases |pool|
  {
    var tail := pool[1..];
    assert NoDuplicates(Mounts(tail)) by {
      forall a, b | 0 <= a < b < |tail| ensures Mounts(tail)[a] != Mounts(tail)[b] {
        assert Mounts(tail)[a] == Mounts(pool)[a + 1] && Mounts(tail)[b] == Mounts(pool)[b + 1];
      }
    }
    if i == 0 {
      assert mountPath !in Mounts(tail) by {
        forall j | 0 <= j < |tail| ensures Mounts(tail)[j] != mountPath {
          assert Mounts(tail)[j] == Mounts(pool)[j + 1] && Mounts(pool)[0] == mountPath;
        }
      }
      DropAbsent(tail, mountPath);
      assert pool[..0] + pool[1..] == tail;
    } else {
      assert pool[0].mountPath != mountPath by {
        assert Mounts(pool)[0] != Mounts(pool)[i];
      }
      DropAt(tail, mountPath, i - 1);
      assert [pool[0]] + (tail[..i - 1] + tail[i..]) == pool[..i] + pool[i + 1..];
    }
  }

  /** Removing an element of a list without duplicates leaves a list without duplicates. */
  lemma RemoveAtDistinct(s: seq<string>, i: nat)
    requires NoDuplicates(s) && i < |s|
    ensures NoDuplicates(s[..i] + s[i + 1..])
    ensures s[i] !in s[..i] + s[i + 1..]
  {
    var t := s[..i] + s[i + 1..];
    forall a, b | 0 <= a < b < |t| ensures t[a] != t[b] {
      var a' := if a < i then a else a + 1;
      var b' := if b < i then b else b + 1;
      assert t[a] == s[a'] && t[b] == s[b'];
    }
    forall j | 0 <= j < |t| ensures t[j] != s[i] {
      var j' := if j < i then j else j + 1;
      assert t[j] == s[j'];
    }
  }

  /** Adding a drive keeps the two lists in step. */
  lemma AddKeepsSynced(cfg: Config, fs: Fs, mountPath: string, now: string)
    requires Synced(cfg)
    ensures Synced(AddDrive(cfg, fs, mountPath, now).0)
  {
    var r := AddDrive(cfg, fs, mountPath, now);
    if r.2.Ok? {
      var e := PoolEntry(mountPath, StorageDirOf(mountPath), now);
      assert Mounts(cfg.storagePool + [e]) == cfg.selectedDrives + [mountPath];
    }
  }

  /** Removing one entry from the pool removes the same position from its mounts. */
  lemma MountsRemoveAt(pool: seq<PoolEntry>, i: nat)
    requires i < |pool|
    ensures Mounts(pool[..i] + pool[i + 1..]) == Mounts(pool)[..i] + Mounts(pool)[i + 1..]
  {
    var rest := pool[..i] + pool[i + 1..];
    var ms := Mounts(pool);
    forall j | 0 <= j < |rest| ensures Mounts(rest)[j] == (ms[..i] + ms[i + 1..])[j] {
      var j' := if j < i then j else j + 1;
      assert rest[j] == pool[j'];
      assert (ms[..i] + ms[i + 1..])[j] == ms[j'];
    }
  }

  /** Removing a drive keeps the two lists in step. */
  lemma RemoveKeepsSynced(cfg: Config, mountPath: string)
    requires Synced(cfg)
    ensures Synced(RemoveDrive(cfg, mountPath).0)
    ensures mountPath !in RemoveDrive(cfg, mountPath).0.selectedDrives
  {
    if mountPath in cfg.selectedDrives {
      var i := IndexOf(cfg.selectedDrives, mountPath);
      var pool := cfg.storagePool;
      assert pool[i].mountPath == mountPath by { assert Mounts(pool)[i] == pool[i].mountPath; }
      DropAt(pool, mountPath, i);
      RemoveAtDistinct(cfg.selectedDrives, i);
      MountsRemoveAt(pool, i);
    }
  }

  /** Adding a drive and removing it again restores the configuration. */
  lemma AddThenRemove(cfg: Config, fs: Fs, mountPath: string, now: string)
    requires Synced(cfg)
    requires AddDrive(cfg, fs, mountPath, now).2.Ok?
    ensures RemoveDrive(AddDrive(cfg, fs, mountPath, now).0, mountPath) == (cfg, Ok(()))
  {
    var e := PoolEntry(mountPath, StorageDirOf(mountPath), now);
    assert AddDrive(cfg, fs, mountPath, now).0
           == Config(cfg.selectedDrives + [mountPath], cfg.storagePool + [e]);
    RemoveAppended(cfg, e);
  }

  /** Removing the drive of an entry appended to a synced configuration restores it. */
  lemma RemoveAppended(cfg: Config, e: PoolEntry)
    requires Synced(cfg) && e.mountPath !in cfg.selectedDrives
    ensures RemoveDrive(Config(cfg.selectedDrives + [e.mountPath], cfg.storagePool + [e]), e.mountPath) == (cfg, Ok(()))
  {
    var sel := cfg.selectedDrives + [e.mountPath];
    var pool := cfg.storagePool + [e];
    var n := |cfg.selectedDrives|;
    assert sel[..n] == cfg.selectedDrives;
    IndexOfAt(sel, e.mountPath, n);
    assert sel[..n] + sel[n + 1..] == cfg.selectedDrives;
    assert NoDuplicates(Mounts(pool)) by {
      assert Mounts(pool) == sel;
    }
    DropAt(pool, e.mountPath, n);
    assert pool[..n] + pool[n + 1..] == cfg.storagePool;
  }

  /** Every new bucket goes to the first drive: adding drives later never moves it. */
  lemma AddKeepsBucketPath(cfg: Config, fs: Fs, mountPath: string, now: string, moduleDir: string, bucketName: string)
    requires |cfg.storagePool| > 0
    ensures StoragePathForBucket(AddDrive(cfg, fs, mountPath, now).0, moduleDir, bucketName)
            == StoragePathForBucket(cfg, moduleDir, bucketName)
  {
    var r := AddDrive(cfg, fs, mountPath, now);
    if r.2.Ok? {
      assert r.0.storagePool[0] == cfg.storagePool[0];
    }
  }

  /** The storage directory of a mount at an absolute path is its `cloudx-storage` child. */
  lemma StorageDirShape(ms: seq<string>)
    requires NormalSegs(ms)
    ensures StorageDirOf(Abs(ms)) == Abs(ms + ["cloudx-storage"])
    ensures NormalSegs(ms + ["cloudx-storage"])
  {
    assert NormalSeg("cloudx-storage");
    JoinName(ms, "cloudx-storage");
  }

  /** When the first pool entry stores into `<mount>/cloudx-storage` for an
      absolute mount, a bucket lands in `<mount>/cloudx-storage/buckets/<bucket>`. */
  lemma DriveBucketPath(cfg: Config, ms: seq<string>, moduleDir: string, bucketName: string)
    requires |cfg.storagePool| > 0 && cfg.storagePool[0].storagePath == StorageDirOf(Abs(ms))
    requires NormalSegs(ms) && NormalSeg(bucketName)
    ensures StoragePathForBucket(cfg, moduleDir, bucketName) == Abs(ms + ["cloudx-storage", "buckets", bucketName])
  {
    assert NormalSeg("cloudx-storage") && NormalSeg("buckets");
    JoinNested(ms, "cloudx-storage", "buckets", bucketName);
  }

  /** In a synced pool whose first drive is mounted at an absolute path, a
      bucket lands in `<mount>/cloudx-storage/buckets/<bucket>`. */
  lemma FirstDriveBucketPath(cfg: Config, ms: seq<string>, moduleDir: string, bucketName: string)
    requires Synced(cfg) && |cfg.storagePool| > 0 && cfg.storagePool[0].mountPath == Abs(ms)
    requires NormalSegs(ms) && NormalSeg(bucketName)
    ensures StoragePathForBucket(cfg, moduleDir, bucketName) == Abs(ms + ["cloudx-storage", "buckets", bucketName])
  {
    assert cfg.storagePool[0] in cfg.storagePool;
    DriveBucketPath(cfg, ms, moduleDir, bucketName);
  }
}

=== FILE: file_system.dfy ===
/** The file system the storage service touches, abstracted as a finite map
    from resolved absolute segment lists to nodes. Only the effects the
    service relies on are modelled: `existsSync`, `ensureDirSync` (recursive
    mkdir) and writing one file. */
module FileSystem {
  import opened Common
  import opened NodePath

  /** Directory sizes are abstracted to 0; a file records its byte count. */
  datatype FsNode = Dir | File(size: nat)

  type Fs = map<seq<string>, FsNode>

  /** `fs.existsSync(p)`: the empty path never exists, and a trailing '/'
      only resolves on a directory. */
  predicate Exists(fs: Fs, p: string) {
    var segs := Locate(p);
    p != "" && segs in fs && (EndsWithSlash(p) ==> fs[segs].Dir?)
  }

  /** Some ancestor-or-self of `segs` (the root included) is a regular file. */
  predicate Blocked(fs: Fs, segs: seq<string>) {
    exists i :: 0 <= i <= |segs| && segs[..i] in fs && fs[segs[..i]].File?
  }

  /** The directory and all its ancestors, the root included. */
  function Prefixes(segs: seq<string>): (ps: set<seq<string>>)
    ensures forall i :: 0 <= i <= |segs| ==> segs[..i] in ps
    ensures forall q :: q in ps ==> q <= segs
  {
    set i | 0 <= i <= |segs| :: segs[..i]
  }

  /** `fs.ensureDirSync(p)`: creates every missing directory on the way, and
      fails (the call throws, nothing is created) when a file is in the way. */
  function EnsureDir(fs: Fs, segs: seq<string>): (r: Result<Fs>)
    ensures r.Fail? <==> Blocked(fs, segs)
    ensures r.Ok? ==> forall i :: 0 <= i <= |segs| ==> segs[..i] in r.value && r.value[segs[..i]] == Dir
    ensures r.Ok? ==> r.value.Keys == fs.Keys + Prefixes(segs)
    ensures r.Ok? ==> forall k :: k in fs ==> k in r.value && r.value[k] == fs[k]
  {
    if Blocked(fs, segs) then Fail(500, "ENOTDIR: not a directory")
    else
      var r := map k | k in fs.Keys + Prefixes(segs) :: if k in fs then fs[k] else Dir;
      assert forall i :: 0 <= i <= |segs| ==> segs[..i] in r && r[segs[..i]] == Dir by {
        forall i | 0 <= i <= |segs| ensures segs[..i] in r && r[segs[..i]] == Dir {
          assert segs[..i] in Prefixes(segs);
          if segs[..i] in fs {
            assert !fs[segs[..i]].File?;
          }
        }
      }
      Ok(r)
  }

  /** `ensureDirSync` adds only directories, so it never changes whether a
      file stands on the way to any path. */
  lemma EnsureDirKeepsBlocked(fs: Fs, segs: seq<string>, other: seq<string>)
    requires EnsureDir(fs, segs).Ok?
    ensures Blocked(EnsureDir(fs, segs).value, other) <==> Blocked(fs, other)
  {
    var fs1 := EnsureDir(fs, segs).value;
    if Blocked(fs1, other) {
      var i :| 0 <= i <= |other| && other[..i] in fs1 && fs1[other[..i]].File?;
      assert other[..i] in fs;
    }
  }

  /** Creating a write stream on `p` and writing `size` bytes: fails on a
      directory, on a path ending in '/', on the root, or when the parent
      directory is missing; otherwise creates or replaces the file. */
  function WriteFile(fs: Fs, p: string, size: nat): (r: Result<Fs>)
    ensures r.Ok? <==> var segs := Locate(p);
                       && !EndsWithSlash(p) && |segs| > 0
                       && !(segs in fs && fs[segs].Dir?)
                       && segs[..|segs| - 1] in fs && fs[segs[..|segs| - 1]].Dir?
    ensures r.Ok? ==> r.value == fs[Locate(p) := File(size)]
  {
    var segs := Locate(p);
    if EndsWithSlash(p) || |segs| == 0 then Fail(500, "EISDIR: illegal operation on a directory")
    else if segs in fs && fs[segs].Dir? then Fail(500, "EISDIR: illegal operation on a directory")
    else if !(segs[..|segs| - 1] in fs && fs[segs[..|segs| - 1]].Dir?) then Fail(500, "ENOENT: no such file or directory")
    else Ok(fs[segs := File(size)])
  }

  /** The entries directly inside directory `segs` (`readdirSync`), as segment lists. */
  function ChildPaths(fs: Fs, segs: seq<string>): (cs: set<seq<string>>)
    ensures forall c :: c in cs <==> c in fs && |c| == |segs| + 1 && c[..|segs|] == segs
  {
    set c | c in fs.Keys && |c| == |segs| + 1 && c[..|segs|] == segs
  }

  /** Once every directory on the way exists, `ensureDirSync` changes nothing. */
  lemma EnsureDirPresent(fs: Fs, segs: seq<string>)
    requires forall i :: 0 <= i <= |segs| ==> segs[..i] in fs && fs[segs[..i]] == Dir
    ensures EnsureDir(fs, segs) == Ok(fs)
  {
    assert !Blocked(fs, segs);
    var r := EnsureDir(fs, segs).value;
    forall q | q in Prefixes(segs) ensures q in fs {
      assert q == segs[..|q|];
    }
    assert r.Keys == fs.Keys;
    assert forall k :: k in r ==> r[k] == fs[k];
    assert r == fs;
  }

  /** `ensureDirSync` is idempotent: a second call on the same path changes nothing. */
  lemma EnsureDirIdempotent(fs: Fs, segs: seq<string>)
    requires EnsureDir(fs, segs).Ok?
    ensures EnsureDir(EnsureDir(fs, segs).value, segs) == EnsureDir(fs, segs)
  {
    EnsureDirPresent(EnsureDir(fs, segs).value, segs);
  }
}

=== FILE: folder_path.dfy ===
/** Folder paths as both clients build them: relative, '/'-separated, with
    the bucket root written as the empty string. */
module FolderPath {
  import opened Common

  /** `currentFolder ? `${currentFolder}/${name}` : name` */
  function ChildPath(folder: string, name: string): string {
    if folder != "" then folder + ['/'] + name else name
  }

  /** `path.split('/').pop()` */
  function LastSegment(path: string): (r: string)
    ensures '/' !in r
  {
    var parts := Split(path, '/');
    parts[|parts| - 1]
  }

  /** A child path has the folder's segments followed by the name's. */
  lemma ChildSegments(folder: string, name: string)
    ensures folder != "" ==> Split(ChildPath(folder, name), '/') == Split(folder, '/') + Split(name, '/')
    ensures folder == "" ==> Split(ChildPath(folder, name), '/') == Split(name, '/')
  {
    if folder != "" {
      SplitConcat(folder, name, '/');
    }
  }

  /** A path is its leading segments, a '/', and its last segment; or just the
      last segment when it has no '/'. */
  lemma SplitLast(path: string)
    ensures var parts := Split(path, '/');
            && (|parts| == 1 ==> path == LastSegment(path))
            && (|parts| >= 2 ==> path == Join(parts[..|parts| - 1], '/') + ['/'] + LastSegment(path))
  {
    var parts := Split(path, '/');
    JoinSplit(path, '/');
    if |parts| >= 2 {
      var n := |parts|;
      assert parts == parts[..n - 1] + [parts[n - 1]];
      JoinAppend(parts[..n - 1], [parts[n - 1]], '/');
    }
  }
}

=== FILE: js_object.dfy ===
/** A plain JavaScript object used as a string-keyed table: own enumerable
    properties in insertion order (the order `Object.keys` and
    `Object.entries` report for keys that are not array indices; array-index
    keys such as "42" would come first, in numeric order). Assigning to an
    existing key keeps its position; `delete` removes it. */
module JsObject {
  import opened Common

  type Table<V> = seq<(string, V)>

  /** The keys in enumeration order. */
  function Keys<V>(t: Table<V>): (ks: seq<string>)
    ensures |ks| == |t|
    ensures forall i :: 0 <= i < |t| ==> ks[i] == t[i].0
    decreases |t|
  {
    if |t| == 0 then [] else [t[0].0] + Keys(t[1..])
  }

  /** No key occurs twice, as in every JavaScript object. */
  predicate Distinct<V>(t: Table<V>) {
    forall i, j :: 0 <= i < j < |t| ==> t[i].0 != t[j].0
  }

  /** `obj[k]` for an own property, `undefined` when absent. */
  function Get<V>(t: Table<V>, k: string): (r: Option<V>)
    ensures r.None? <==> k !in Keys(t)
    ensures r.Some? ==> exists i :: 0 <= i < |t| && t[i] == (k, r.value)
    decreases |t|
  {
    if |t| == 0 then None
    else if t[0].0 == k then Some(t[0].1)
    else
      Get(t[1..], k)
  }

  /** The tail of a duplicate-free table is duplicate-free and misses the head's key. */
  lemma DistinctTail<V>(t: Table<V>)
    requires |t| > 0 && Distinct(t)
    ensures Distinct(t[1..]) && t[0].0 !in Keys(t[1..])
  {
    forall j | 0 <= j < |t[1..]| ensures Keys(t[1..])[j] != t[0].0 {
      assert t[1..][j] == t[j + 1];
    }
    forall i, j | 0 <= i < j < |t[1..]| ensures t[1..][i].0 != t[1..][j].0 {
      assert t[1..][i] == t[i + 1] && t[1..][j] == t[j + 1];
    }
  }

  /** Prepending an entry with a fresh key keeps a table duplicate-free. */
  lemma DistinctCons<V>(x: (string, V), rest: Table<V>)
    requires Distinct(rest) && x.0 !in Keys(rest)
    ensures Distinct([x] + rest)
  {
    forall i, j | 0 <= i < j < |[x] + rest| ensures ([x] + rest)[i].0 != ([x] + rest)[j].0 {
      if i == 0 {
        assert ([x] + rest)[j].0 == Keys(rest)[j - 1];
      } else {
        assert ([x] + rest)[i] == rest[i - 1] && ([x] + rest)[j] == rest[j - 1];
      }
    }
  }

  /** Keys and lookups of a table with one entry in front. */
  lemma ConsFacts<V>(x: (string, V), rest: Table<V>)
    ensures Keys([x] + rest) == [x.0] + Keys(rest)
    ensures forall k' :: Get([x] + rest, k') == if x.0 == k' then Some(x.1) else Get(rest, k')
  {
    assert ([x] + rest)[1..] == rest;
  }

  /** One step of assignment, for the keys: putting an entry with another
      key in front of an assigned table gives the keys of the longer one. */
  lemma PutStepKeys<V>(x: (string, V), tail: Table<V>, k: string, rest: Table<V>)
    requires x.0 != k
    requires Keys(rest) == if k in Keys(tail) then Keys(tail) else Keys(tail) + [k]
    ensures Keys([x] + rest) == if k in Keys([x] + tail) then Keys([x] + tail) else Keys([x] + tail) + [k]
  {
    var ks := Keys(tail);
    assert ([x] + rest)[1..] == rest;
    assert ([x] + tail)[1..] == tail;
    assert Keys([x] + tail) == [x.0] + ks;
    assert Keys([x] + rest) == [x.0] + Keys(rest);
    assert (k in [x.0] + ks) == (k in ks);
    if k !in ks {
      assert [x.0] + (ks + [k]) == ([x.0] + ks) + [k];
    }
  }

  /** One step of assignment, for the lookups. */
  lemma PutStepGet<V>(x: (string, V), tail: Table<V>, k: string, v: V, rest: Table<V>)
    requires x.0 != k
    requires Get(rest, k) == Some(v)
    requires forall k' :: k' != k ==> Get(rest, k') == Get(tail, k')
    ensures Get([x] + rest, k) == Some(v)
    ensures forall k' :: k' != k ==> Get([x] + rest, k') == Get([x] + tail, k')
  {
    assert ([x] + rest)[1..] == rest;
    assert ([x] + tail)[1..] == tail;
  }

  /** `obj[k] = v` */
  function Put<V>(t: Table<V>, k: string, v: V): (r: Table<V>)
    ensures Keys(r) == if k in Keys(t) then Keys(t) else Keys(t) + [k]
    ensures Get(r, k) == Some(v)
    ensures forall k' :: k' != k ==> Get(r, k') == Get(t, k')
    decreases |t|
  {
    if |t| == 0 then [(k, v)]
    else
      assert t == [t[0]] + t[1..];
      if t[0].0 == k then
        ConsFacts(t[0], t[1..]);
        ConsFacts((k, v), t[1..]);
        [(k, v)] + t[1..]
      else
        var rest := Put(t[1..], k, v);
        PutStepKeys(t[0], t[1..], k, rest);
        PutStepGet(t[0], t[1..], k, v, rest);
        [t[0]] + rest
  }

  /** The key whose assignment creates no own property: `obj["__proto__"] = v`
      replaces the prototype of a plain object, so `Object.keys` and
      `JSON.stringify` never report it. */
  const ProtoKey := "__proto__"

  /** The own properties of a plain object after `obj[k] = v`. */
  function Assign<V>(t: Table<V>, k: string, v: V): (r: Table<V>)
    ensures k == ProtoKey ==> r == t
    ensures k != ProtoKey ==> Keys(r) == (if k in Keys(t) then Keys(t) else Keys(t) + [k])
    ensures k != ProtoKey ==> Get(r, k) == Some(v)
    ensures forall k' :: k' != k ==> Get(r, k') == Get(t, k')
    ensures Distinct(t) ==> Distinct(r)
    ensures forall j :: j in Keys(r) <==> j in Keys(t) || (j == k && k != ProtoKey)
  {
    if k == ProtoKey then t
    else
      if Distinct(t) then PutDistinct(t, k, v); Put(t, k, v) else Put(t, k, v)
  }

  /** Assigning a fresh key appends the entry at the end. */
  lemma {:induction false} PutFresh<V>(t: Table<V>, k: string, v: V)
    requires k !in Keys(t)
    ensures Put(t, k, v) == t + [(k, v)]
    decreases |t|
  {
    if |t| > 0 {
      assert t == [t[0]] + t[1..];
      ConsFacts(t[0], t[1..]);
      assert t[0].0 != k;
      PutFresh(t[1..], k, v);
      assert [t[0]] + (t[1..] + [(k, v)]) == t + [(k, v)];
    }
  }

  /** Assignment never creates a duplicate key. */
  lemma {:induction false} PutDistinct<V>(t: Table<V>, k: string, v: V)
    requires Distinct(t)
    ensures Distinct(Put(t, k, v))
    decreases |t|
  {
    if |t| > 0 {
      DistinctTail(t);
      if t[0].0 == k {
        DistinctCons((k, v), t[1..]);
      } else {
        PutDistinct(t[1..], k, v);
        var rest := Put(t[1..], k, v);
        assert t[0].0 !in Keys(rest);
        DistinctCons(t[0], rest);
      }
    }
  }

  /** `delete obj[k]` */
  function Remove<V>(t: Table<V>, k: string): (r: Table<V>)
    ensures k !in Keys(r)
    ensures forall k' :: k' != k ==> Get(r, k') == Get(t, k')
    ensures forall i :: 0 <= i < |r| ==> r[i] in t
    ensures k !in Keys(t) ==> r == t
    decreases |t|
  {
    if |t| == 0 then []
    else
      var rest := Remove(t[1..], k);
      if t[0].0 == k then rest
      else
        assert ([t[0]] + rest)[1..] == rest;
        assert k !in Keys(t) ==> [t[0]] + rest == t;
        [t[0]] + rest
  }

  /** Deleting keeps a table duplicate-free and removes exactly one entry when the key is present. */
  lemma {:induction false} RemoveDistinct<V>(t: Table<V>, k: string)
    requires Distinct(t)
    ensures Distinct(Remove(t, k))
    ensures k in Keys(t) ==> |Remove(t, k)| == |t| - 1
    decreases |t|
  {
    if |t| > 0 {
      DistinctTail(t);
      RemoveDistinct(t[1..], k);
      var rest := Remove(t[1..], k);
      if t[0].0 != k {
        forall j | 0 <= j < |rest| ensures Keys(rest)[j] != t[0].0 {
          assert rest[j] in t[1..];
          var m :| 0 <= m < |t[1..]| && t[1..][m] == rest[j];
          assert Keys(t[1..])[m] == rest[j].0;
        }
        DistinctCons(t[0], rest);
      }
    }
  }

  /** `Object.keys(obj).find(p)` for the predicate "starts with `prefix`". */
  function FindKeyWithPrefix<V>(t: Table<V>, prefix: string): (r: Option<string>)
    ensures r.Some? ==> r.value in Keys(t) && StartsWith(r.value, prefix)
    ensures r.Some? ==> exists i :: 0 <= i < |t| && t[i].0 == r.value
                          && forall j :: 0 <= j < i ==> !StartsWith(t[j].0, prefix)
    ensures r.None? <==> forall i :: 0 <= i < |t| ==> !StartsWith(t[i].0, prefix)
    decreases |t|
  {
    if |t| == 0 then None
    else if StartsWith(t[0].0, prefix) then Some(t[0].0)
    else
      var r := FindKeyWithPrefix(t[1..], prefix);
      assert Keys(t) == [t[0].0] + Keys(t[1..]);
      assert forall i :: 1 <= i < |t| ==> t[i] == t[1..][i - 1];
      if r.Some? then
        var i :| 0 <= i < |t[1..]| && t[1..][i].0 == r.value
                 && forall j :: 0 <= j < i ==> !StartsWith(t[1..][j].0, prefix);
        assert t[i + 1].0 == r.value;
        assert forall j :: 0 <= j < i + 1 ==> !StartsWith(t[j].0, prefix) by {
          forall j | 0 <= j < i + 1 ensures !StartsWith(t[j].0, prefix) {
            if j > 0 { assert t[j] == t[1..][j - 1]; }
          }
        }
        r
      else
        r
  }
}

=== FILE: key_store.dfy ===
/** The auth router's own key table: a plain object keyed by the secret,
    created, listed with a preview, revoked by prefix, and checked by the
    `validateApiKey(requiredPermission)` middleware. */
module KeyStore {
  import opened Common
  import opened JsObject

  type Byte = x: int | 0 <= x < 256

  const HexDigits := "0123456789abcdef"

  /** One lower-case hexadecimal digit. */
  predicate IsHexDigit(c: char) {
    '0' <= c <= '9' || 'a' <= c <= 'f'
  }

  lemma HexDigitsAreDigits(v: nat)
    requires v < 16
    ensures IsHexDigit(HexDigits[v])
  {
  }

  /** `buffer.toString('hex')`: two lower-case digits per byte, high nibble first. */
  function Hex(bytes: seq<Byte>): (s: string)
    ensures |s| == 2 * |bytes|
    ensures forall i :: 0 <= i < |s| ==> IsHexDigit(s[i])
    decreases |bytes|
  {
    if |bytes| == 0 then ""
    else
      HexDigitsAreDigits(bytes[0] / 16);
      HexDigitsAreDigits(bytes[0] % 16);
      [HexDigits[bytes[0] / 16], HexDigits[bytes[0] % 16]] + Hex(bytes[1..])
  }

  /** The value of one hex digit. */
  function DigitValue(c: char): (v: nat)
    requires IsHexDigit(c)
    ensures v < 16 && HexDigits[v] == c
  {
    if '0' <= c <= '9' then (c as int) - ('0' as int) else (c as int) - ('a' as int) + 10
  }

  /** Reading the digits back, two per byte. */
  function Unhex(s: string): (bytes: seq<Byte>)
    requires |s| % 2 == 0
    requires forall i :: 0 <= i < |s| ==> IsHexDigit(s[i])
    decreases |s|
  {
    if |s| == 0 then []
    else [DigitValue(s[0]) * 16 + DigitValue(s[1])] + Unhex(s[2..])
  }

  lemma DigitOfValue(v: nat)
    requires v < 16
    ensures DigitValue(HexDigits[v]) == v
  {
  }

  /** The hex text loses nothing: reading it back gives the bytes. */
  lemma {:induction false} UnhexHex(bytes: seq<Byte>)
    ensures Unhex(Hex(bytes)) == bytes
    decreases |bytes|
  {
    if |bytes| > 0 {
      var s := Hex(bytes);
      var b := bytes[0];
      DigitOfValue(b / 16);
      DigitOfValue(b % 16);
      assert s[2..] == Hex(bytes[1..]);
      UnhexHex(bytes[1..]);
    }
  }

  const KeyTag := "cx_"

  /** `generateApiKey()`, with the 32 bytes of `crypto.randomBytes(32)` as input. */
  function GenerateApiKey(bytes: seq<Byte>): (key: string)
    ensures |key| == 3 + 2 * |bytes|
    ensures StartsWith(key, KeyTag)
    ensures forall i :: 3 <= i < |key| ==> IsHexDigit(key[i])
    ensures Unhex(key[3..]) == bytes
  {
    var h := Hex(bytes);
    UnhexHex(bytes);
    assert (KeyTag + h)[3..] == h;
    assert forall i :: 3 <= i < |KeyTag + h| ==> (KeyTag + h)[i] == h[i - 3];
    KeyTag + h
  }

  /** The shape of every key `generateApiKey` returns. */
  predicate WellFormedKey(k: string) {
    |k| == 67 && StartsWith(k, KeyTag) && forall i :: 3 <= i < |k| ==> IsHexDigit(k[i])
  }

  lemma GeneratedKeyWellFormed(bytes: seq<Byte>)
    requires |bytes| == 32
    ensures WellFormedKey(GenerateApiKey(bytes))
  {
  }

  /** A stored key record. */
  datatype KeyData = KeyData(name: string, permissions: seq<string>, created: string, lastUsed: Option<string>)

  const DefaultPermissions := ["database:read", "database:write", "storage:read", "storage:write"]

  /** The body of a successful create. */
  datatype Created = Created(key: string, name: string, permissions: seq<string>)

  /** POST /keys. `permissions` is the request's array, kept even when empty
      (an array is truthy); absent, the default four apply. */
  function CreateKey(t: Table<KeyData>, name: Option<string>, permissions: Option<seq<string>>,
                     bytes: seq<Byte>, now: string): (r: (Table<KeyData>, Result<Created>))
    ensures !Truthy(name) ==> r == (t, Fail(400, "Name is required"))
    ensures r.1.Ok? ==>
              var key := GenerateApiKey(bytes);
              var perms := if permissions.Some? then permissions.value else DefaultPermissions;
              && Truthy(name)
              && r.1.value == Created(key, name.value, perms)
              && Get(r.0, key) == Some(KeyData(name.value, perms, now, None))
              && (forall k :: k != key ==> Get(r.0, k) == Get(t, k))
              && Keys(r.0) == if key in Keys(t) then Keys(t) else Keys(t) + [key]
    ensures Truthy(name) ==> r.1.Ok?
  {
    if !Truthy(name) then (t, Fail(400, "Name is required"))
    else
      var key := GenerateApiKey(bytes);
      var perms := if permissions.Some? then permissions.value else DefaultPermissions;
      (Put(t, key, KeyData(name.value, perms, now, None)), Ok(Created(key, name.value, perms)))
  }

  /** One element of the list response. */
  datatype KeyInfo = KeyInfo(keyPrefix: string, name: string, permissions: seq<string>, created: string,
                             lastUsed: Option<string>)

  /** `key.substring(0, 10) + '...'` */
  function Preview(key: string): (p: string)
    ensures |p| == (if |key| < 10 then |key| else 10) + 3
    ensures StartsWith(key, p[..|p| - 3]) && EndsWith(p, "...")
  {
    (if |key| < 10 then key else key[..10]) + "..."
  }

  /** GET /keys: `Object.entries(apiKeys).map(...)`. */
  function ListKeys(t: Table<KeyData>): (items: seq<KeyInfo>)
    ensures |items| == |t|
    ensures forall i :: 0 <= i < |t| ==>
              items[i] == KeyInfo(Preview(t[i].0), t[i].1.name, t[i].1.permissions, t[i].1.created, t[i].1.lastUsed)
  {
    seq(|t|, i requires 0 <= i < |t| => KeyInfo(Preview(t[i].0), t[i].1.name, t[i].1.permissions, t[i].1.created, t[i].1.lastUsed))
  }

  /** No preview of a generated key is itself a generated key, nor a prefix
      of one: the trailing "..." is outside the hex alphabet. */
  lemma {:induction false} PreviewHidesKeys(key: string, other: string)
    requires WellFormedKey(key) && WellFormedKey(other)
    ensures Preview(key) != other
    ensures !StartsWith(other, Preview(key))
  {
    var p := Preview(key);
    assert p[10] == '.';
    assert IsHexDigit(other[10]);
  }

  /** DELETE /keys/:keyPrefix: removes the first key, in enumeration order, that starts with the prefix. */
  function RevokeKey(t: Table<KeyData>, prefix: string): (r: (Table<KeyData>, Result<string>))
    ensures r.1.Fail? <==> forall i :: 0 <= i < |t| ==> !StartsWith(t[i].0, prefix)
    ensures r.1.Fail? ==> r == (t, Fail(404, "Key not found"))
    ensures r.1.Ok? ==>
              exists i :: 0 <= i < |t| && StartsWith(t[i].0, prefix)
                && (forall j :: 0 <= j < i ==> !StartsWith(t[j].0, prefix))
                && r.0 == Remove(t, t[i].0)
  {
    match FindKeyWithPrefix(t, prefix)
    case None => (t, Fail(404, "Key not found"))
    case Some(k) => (Remove(t, k), Ok("API key revoked successfully"))
  }

  /** Keys as generated: every stored key is well formed. */
  predicate GeneratedKeys(t: Table<KeyData>) {
    forall i :: 0 <= i < |t| ==> WellFormedKey(t[i].0)
  }

  /** The previews the list shows cannot be used to revoke anything. */
  lemma RevokeByPreviewFails(t: Table<KeyData>, key: string)
    requires GeneratedKeys(t) && WellFormedKey(key)
    ensures RevokeKey(t, Preview(key)) == (t, Fail(404, "Key not found"))
  {
    forall i | 0 <= i < |t| ensures !StartsWith(t[i].0, Preview(key)) {
      PreviewHidesKeys(key, t[i].0);
    }
  }

  /** Removing the last-appended entry restores the table. */
  lemma {:induction false} RemoveAppended<V>(t: Table<V>, k: string, v: V)
    requires k !in Keys(t)
    ensures Remove(t + [(k, v)], k) == t
    decreases |t|
  {
    if |t| == 0 {
      assert [(k, v)][1..] == [];
    } else {
      assert (t + [(k, v)])[1..] == t[1..] + [(k, v)];
      assert Keys(t) == [t[0].0] + Keys(t[1..]);
      RemoveAppended(t[1..], k, v);
      assert Remove(t + [(k, v)], k) == [t[0]] + Remove(t[1..] + [(k, v)], k);
    }
  }

  /** Among generated keys, the full secret appended last is the only one starting with itself. */
  lemma FindAppendedKey(t: Table<KeyData>, key: string, d: KeyData)
    requires GeneratedKeys(t) && WellFormedKey(key) && key !in Keys(t)
    ensures FindKeyWithPrefix(t + [(key, d)], key) == Some(key)
  {
    var t1 := t + [(key, d)];
    assert StartsWith(t1[|t|].0, key);
    var r := FindKeyWithPrefix(t1, key);
    assert r.Some?;
    var ks := Keys(t1);
    assert r.value in ks;
    var m :| 0 <= m < |ks| && ks[m] == r.value;
    assert |r.value| == 67 by {
      if m < |t| { assert t1[m] == t[m]; }
    }
    assert r.value[..|key|] == key;
  }

  /** Revoking by the full secret just created undoes the create. */
  lemma CreateThenRevoke(t: Table<KeyData>, name: Option<string>, permissions: Option<seq<string>>,
                         bytes: seq<Byte>, now: string)
    requires GeneratedKeys(t) && |bytes| == 32
    requires GenerateApiKey(bytes) !in Keys(t)
    requires Truthy(name)
    ensures var r := CreateKey(t, name, permissions, bytes, now);
            RevokeKey(r.0, r.1.value.key) == (t, Ok("API key revoked successfully"))
  {
    var key := GenerateApiKey(bytes);
    var perms := if permissions.Some? then permissions.value else DefaultPermissions;
    var d := KeyData(name.value, perms, now, None);
    PutFresh(t, key, d);
    assert CreateKey(t, name, permissions, bytes, now) == (t + [(key, d)], Ok(Created(key, name.value, perms)));
    FindAppendedKey(t, key, d);
    RemoveAppended(t, key, d);
  }

  /** `validateApiKey(requiredPermission)`, with own-property lookup:
      401 without a header, 401 for a key not in the table, 403 when a
      required permission is missing; an empty `requiredPermission` requires
      nothing. On success only the key's `lastUsed` changes. */
  function ValidateApiKey(t: Table<KeyData>, requiredPermission: Option<string>, header: Option<string>,
                          now: string): (r: (Table<KeyData>, Result<KeyData>))
    ensures !Truthy(header) ==> r == (t, Fail(401, "API key required. Include X-API-Key header."))
    ensures Truthy(header) && header.value !in Keys(t) ==> r == (t, Fail(401, "Invalid API key"))
    ensures r.1.Ok? <==> Truthy(header) && header.value in Keys(t)
                         && (Truthy(requiredPermission) ==> requiredPermission.value in Get(t, header.value).value.permissions)
    ensures r.1.Fail? ==> r.0 == t
    ensures r.1.Ok? ==>
              var d := Get(t, header.value).value;
              && r.1.value == d.(lastUsed := Some(now))
              && Get(r.0, header.value) == Some(d.(lastUsed := Some(now)))
              && Keys(r.0) == Keys(t)
              && forall k :: k != header.value ==> Get(r.0, k) == Get(t, k)
  {
    if !Truthy(header) then (t, Fail(401, "API key required. Include X-API-Key header."))
    else
      match Get(t, header.value)
      case None => (t, Fail(401, "Invalid API key"))
      case Some(d) =>
        if Truthy(requiredPermission) && requiredPermission.value !in d.permissions then
          (t, Fail(403, "Insufficient permissions"))
        else
          var d' := d.(lastUsed := Some(now));
          (Put(t, header.value, d'), Ok(d'))
  }

  /** The names every plain object inherits from `Object.prototype`. */
  const InheritedNames: set<string> := {
    "constructor", "__proto__", "toString", "toLocaleString", "valueOf", "hasOwnProperty",
    "isPrototypeOf", "propertyIsEnumerable", "__defineGetter__", "__defineSetter__",
    "__lookupGetter__", "__lookupSetter__"}

  /** What `validateApiKey` does as written: `apiKeys[apiKey]` also finds an
      inherited member, which is truthy but has no `permissions`, so with a
      required permission `.includes` throws (500) and without one the
      request passes. Only the outcome is modelled. */
  function ValidateAsWritten(t: Table<KeyData>, requiredPermission: Option<string>, header: Option<string>,
                             now: string): (r: Result<()>)
    ensures r.Ok? && Truthy(header) && header.value !in InheritedNames ==> header.value in Keys(t)
    ensures (Truthy(header) && header.value !in InheritedNames)
              ==> (r.Ok? <==> ValidateApiKey(t, requiredPermission, header, now).1.Ok?)
  {
    if !Truthy(header) then Fail(401, "API key required. Include X-API-Key header.")
    else if header.value in Keys(t) then
      match ValidateApiKey(t, requiredPermission, header, now).1
      case Ok(_) => Ok(())
      case Fail(code, msg) => Fail(code, msg)
    else if header.value in InheritedNames then
      if Truthy(requiredPermission) then Fail(500, "Cannot read properties of undefined (reading 'includes')")
      else Ok(())
    else Fail(401, "Invalid API key")
  }

  /** The discrepancy: with no required permission and an empty table, the
      header "constructor" passes the check as written. */
  lemma InheritedNamePasses(now: string)
    ensures ValidateAsWritten([], None, Some("constructor"), now).Ok?
    ensures ValidateApiKey([], None, Some("constructor"), now).1 == Fail(401, "Invalid API key")
  {
  }

  /** The corrected check accepts only stored keys, whatever the header. */
  lemma ValidateOnlyStoredKeys(t: Table<KeyData>, requiredPermission: Option<string>, header: Option<string>,
                               now: string)
    ensures ValidateApiKey(t, requiredPermission, header, now).1.Ok? ==>
              header.Some? && exists i :: 0 <= i < |t| && t[i].0 == header.value
  {
  }
}

=== FILE: mobile_client.dfy ===
/** The path logic of the mobile file screen: entering a sub-folder, going
    back one level, and the paths sent to create a folder and delete an item.
    Rendering, prompts and `fetch` are not modelled. */
module MobileClient {
  import opened Common
  import opened FolderPath

  /** `navigateToFolder(folderName)`: the folder it loads. */
  function NavigateToFolder(current: string, folderName: string): (r: string)
    ensures current != "" ==> Split(r, '/') == Split(current, '/') + Split(folderName, '/')
    ensures current == "" ==> r == folderName
  {
    ChildSegments(current, folderName);
    ChildPath(current, folderName)
  }

  /** `goBack()`: split at '/', drop the last part, join again. */
  function GoBack(current: string): (r: string)
    ensures |Split(current, '/')| == 1 ==> r == ""
    ensures |Split(current, '/')| >= 2 ==>
              && current == r + "/" + LastSegment(current)
              && Split(r, '/') == Split(current, '/')[..|Split(current, '/')| - 1]
  {
    var parts := Split(current, '/');
    var r := Join(parts[..|parts| - 1], '/');
    SplitLast(current);
    if |parts| >= 2 then SplitJoin(parts[..|parts| - 1], '/'); r else r
  }

  /** Going back from the root, or from a top-level folder, lands on the root. */
  lemma GoBackToRoot(current: string)
    requires '/' !in current
    ensures GoBack(current) == ""
  {
    SplitNoSeparator(current, '/');
  }

  /** Going back undoes entering a folder whose name has no '/'. */
  lemma {:induction false} GoBackNavigate(current: string, folderName: string)
    requires '/' !in folderName
    ensures GoBack(NavigateToFolder(current, folderName)) == current
  {
    SplitNoSeparator(folderName, '/');
    var child := NavigateToFolder(current, folderName);
    if current == "" {
      assert Split(child, '/') == [folderName];
    } else {
      var parts := Split(child, '/');
      assert parts == Split(current, '/') + [folderName];
      assert parts[..|parts| - 1] == Split(current, '/');
      JoinSplit(current, '/');
    }
  }

  /** `createFolder`'s callback: the `folderPath` it posts, or nothing for an empty name. */
  function CreateFolderPath(current: string, folderName: Option<string>): (r: Option<string>)
    ensures r.None? <==> !Truthy(folderName)
    ensures r.Some? ==> r.value == NavigateToFolder(current, folderName.value)
  {
    if !Truthy(folderName) then None else Some(ChildPath(current, folderName.value))
  }

  /** `deleteItem(item)`: the path of the item to delete. */
  function DeleteItemPath(current: string, itemName: string): (r: string)
    ensures r == NavigateToFolder(current, itemName)
  {
    ChildPath(current, itemName)
  }

  /** A folder created from the current one is left again by going back. */
  lemma CreateThenBack(current: string, folderName: string)
    requires folderName != "" && '/' !in folderName
    ensures CreateFolderPath(current, Some(folderName)).Some?
    ensures GoBack(CreateFolderPath(current, Some(folderName)).value) == current
  {
    GoBackNavigate(current, folderName);
  }
}

=== FILE: node_path.dfy ===
/** POSIX `path.join` / `path.normalize` of Node.js, modelled on segment lists.
    The joined string is split at '/', the segments are walked left to right
    with a stack (`''` and `'.'` are dropped, `'..'` pops one segment, or is
    kept for relative paths and dropped at the root of absolute ones), and the
    stack is printed again, keeping a leading '/' for absolute input and a
    trailing '/' when the input ended with one. */
module NodePath {
  import opened Common

  /** A segment that survives normalisation unchanged. */
  predicate NormalSeg(s: string) {
    s != "" && s != "." && s != ".." && '/' !in s
  }

  predicate NormalSegs(segs: seq<string>) {
    forall i :: 0 <= i < |segs| ==> NormalSeg(segs[i])
  }

  /** One iteration of Node's `normalizeString`. */
  function Step(stack: seq<string>, seg: string, allowAboveRoot: bool): seq<string> {
    if seg == "" || seg == "." then stack
    else if seg == ".." then
      if |stack| > 0 && stack[|stack| - 1] != ".." then stack[..|stack| - 1]
      else if allowAboveRoot then stack + [".."]
      else stack
    else stack + [seg]
  }

  /** All iterations of `normalizeString`, starting from an already-resolved stack. */
  function Walk(stack: seq<string>, segs: seq<string>, allowAboveRoot: bool): seq<string>
    decreases |segs|
  {
    if |segs| == 0 then stack
    else Walk(Step(stack, segs[0], allowAboveRoot), segs[1..], allowAboveRoot)
  }

  /** `path.normalize(p)` */
  function Normalize(p: string): string {
    if |p| == 0 then "."
    else
      var abs := p[0] == '/';
      var trailing := p[|p| - 1] == '/';
      var body := Join(Walk([], Split(p, '/'), !abs), '/');
      if |body| == 0 then (if abs then "/" else if trailing then "./" else ".")
      else (if abs then "/" else "") + body + (if trailing then "/" else "")
  }

  /** The arguments `path.join` keeps: the non-empty ones, in order. */
  function NonEmpty(args: seq<string>): (r: seq<string>)
    ensures forall i :: 0 <= i < |r| ==> r[i] != ""
    decreases |args|
  {
    if |args| == 0 then []
    else if args[0] == "" then NonEmpty(args[1..])
    else [args[0]] + NonEmpty(args[1..])
  }

  /** `path.join(...args)` for string arguments. */
  function JoinPaths(args: seq<string>): string {
    var parts := NonEmpty(args);
    if |parts| == 0 then "." else Normalize(Join(parts, '/'))
  }

  /** The printed form of a resolved absolute path. */
  function AbsStr(segs: seq<string>, trailing: bool): string {
    if |segs| == 0 then "/" else "/" + Join(segs, '/') + (if trailing then "/" else "")
  }

  /** The canonical absolute path of a segment list. */
  function Abs(segs: seq<string>): string {
    AbsStr(segs, false)
  }

  /** The segments an absolute path string denotes on the file system. */
  function Locate(p: string): seq<string> {
    Walk([], Split(p, '/'), false)
  }

  predicate EndsWithSlash(s: string) {
    |s| > 0 && s[|s| - 1] == '/'
  }

  // ---------------------------------------------------------------------------
  // Lemmas about the walk

  lemma {:induction false} WalkAppend(stack: seq<string>, a: seq<string>, b: seq<string>, allow: bool)
    ensures Walk(stack, a + b, allow) == Walk(Walk(stack, a, allow), b, allow)
    decreases |a|
  {
    if |a| > 0 {
      assert (a + b)[0] == a[0];
      assert (a + b)[1..] == a[1..] + b;
      assert Walk(stack, a + b, allow) == Walk(Step(stack, a[0], allow), a[1..] + b, allow);
      WalkAppend(Step(stack, a[0], allow), a[1..], b, allow);
    } else {
      assert a + b == b;
    }
  }

  /** Normal segments are pushed as they are. */
  lemma {:induction false} WalkNormal(stack: seq<string>, segs: seq<string>, allow: bool)
    requires NormalSegs(segs)
    ensures Walk(stack, segs, allow) == stack + segs
    decreases |segs|
  {
    if |segs| > 0 {
      assert NormalSegs(segs[1..]) by {
        forall i | 0 <= i < |segs[1..]| ensures NormalSeg(segs[1..][i]) {
          assert segs[1..][i] == segs[i + 1];
        }
      }
      WalkNormal(stack + [segs[0]], segs[1..], allow);
      assert stack + [segs[0]] + segs[1..] == stack + segs;
    }
  }

  /** Empty segments are skipped. */
  lemma {:induction false} WalkEmptySegments(stack: seq<string>, n: nat, allow: bool)
    ensures Walk(stack, seq(n, _ => ""), allow) == stack
    decreases n
  {
    if n > 0 {
      assert seq(n, _ => "")[1..] == seq(n - 1, _ => "");
      WalkEmptySegments(stack, n - 1, allow);
    }
  }

  /** Walking an absolute path from a normal stack yields a normal stack. */
  lemma {:induction false} WalkStaysNormal(stack: seq<string>, segs: seq<string>)
    requires NormalSegs(stack)
    requires forall i :: 0 <= i < |segs| ==> '/' !in segs[i]
    ensures NormalSegs(Walk(stack, segs, false))
    decreases |segs|
  {
    if |segs| > 0 {
      var next := Step(stack, segs[0], false);
      assert NormalSegs(next) by {
        if segs[0] == ".." && |stack| > 0 {
          forall i | 0 <= i < |next| ensures NormalSeg(next[i]) {
            assert next[i] == stack[i];
          }
        }
      }
      assert forall i :: 0 <= i < |segs[1..]| ==> '/' !in segs[1..][i] by {
        forall i | 0 <= i < |segs[1..]| ensures '/' !in segs[1..][i] {
          assert segs[1..][i] == segs[i + 1];
        }
      }
      WalkStaysNormal(next, segs[1..]);
    }
  }

  /** A non-empty list of normal segments prints as a non-empty string. */
  lemma JoinNonEmpty(segs: seq<string>)
    requires NormalSegs(segs) && |segs| > 0
    ensures |Join(segs, '/')| > 0
  {
    if |segs| > 1 {
      assert |Join(segs, '/')| >= |segs[0]|;
    }
  }

  /** How an absolute printed path splits. */
  lemma SplitAbsStr(segs: seq<string>, trailing: bool)
    requires NormalSegs(segs)
    ensures Walk([], Split(AbsStr(segs, trailing), '/'), false) == segs
  {
    if |segs| == 0 {
      SplitConcat("", "", '/');
      assert "" + ['/'] + "" == "/";
      assert Split("/", '/') == ["", ""];
      WalkEmptySegments([], 2, false);
      assert seq(2, _ => "") == ["", ""];
    } else {
      var j := Join(segs, '/');
      SplitJoin(segs, '/');
      SplitConcat("", j, '/');
      assert "" + ['/'] + j == "/" + j;
      assert Split("/" + j, '/') == [""] + segs;
      WalkAppend([], [""], segs, false);
      WalkNormal([], segs, false);
      if trailing {
        SplitConcat("/" + j, "", '/');
        assert ("/" + j) + ['/'] + "" == AbsStr(segs, trailing);
        assert Split(AbsStr(segs, trailing), '/') == [""] + segs + [""];
        WalkAppend([], [""] + segs, [""], false);
        WalkAppend([], [""], segs, false);
      } else {
        assert AbsStr(segs, trailing) == "/" + j;
      }
    }
  }

  /** The file-system location of a printed absolute path is its segment list. */
  lemma LocateAbsStr(segs: seq<string>, trailing: bool)
    requires NormalSegs(segs)
    ensures Locate(AbsStr(segs, trailing)) == segs
  {
    SplitAbsStr(segs, trailing);
  }

  /** Normalising a printed absolute path changes nothing (idempotence). */
  lemma NormalizeAbsStr(segs: seq<string>, trailing: bool)
    requires NormalSegs(segs)
    ensures Normalize(AbsStr(segs, trailing)) == AbsStr(segs, trailing)
  {
    SplitAbsStr(segs, trailing);
    var p := AbsStr(segs, trailing);
    assert p[0] == '/';
    if |segs| > 0 {
      JoinNonEmpty(segs);
      assert p[|p| - 1] == '/' <==> trailing by {
        var j := Join(segs, '/');
        if !trailing {
          assert p == "/" + j;
          JoinLastChar(segs);
        }
      }
    }
  }

  /** A join of normal segments does not end with '/'. */
  lemma {:induction false} JoinLastChar(segs: seq<string>)
    requires NormalSegs(segs) && |segs| > 0
    ensures var j := Join(segs, '/'); |j| > 0 && j[|j| - 1] != '/'
    decreases |segs|
  {
    if |segs| == 1 {
      assert segs[0][|segs[0]| - 1] in segs[0];
    } else {
      assert NormalSegs(segs[1..]) by {
        forall i | 0 <= i < |segs[1..]| ensures NormalSeg(segs[1..][i]) {
          assert segs[1..][i] == segs[i + 1];
        }
      }
      JoinLastChar(segs[1..]);
      var t := Join(segs[1..], '/');
      assert Join(segs, '/') == segs[0] + ['/'] + t;
      assert Join(segs, '/')[|Join(segs, '/')| - 1] == t[|t| - 1];
    }
  }

  /** The printed form is determined by the segments and the trailing flag; an
      absolute walk result printed this way is what `normalize` returns. */
  lemma NormalizeAbsolute(p: string)
    requires |p| > 0 && p[0] == '/'
    ensures NormalSegs(Locate(p))
    ensures Normalize(p) == AbsStr(Locate(p), EndsWithSlash(p))
  {
    var r := Locate(p);
    WalkStaysNormal([], Split(p, '/'));
    if |r| > 0 {
      JoinNonEmpty(r);
    }
  }

  /** `path.join(base, x)` for an absolute, printed `base`: the walk continues
      from the base's segments over the segments of `x`. */
  lemma JoinUnder(base: seq<string>, t: bool, x: string)
    requires NormalSegs(base)
    ensures x == "" ==> JoinPaths([AbsStr(base, t), x]) == AbsStr(base, t)
    ensures x != "" ==> JoinPaths([AbsStr(base, t), x])
                        == AbsStr(Walk(base, Split(x, '/'), false), EndsWithSlash(x))
    ensures NormalSegs(Walk(base, Split(x, '/'), false))
  {
    WalkStaysNormal(base, Split(x, '/'));
    var b := AbsStr(base, t);
    assert b != "";
    assert NonEmpty([b, x]) == [b] + NonEmpty([x]) by {
      assert [b, x][1..] == [x];
    }
    if x == "" {
      assert NonEmpty([x]) == [];
      NormalizeAbsStr(base, t);
    } else {
      assert NonEmpty([x]) == [x];
      var joined := b + ['/'] + x;
      assert Join([b, x], '/') == joined;
      SplitConcat(b, x, '/');
      WalkAppend([], Split(b, '/'), Split(x, '/'), false);
      SplitAbsStr(base, t);
      assert Locate(joined) == Walk(base, Split(x, '/'), false);
      assert joined[0] == '/';
      assert joined[|joined| - 1] == x[|x| - 1];
      NormalizeAbsolute(joined);
    }
  }

  /** `path.join(base, x, y)` for an absolute, printed `base` is `path.join(base, x + '/' + y)`
      with empty arguments left out. */
  lemma JoinUnder2(base: seq<string>, t: bool, x: string, y: string)
    requires NormalSegs(base)
    ensures JoinPaths([AbsStr(base, t), x, y]) == JoinPaths([AbsStr(base, t), JoinPaths2(x, y)])
  {
    var b := AbsStr(base, t);
    assert b != "";
    assert [b, x, y][1..] == [x, y];
    assert [x, y][1..] == [y];
    assert [y][1..] == [];
    assert [b, JoinPaths2(x, y)][1..] == [JoinPaths2(x, y)];
    assert [JoinPaths2(x, y)][1..] == [];
    assert NonEmpty([y]) == (if y == "" then [] else [y]);
    assert NonEmpty([x, y]) == (if x == "" then [] else [x]) + NonEmpty([y]);
    assert NonEmpty([b, x, y]) == [b] + NonEmpty([x, y]);
    assert NonEmpty([b, JoinPaths2(x, y)]) == [b] + NonEmpty([JoinPaths2(x, y)]);
    if x != "" && y != "" {
      assert NonEmpty([b, x, y]) == [b, x, y];
      assert NonEmpty([b, JoinPaths2(x, y)]) == [b, x + ['/'] + y];
      assert Join([x, y], '/') == x + ['/'] + y;
      assert Join([b, x, y], '/') == b + ['/'] + Join([x, y], '/');
      assert Join([b, x + ['/'] + y], '/') == b + ['/'] + (x + ['/'] + y);
    } else if x != "" {
      assert NonEmpty([b, x, y]) == [b, x];
    } else if y != "" {
      assert NonEmpty([b, x, y]) == [b, y];
    } else {
      assert NonEmpty([b, x, y]) == [b];
    }
  }

  /** The relative text `path.join` produces from the two arguments after the first. */
  function JoinPaths2(x: string, y: string): string {
    if x == "" then y else if y == "" then x else x + ['/'] + y
  }

  /** `path.join(a, x)` with a plain name `x` appends one segment. */
  lemma JoinName(base: seq<string>, x: string)
    requires NormalSegs(base) && NormalSeg(x)
    ensures JoinPaths([Abs(base), x]) == Abs(base + [x])
    ensures NormalSegs(base + [x])
  {
    JoinUnder(base, false, x);
    SplitNoSeparator(x, '/');
    WalkNormal(base, [x], false);
  }

  /** Concatenating normal segment lists gives a normal segment list. */
  lemma NormalAppend(a: seq<string>, b: seq<string>)
    requires NormalSegs(a) && NormalSegs(b)
    ensures NormalSegs(a + b)
  {
    forall i | 0 <= i < |a + b| ensures NormalSeg((a + b)[i]) {
      if i < |a| { assert (a + b)[i] == a[i]; } else { assert (a + b)[i] == b[i - |a|]; }
    }
  }

  /** `path.join(a, x, y)` with plain names `x` and `y` appends two segments. */
  lemma JoinNames(base: seq<string>, x: string, y: string)
    requires NormalSegs(base) && NormalSeg(x) && NormalSeg(y)
    ensures JoinPaths([Abs(base), x, y]) == Abs(base + [x, y])
    ensures NormalSegs(base + [x, y])
  {
    var z := x + ['/'] + y;
    assert JoinPaths([Abs(base), x, y]) == JoinPaths([Abs(base), z]) by {
      JoinUnder2(base, false, x, y);
      assert JoinPaths2(x, y) == z;
    }
    assert Split(z, '/') == [x, y] by {
      SplitConcat(x, y, '/');
      SplitNoSeparator(x, '/');
      SplitNoSeparator(y, '/');
    }
    assert !EndsWithSlash(z) by {
      assert z[|z| - 1] == y[|y| - 1];
    }
    assert Walk(base, [x, y], false) == base + [x, y] && NormalSegs(base + [x, y]) by {
      WalkNormal(base, [x, y], false);
      JoinUnder(base, false, z);
    }
    JoinUnder(base, false, z);
  }

  /** `path.join(path.join(a, x), y, z)` with plain names appends three segments. */
  lemma JoinNested(base: seq<string>, x: string, y: string, z: string)
    requires NormalSegs(base) && NormalSeg(x) && NormalSeg(y) && NormalSeg(z)
    ensures JoinPaths([JoinPaths([Abs(base), x]), y, z]) == Abs(base + [x, y, z])
  {
    JoinName(base, x);
    JoinNames(base + [x], y, z);
    assert base + [x] + [y, z] == base + [x, y, z];
  }

  /** The segments of `../<v>/<f>` for plain names `v` and `f`. */
  lemma UpSplit(v: string, f: string)
    requires NormalSeg(v) && NormalSeg(f)
    ensures Split("../" + v + "/" + f, '/') == ["..", v, f]
    ensures !EndsWithSlash("../" + v + "/" + f)
  {
    var name := "../" + v + "/" + f;
    assert name == ".." + ['/'] + (v + ['/'] + f);
    assert Split(v + ['/'] + f, '/') == [v, f] by {
      SplitConcat(v, f, '/');
      SplitNoSeparator(v, '/');
      SplitNoSeparator(f, '/');
    }
    assert Split(name, '/') == ["..", v, f] by {
      SplitConcat("..", v + ['/'] + f, '/');
      SplitNoSeparator("..", '/');
    }
    assert name[|name| - 1] == f[|f| - 1];
  }

  /** `path.join('/<base>/<u>', '../<v>/<f>')` climbs out of `u` into its sibling `v`. */
  lemma JoinUpOver(base: seq<string>, u: string, v: string, f: string)
    requires NormalSegs(base) && NormalSeg(u) && NormalSeg(v) && NormalSeg(f)
    ensures JoinPaths([Abs(base + [u]), "../" + v + "/" + f]) == Abs(base + [v, f])
    ensures Locate(JoinPaths([Abs(base + [u]), "../" + v + "/" + f])) == base + [v, f]
  {
    var name := "../" + v + "/" + f;
    UpSplit(v, f);
    assert NormalSegs(base + [u]) by { JoinName(base, u); }
    assert Walk(base + [u], ["..", v, f], false) == base + [v, f] by {
      assert ["..", v, f][1..] == [v, f];
      assert Step(base + [u], "..", false) == base;
      WalkNormal(base, [v, f], false);
    }
    JoinUnder(base + [u], false, name);
    assert NormalSegs(base + [v, f]) by {
      JoinName(base, v);
      JoinName(base + [v], f);
      assert base + [v] + [f] == base + [v, f];
    }
    LocateAbsStr(base + [v, f], false);
  }
}

=== FILE: path_guard.dfy ===
/** The storage service's traversal check is a raw string test,
    `resolved.startsWith(bucketPath)`, not a component-wise one. On printed
    absolute paths this module relates the string test to the segment lists:
    everything inside the bucket passes, every ancestor of the bucket fails,
    and a sibling whose name extends the bucket's last segment also passes. */
module PathGuard {
  import opened Common
  import opened NodePath

  /** The check as written: the resolved path string-starts-with the bucket path. */
  predicate Admits(bucketPath: string, resolved: string) {
    StartsWith(resolved, bucketPath)
  }

  /** The component-wise notion of "inside the bucket". */
  predicate Inside(bucket: seq<string>, resolved: seq<string>) {
    bucket <= resolved
  }

  lemma NormalSegsPrefix(segs: seq<string>, k: nat)
    requires NormalSegs(segs) && k <= |segs|
    ensures NormalSegs(segs[..k]) && NormalSegs(segs[k..])
  {
    forall i | 0 <= i < |segs[k..]| ensures NormalSeg(segs[k..][i]) {
      assert segs[k..][i] == segs[k + i];
    }
  }

  /** Everything component-wise inside the bucket passes the string test. */
  lemma {:induction false} InsideAdmitted(bucket: seq<string>, resolved: seq<string>, trailing: bool)
    requires NormalSegs(resolved) && |bucket| > 0
    requires Inside(bucket, resolved)
    ensures Admits(Abs(bucket), AbsStr(resolved, trailing))
  {
    var jb := Join(bucket, '/');
    if |resolved| == |bucket| {
      assert resolved == bucket;
      assert AbsStr(resolved, trailing) == ("/" + jb) + (if trailing then "/" else "");
    } else {
      var rest := resolved[|bucket|..];
      assert resolved == bucket + rest;
      JoinAppend(bucket, rest, '/');
      assert AbsStr(resolved, trailing) == ("/" + jb) + (['/'] + Join(rest, '/') + (if trailing then "/" else ""));
    }
  }

  /** A proper ancestor of the bucket (one `..` too many) always fails the string test. */
  lemma {:induction false} AncestorRejected(bucket: seq<string>, resolved: seq<string>, trailing: bool)
    requires NormalSegs(bucket) && |bucket| > 0
    requires resolved < bucket
    ensures !Admits(Abs(bucket), AbsStr(resolved, trailing))
  {
    var rest := bucket[|resolved|..];
    assert bucket == resolved + rest;
    NormalSegsPrefix(bucket, |resolved|);
    JoinNonEmpty(rest);
    if |resolved| == 0 {
      JoinNonEmpty(bucket);
    } else {
      JoinAppend(resolved, rest, '/');
      assert |Abs(bucket)| == 2 + |Join(resolved, '/')| + |Join(rest, '/')|;
    }
  }

  /** The sibling case: a segment list that replaces the bucket's last segment
      by an extension of it passes the string test, although it is not inside. */
  lemma SiblingAdmitted(bucket: seq<string>, suffix: string)
    requires NormalSegs(bucket) && |bucket| > 0 && suffix != "" && '/' !in suffix
    ensures var sibling := bucket[..|bucket| - 1] + [bucket[|bucket| - 1] + suffix];
            && Admits(Abs(bucket), Abs(sibling))
            && !Inside(bucket, sibling)
  {
    var n := |bucket|;
    var last := bucket[n - 1];
    var sibling := bucket[..n - 1] + [last + suffix];
    assert sibling[n - 1] != bucket[n - 1] by {
      assert |sibling[n - 1]| > |last|;
    }
    if n == 1 {
      assert Join(sibling, '/') == Join(bucket, '/') + suffix;
    } else {
      assert bucket == bucket[..n - 1] + [last];
      JoinAppend(bucket[..n - 1], [last], '/');
      JoinAppend(bucket[..n - 1], [last + suffix], '/');
      assert Join(sibling, '/') == Join(bucket, '/') + suffix;
    }
    assert Abs(sibling) == Abs(bucket) + suffix;
  }
}

=== FILE: storage.dfy ===
/** The storage router: an in-memory bucket table keyed by `"<userId>:<name>"`,
    bucket directories under an abstract storage root, and the folder, browse,
    upload and download handlers. Every handler runs after `requireAuth`, so the
    caller's identity arrives as `user`, the request's `userId` (absent for the
    master key). Handlers return the new state and the response. */
module Storage {
  import opened Common
  import opened JsObject
  import opened NodePath
  import opened FileSystem
  import opened PathGuard

  /** One record of the `buckets` table. */
  datatype Bucket = Bucket(name: string, userId: string, region: string, created: string, path: string)

  /** The `bucket` object in the create response. */
  datatype CreatedBucket = CreatedBucket(name: string, region: string)

  /** One value of the object the list handler returns. */
  datatype Listed = Listed(name: string, region: string, created: string)

  /** One element of a browse listing. */
  datatype Item = Item(name: string, kind: string, size: nat)

  /** The part of a multipart upload the handlers look at. */
  datatype UploadedFile = UploadedFile(originalName: string, size: nat)

  datatype Store = Store(buckets: Table<Bucket>, fs: Fs)

  const DefaultRegion := "us-east-1"

  /** `${userId}:${name}` */
  function BucketKey(user: Option<string>, name: string): string {
    Render(user) + ":" + name
  }

  /** `getBucketPath(userId, name)`: `path.join(path.join(storageDir, userId), name)`. */
  function BucketPathOf(storageDir: string, userId: string, name: string): string {
    JoinPaths([JoinPaths([storageDir, userId]), name])
  }

  /** The bucket record the caller may address, if any. */
  function FindBucket(st: Store, user: Option<string>, bucket: string): Option<Bucket> {
    Get(st.buckets, BucketKey(user, bucket))
  }

  // ---------------------------------------------------------------------------
  // Create and list buckets

  /** POST /buckets. An absent `userId` makes `path.join` throw (500) after
      both 400 checks; `ensureDirSync` throws (500) when a file blocks the way. */
  function CreateBucket(st: Store, storageDir: string, user: Option<string>, name: Option<string>,
                        region: Option<string>, now: string): (r: (Store, Result<CreatedBucket>))
    ensures !Truthy(name) ==> r == (st, Fail(400, "Bucket name is required"))
    ensures (Truthy(name) && BucketKey(user, name.value) in Keys(st.buckets))
              ==> r == (st, Fail(400, "Bucket already exists"))
    ensures (Truthy(name) && BucketKey(user, name.value) !in Keys(st.buckets) && user.None?)
              ==> r.0 == st && r.1.Fail? && r.1.status == 500
    ensures r.1.Fail? ==> r.0.buckets == st.buckets
    ensures (Truthy(name) && BucketKey(user, name.value) !in Keys(st.buckets) && user.Some?) ==>
              (r.1.Ok? <==> && !Blocked(st.fs, Locate(JoinPaths([storageDir, user.value])))
                            && !Blocked(st.fs, Locate(BucketPathOf(storageDir, user.value, name.value))))
    ensures r.1.Ok? ==>
              && Truthy(name) && user.Some? && BucketKey(user, name.value) !in Keys(st.buckets)
              && var key := BucketKey(user, name.value);
                 var rg := OrElse(region, DefaultRegion);
                 && r.0.buckets
                    == st.buckets + [(key, Bucket(name.value, user.value, rg, now, BucketPathOf(storageDir, user.value, name.value)))]
                 && r.1.value == CreatedBucket(name.value, rg)
                 && Locate(BucketPathOf(storageDir, user.value, name.value)) in r.0.fs
                 && (forall k :: k in st.fs ==> k in r.0.fs && r.0.fs[k] == st.fs[k])
                 && (forall k :: k in r.0.fs && k !in st.fs ==> r.0.fs[k] == Dir)
  {
    if !Truthy(name) then (st, Fail(400, "Bucket name is required"))
    else
      var key := BucketKey(user, name.value);
      if key in Keys(st.buckets) then (st, Fail(400, "Bucket already exists"))
      else if user.None? then (st, Fail(500, "The \"path\" argument must be of type string"))
      else
        var userDir := JoinPaths([storageDir, user.value]);
        match EnsureDir(st.fs, Locate(userDir))
        case Fail(code, msg) => (st, Fail(code, msg))
        case Ok(fs1) =>
          var bucketPath := JoinPaths([userDir, name.value]);
          EnsureDirKeepsBlocked(st.fs, Locate(userDir), Locate(bucketPath));
          match EnsureDir(fs1, Locate(bucketPath))
          case Fail(code, msg) => (Store(st.buckets, fs1), Fail(code, msg))
          case Ok(fs2) =>
            var rg := OrElse(region, DefaultRegion);
            assert Locate(bucketPath) == Locate(bucketPath)[..|Locate(bucketPath)|];
            PutFresh(st.buckets, key, Bucket(name.value, user.value, rg, now, bucketPath));
            (Store(Put(st.buckets, key, Bucket(name.value, user.value, rg, now, bucketPath)), fs2),
             Ok(CreatedBucket(name.value, rg)))
  }

  /** `key.split(':')[1]`, which is `undefined` (the property "undefined") without a colon. */
  function SecondField(key: string): string {
    var parts := Split(key, ':');
    if |parts| > 1 then parts[1] else "undefined"
  }

  /** The caller owns the entry: its key starts with `${userId}:`. */
  predicate Owned(key: string, user: Option<string>) {
    StartsWith(key, Render(user) + ":")
  }

  /** No later owned entry of the table lists under the same name as entry `i`. */
  predicate LastWithName(t: Table<Bucket>, user: Option<string>, i: int)
    requires 0 <= i < |t|
  {
    forall j :: i < j < |t| ==> !(Owned(t[j].0, user) && SecondField(t[j].0) == SecondField(t[i].0))
  }

  /** GET /buckets over the first `|t|` entries: entries are visited in key order and
      each owned one is assigned to `userBuckets[name]`, so the last one with a name wins.
      A bucket named `__proto__` becomes the prototype of `userBuckets` instead of an
      own property, and `res.json` leaves it out. */
  function ListFrom(t: Table<Bucket>, user: Option<string>): (r: Table<Listed>)
    ensures Distinct(r)
    decreases |t|
  {
    if |t| == 0 then []
    else
      var acc := ListFrom(t[..|t| - 1], user);
      var e := t[|t| - 1];
      if Owned(e.0, user) then
        var n := SecondField(e.0);
        Assign(acc, n, Listed(n, e.1.region, e.1.created))
      else
        acc
  }

  /** A name is listed exactly when it is not `__proto__` and some owned entry's
      second key field is that name. */
  lemma {:induction false} ListFromKeys(t: Table<Bucket>, user: Option<string>, n: string)
    ensures n in Keys(ListFrom(t, user)) <==>
              n != ProtoKey && exists i :: 0 <= i < |t| && Owned(t[i].0, user) && SecondField(t[i].0) == n
    decreases |t|
  {
    if |t| > 0 {
      var init := t[..|t| - 1];
      var e := t[|t| - 1];
      ListFromKeys(init, user, n);
      NamedSnoc(t, user, n);
      var acc := ListFrom(init, user);
      if Owned(e.0, user) {
        var m := SecondField(e.0);
        assert ListFrom(t, user) == Assign(acc, m, Listed(m, e.1.region, e.1.created));
      } else {
        assert ListFrom(t, user) == acc;
      }
    }
  }

  /** Some owned entry among the first `|t|` lists under `n`. */
  predicate Named(t: Table<Bucket>, user: Option<string>, n: string) {
    exists i :: 0 <= i < |t| && Owned(t[i].0, user) && SecondField(t[i].0) == n
  }

  /** An owned entry with name `n` is in the table, or in all but its last entry, or is that last entry. */
  lemma NamedSnoc(t: Table<Bucket>, user: Option<string>, n: string)
    requires |t| > 0
    ensures Named(t, user, n) <==>
              Named(t[..|t| - 1], user, n) || (Owned(t[|t| - 1].0, user) && SecondField(t[|t| - 1].0) == n)
  {
    var init := t[..|t| - 1];
    if Named(t, user, n) {
      var i :| 0 <= i < |t| && Owned(t[i].0, user) && SecondField(t[i].0) == n;
      if i < |init| { assert init[i] == t[i]; }
    }
    if Named(init, user, n) {
      var i :| 0 <= i < |init| && Owned(init[i].0, user) && SecondField(init[i].0) == n;
      assert init[i] == t[i];
    }
  }

  /** Under each listed name stands the region and creation time of the last
      owned entry with that name; under `__proto__` stands nothing. */
  lemma {:induction false} ListFromValues(t: Table<Bucket>, user: Option<string>, i: int)
    requires 0 <= i < |t| && Owned(t[i].0, user) && LastWithName(t, user, i)
    ensures Get(ListFrom(t, user), SecondField(t[i].0))
            == if SecondField(t[i].0) == ProtoKey then None
               else Some(Listed(SecondField(t[i].0), t[i].1.region, t[i].1.created))
    decreases |t|
  {
    var init := t[..|t| - 1];
    if i < |t| - 1 {
      assert forall j :: 0 <= j < |init| ==> init[j] == t[j];
      ListFromValues(init, user, i);
    } else {
      ListFromKeys(init, user, ProtoKey);
    }
  }

  /** GET /buckets */
  function ListBuckets(st: Store, user: Option<string>): Table<Listed> {
    ListFrom(st.buckets, user)
  }

  // ---------------------------------------------------------------------------
  // Folders, browse, upload, download

  /** POST /buckets/:bucket/folders. There is no traversal check: the joined
      path is created wherever it points. A missing `folderPath` makes
      `path.join` throw (500). */
  function CreateFolder(st: Store, user: Option<string>, bucket: string, folderPath: Option<string>)
    : (r: (Store, Result<string>))
    ensures FindBucket(st, user, bucket).None? ==> r == (st, Fail(404, "Bucket not found"))
    ensures r.0.buckets == st.buckets
    ensures r.1.Fail? ==> r.0 == st
    ensures r.1.Ok? <==> FindBucket(st, user, bucket).Some? && folderPath.Some?
                         && !Blocked(st.fs, Locate(JoinPaths([FindBucket(st, user, bucket).value.path, folderPath.value])))
    ensures r.1.Ok? ==>
              var target := Locate(JoinPaths([FindBucket(st, user, bucket).value.path, folderPath.value]));
              && (forall i :: 0 <= i <= |target| ==> target[..i] in r.0.fs && r.0.fs[target[..i]] == Dir)
              && (forall k :: k in st.fs ==> k in r.0.fs && r.0.fs[k] == st.fs[k])
              && r.0.fs.Keys == st.fs.Keys + Prefixes(target)
  {
    match FindBucket(st, user, bucket)
    case None => (st, Fail(404, "Bucket not found"))
    case Some(b) =>
      if folderPath.None? then (st, Fail(500, "The \"path\" argument must be of type string"))
      else
        match EnsureDir(st.fs, Locate(JoinPaths([b.path, folderPath.value])))
        case Fail(code, msg) => (st, Fail(code, msg))
        case Ok(fs1) => (Store(st.buckets, fs1), Ok("Folder created successfully"))
  }

  /** The path a browse request resolves to: `path.join(bucket.path, folder || '')`. */
  function BrowsePath(b: Bucket, folder: Option<string>): string {
    JoinPaths([b.path, OrElse(folder, "")])
  }

  /** The listing `readdirSync` + `statSync` produce for directory `segs`. */
  function Items(fs: Fs, segs: seq<string>): (items: set<Item>)
    ensures forall c :: c in ChildPaths(fs, segs) ==>
              Item(c[|segs|], if fs[c].Dir? then "folder" else "file", SizeOf(fs[c])) in items
    ensures forall it :: it in items ==>
              && segs + [it.name] in fs
              && (it.kind == "folder" <==> fs[segs + [it.name]].Dir?)
              && it.size == SizeOf(fs[segs + [it.name]])
  {
    var items := set c | c in ChildPaths(fs, segs) :: ItemOf(fs, segs, c);
    forall it | it in items
      ensures && segs + [it.name] in fs
              && (it.kind == "folder" <==> fs[segs + [it.name]].Dir?)
              && it.size == SizeOf(fs[segs + [it.name]])
    {
      var c :| c in ChildPaths(fs, segs) && it == ItemOf(fs, segs, c);
      assert c == c[..|segs|] + [c[|segs|]];
    }
    items
  }

  /** The browse item for child `c` of directory `segs`. */
  function ItemOf(fs: Fs, segs: seq<string>, c: seq<string>): Item
    requires c in ChildPaths(fs, segs)
  {
    Item(c[|segs|], if fs[c].Dir? then "folder" else "file", SizeOf(fs[c]))
  }

  function SizeOf(n: FsNode): nat {
    match n
    case Dir => 0
    case File(size) => size
  }

  /** GET /buckets/:bucket/browse?folder= */
  function Browse(st: Store, user: Option<string>, bucket: string, folder: Option<string>): (r: Result<set<Item>>)
    ensures FindBucket(st, user, bucket).None? ==> r == Fail(404, "Bucket not found")
    ensures FindBucket(st, user, bucket).Some? ==>
              var b := FindBucket(st, user, bucket).value;
              var p := BrowsePath(b, folder);
              && (r == Fail(403, "Access denied") <==> !Admits(b.path, p))
              && (Admits(b.path, p) && !Exists(st.fs, p) ==> r == Ok({}))
              && (r.Ok? && Exists(st.fs, p) ==> r.value == Items(st.fs, Locate(p)))
              && (r.Ok? ==> Admits(b.path, p))
              && (Admits(b.path, p) && Exists(st.fs, p) && st.fs[Locate(p)].Dir? ==> r == Ok(Items(st.fs, Locate(p))))
              && (Admits(b.path, p) && Exists(st.fs, p) && st.fs[Locate(p)].File? ==>
                    r == Fail(500, "ENOTDIR: not a directory, scandir"))
  {
    match FindBucket(st, user, bucket)
    case None => Fail(404, "Bucket not found")
    case Some(b) =>
      var p := BrowsePath(b, folder);
      if !Admits(b.path, p) then Fail(403, "Access denied")
      else if !Exists(st.fs, p) then Ok({})
      else if st.fs[Locate(p)].File? then Fail(500, "ENOTDIR: not a directory, scandir")
      else Ok(Items(st.fs, Locate(p)))
  }

  /** The directory multer stores an upload in: `path.join(bucket.path, req.body.folder || '')`. */
  function UploadDir(b: Bucket, folder: Option<string>): string {
    JoinPaths([b.path, OrElse(folder, "")])
  }

  /** `req.body.folder` as the destination callback sees it. The multipart
      parser fills `req.body` in the order the form sends its parts, so a
      `folder` field sent after the file part is not there yet. */
  function FolderAtFile(folder: Option<string>, folderFirst: bool): Option<string> {
    if folderFirst then folder else None
  }

  /** POST /:bucket/upload. `folder` is the form's `folder` field and
      `folderFirst` says whether it was sent before the file part. Without a
      file part multer never calls its destination callback and the handler
      reports success. A missing bucket is an error passed to Express (500,
      not 404). The destination is created without a traversal check and the
      file keeps its original name, replacing a file of that name. */
  function Upload(st: Store, user: Option<string>, bucket: string, folder: Option<string>,
                  folderFirst: bool, file: Option<UploadedFile>): (r: (Store, Result<string>))
    ensures file.None? ==> r == (st, Ok("File uploaded successfully"))
    ensures file.Some? && FindBucket(st, user, bucket).None? ==> r == (st, Fail(500, "Bucket not found"))
    ensures r.0.buckets == st.buckets
    ensures file.Some? && FindBucket(st, user, bucket).Some? ==>
              var dir := UploadDir(FindBucket(st, user, bucket).value, if folderFirst then folder else None);
              && (Blocked(st.fs, Locate(dir)) ==> r == (st, Fail(500, "ENOTDIR: not a directory")))
              && (r.1.Ok? <==> !Blocked(st.fs, Locate(dir))
                               && WriteFile(EnsureDir(st.fs, Locate(dir)).value,
                                            JoinPaths([dir, file.value.originalName]), file.value.size).Ok?)
    ensures r.1.Ok? && file.Some? ==>
              var dir := UploadDir(FindBucket(st, user, bucket).value, if folderFirst then folder else None);
              var target := Locate(JoinPaths([dir, file.value.originalName]));
              && FindBucket(st, user, bucket).Some?
              && target in r.0.fs && r.0.fs[target] == File(file.value.size)
              && (forall i :: 0 <= i <= |Locate(dir)| ==> Locate(dir)[..i] in r.0.fs)
              && (forall k :: k in st.fs && k != target ==> k in r.0.fs && r.0.fs[k] == st.fs[k])
  {
    match file
    case None => (st, Ok("File uploaded successfully"))
    case Some(f) =>
      match FindBucket(st, user, bucket)
      case None => (st, Fail(500, "Bucket not found"))
      case Some(b) =>
        var dir := UploadDir(b, FolderAtFile(folder, folderFirst));
        match EnsureDir(st.fs, Locate(dir))
        case Fail(code, msg) => (st, Fail(code, msg))
        case Ok(fs1) =>
          match WriteFile(fs1, JoinPaths([dir, f.originalName]), f.size)
          case Fail(code, msg) => (Store(st.buckets, fs1), Fail(code, msg))
          case Ok(fs2) => (Store(st.buckets, fs2), Ok("File uploaded successfully"))
  }

  /** The path a download resolves to: `path.join(bucket.path, folder || '', filename)`. */
  function DownloadPath(b: Bucket, folder: Option<string>, filename: string): string {
    JoinPaths([b.path, OrElse(folder, ""), filename])
  }

  /** GET /:bucket/download/:filename?folder=; on success, the path handed to `res.download`. */
  function Download(st: Store, user: Option<string>, bucket: string, folder: Option<string>,
                    filename: string): (r: Result<string>)
    ensures FindBucket(st, user, bucket).None? ==> r == Fail(404, "Bucket not found")
    ensures FindBucket(st, user, bucket).Some? ==>
              var b := FindBucket(st, user, bucket).value;
              var p := DownloadPath(b, folder, filename);
              && (r == Fail(403, "Access denied") <==> !Admits(b.path, p))
              && (Admits(b.path, p) && !Exists(st.fs, p) ==> r == Fail(404, "File not found"))
              && (r.Ok? <==> Admits(b.path, p) && Exists(st.fs, p))
              && (r.Ok? ==> r.value == p)
  {
    match FindBucket(st, user, bucket)
    case None => Fail(404, "Bucket not found")
    case Some(b) =>
      var p := DownloadPath(b, folder, filename);
      if !Admits(b.path, p) then Fail(403, "Access denied")
      else if !Exists(st.fs, p) then Fail(404, "File not found")
      else Ok(p)
  }
}

=== FILE: storage_props.dfy ===
/** Properties of the storage handlers across several calls: where bucket
    directories land, what the listing shows after a create, who sees whose
    buckets, and how far the `startsWith` guard and the unguarded folder and
    upload paths reach. Bucket paths are taken to be printed absolute paths of
    normal segments, which `BucketPathShape` shows they are when the storage
    root is one and the user id and bucket name are plain names. */
module StorageProps {
  import opened Common
  import opened JsObject
  import opened NodePath
  import opened FileSystem
  import opened PathGuard
  import opened Storage

  /** A bucket of a plain user id and a plain name lives at `<root>/<userId>/<name>`. */
  lemma BucketPathShape(root: seq<string>, userId: string, name: string)
    requires NormalSegs(root) && NormalSeg(userId) && NormalSeg(name)
    ensures BucketPathOf(Abs(root), userId, name) == Abs(root + [userId, name])
  {
    JoinName(root, userId);
    JoinName(root + [userId], name);
    assert root + [userId] + [name] == root + [userId, name];
  }

  /** The key of a colon-free user and name splits back into the two. */
  lemma KeyFields(userId: string, name: string)
    requires ':' !in userId && ':' !in name
    ensures SecondField(BucketKey(Some(userId), name)) == name
    ensures Owned(BucketKey(Some(userId), name), Some(userId))
  {
    SplitConcat(userId, name, ':');
    SplitNoSeparator(userId, ':');
    SplitNoSeparator(name, ':');
    assert BucketKey(Some(userId), name) == userId + [':'] + name;
  }

  /** A bucket just created shows up in its owner's listing with its region and
      creation time, unless it is named `__proto__`, which the listing never shows. */
  lemma CreateThenListed(st: Store, storageDir: string, userId: string, name: string,
                         region: Option<string>, now: string)
    requires ':' !in userId && ':' !in name
    requires CreateBucket(st, storageDir, Some(userId), Some(name), region, now).1.Ok?
    ensures var st' := CreateBucket(st, storageDir, Some(userId), Some(name), region, now).0;
            Get(ListBuckets(st', Some(userId)), name)
            == if name == ProtoKey then None else Some(Listed(name, OrElse(region, DefaultRegion), now))
  {
    var st' := CreateBucket(st, storageDir, Some(userId), Some(name), region, now).0;
    var t := st'.buckets;
    var i := |t| - 1;
    KeyFields(userId, name);
    assert t[i].0 == BucketKey(Some(userId), name);
    assert LastWithName(t, Some(userId), i);
    ListFromValues(t, Some(userId), i);
  }

  /** On a file system of directories only, a fresh key is always created:
      its key is appended and the file system still holds only directories. */
  lemma CreateFreshSucceeds(st: Store, storageDir: string, userId: string, name: string,
                            region: Option<string>, now: string)
    requires name != "" && BucketKey(Some(userId), name) !in Keys(st.buckets)
    requires forall k :: k in st.fs ==> st.fs[k] == Dir
    ensures var r := CreateBucket(st, storageDir, Some(userId), Some(name), region, now);
            && r.1.Ok?
            && Keys(r.0.buckets) == Keys(st.buckets) + [BucketKey(Some(userId), name)]
            && forall k :: k in r.0.fs ==> r.0.fs[k] == Dir
  {
    var r := CreateBucket(st, storageDir, Some(userId), Some(name), region, now);
    assert !Blocked(st.fs, Locate(JoinPaths([storageDir, userId])));
    assert !Blocked(st.fs, Locate(BucketPathOf(storageDir, userId, name)));
    var t := r.0.buckets;
    assert |t| == |st.buckets| + 1 && t[..|st.buckets|] == st.buckets;
    assert Keys(t) == Keys(st.buckets) + [BucketKey(Some(userId), name)];
  }

  /** The same bucket name succeeds independently for two colon-free users:
      after user `u` creates `name`, user `v` creates `name` too, whenever the
      file system holds only directories. */
  lemma SameNameOtherUser(st: Store, storageDir: string, u: string, v: string, name: string,
                          region: Option<string>, now: string, later: string)
    requires ':' !in u && ':' !in v && u != v && name != ""
    requires BucketKey(Some(u), name) !in Keys(st.buckets) && BucketKey(Some(v), name) !in Keys(st.buckets)
    requires forall k :: k in st.fs ==> st.fs[k] == Dir
    ensures var r1 := CreateBucket(st, storageDir, Some(u), Some(name), region, now);
            var r2 := CreateBucket(r1.0, storageDir, Some(v), Some(name), region, later);
            && r1.1.Ok? && r2.1.Ok?
            && BucketKey(Some(u), name) in Keys(r2.0.buckets)
            && BucketKey(Some(v), name) in Keys(r2.0.buckets)
  {
    var ku := BucketKey(Some(u), name);
    var kv := BucketKey(Some(v), name);
    OthersNotOwned(u, v, name);
    assert Owned(ku, Some(u)) by {
      assert ku == (u + ":") + name && ku[..|u + ":"|] == u + ":";
    }
    assert ku != kv;
    CreateFreshSucceeds(st, storageDir, u, name, region, now);
    var r1 := CreateBucket(st, storageDir, Some(u), Some(name), region, now);
    CreateFreshSucceeds(r1.0, storageDir, v, name, region, later);
  }

  /** With colon-free user ids, a key of one user is never owned by another. */
  lemma {:induction false} OthersNotOwned(u: string, v: string, name: string)
    requires ':' !in u && ':' !in v && u != v
    ensures !Owned(BucketKey(Some(v), name), Some(u))
  {
    var key := BucketKey(Some(v), name);
    var p := u + ":";
    if |u| < |v| {
      assert key[|u|] == v[|u|] && p[|u|] == ':';
    } else if |u| > |v| {
      assert key[|v|] == ':' && p[|v|] == u[|v|];
    } else {
      var i :| 0 <= i < |u| && u[i] != v[i];
      assert key[i] == v[i] && p[i] == u[i];
    }
  }

  /** Appending an entry the caller does not own leaves the caller's listing as it was. */
  lemma ListSkipsForeign(t: Table<Bucket>, e: (string, Bucket), user: Option<string>)
    requires !Owned(e.0, user)
    ensures ListFrom(t + [e], user) == ListFrom(t, user)
  {
    assert (t + [e])[..|t|] == t;
  }

  /** Creating a bucket for one colon-free user id does not change another's listing. */
  lemma CreateIsolated(st: Store, storageDir: string, u: string, v: string, name: Option<string>,
                       region: Option<string>, now: string)
    requires ':' !in u && ':' !in v && u != v
    ensures ListBuckets(CreateBucket(st, storageDir, Some(v), name, region, now).0, Some(u))
            == ListBuckets(st, Some(u))
  {
    var r := CreateBucket(st, storageDir, Some(v), name, region, now);
    if r.1.Ok? {
      OthersNotOwned(u, v, name.value);
      var b := Bucket(name.value, v, OrElse(region, DefaultRegion), now, BucketPathOf(storageDir, v, name.value));
      ListSkipsForeign(st.buckets, (BucketKey(Some(v), name.value), b), Some(u));
    }
  }

  /** The key `a:b:x` is owned by user `a` and lists under the name `b`. */
  lemma ColonKeyFields()
    ensures SecondField(BucketKey(Some("a:b"), "x")) == "b"
    ensures Owned(BucketKey(Some("a:b"), "x"), Some("a"))
  {
    var key := BucketKey(Some("a:b"), "x");
    assert key == "a" + [':'] + ("b" + [':'] + "x");
    SplitConcat("a", "b" + [':'] + "x", ':');
    SplitConcat("b", "x", ':');
    SplitNoSeparator("a", ':');
    SplitNoSeparator("b", ':');
    SplitNoSeparator("x", ':');
  }

  /** The listing of a one-entry table the caller owns names that entry's second
      key field, or nothing when that field is `__proto__`. */
  lemma ListSingle(e: (string, Bucket), user: Option<string>)
    requires Owned(e.0, user)
    ensures Keys(ListFrom([e], user)) == if SecondField(e.0) == ProtoKey then [] else [SecondField(e.0)]
  {
    assert [e][..0] == [];
  }

  /** Ownership is a prefix test on the raw key, so a user id containing ':'
      exposes its buckets to the user whose id is its first field: user "a"
      lists bucket "x" of user "a:b", under the name "b". */
  lemma ColonUserLeaks(st: Store, storageDir: string, now: string)
    requires st.buckets == []
    ensures var r := CreateBucket(st, storageDir, Some("a:b"), Some("x"), None, now);
            r.1.Ok? ==> Keys(ListBuckets(r.0, Some("a"))) == ["b"]
  {
    var r := CreateBucket(st, storageDir, Some("a:b"), Some("x"), None, now);
    if r.1.Ok? {
      ColonKeyFields();
      assert |r.0.buckets| == 1 && r.0.buckets == [r.0.buckets[0]];
      ListSingle(r.0.buckets[0], Some("a"));
    }
  }

  // ---------------------------------------------------------------------------
  // The traversal guard on browse and download

  /** Without a folder the browse path is the bucket directory itself. */
  lemma BrowseBucketRoot(b: Bucket, bs: seq<string>, folder: Option<string>)
    requires NormalSegs(bs) && |bs| > 0 && b.path == Abs(bs)
    requires !Truthy(folder)
    ensures BrowsePath(b, folder) == b.path
    ensures Admits(b.path, BrowsePath(b, folder))
  {
    JoinUnder(bs, false, "");
  }

  /** A folder that resolves inside the bucket passes the guard. */
  lemma BrowseInsideAdmitted(b: Bucket, bs: seq<string>, folder: string)
    requires NormalSegs(bs) && |bs| > 0 && b.path == Abs(bs) && folder != ""
    requires Inside(bs, Walk(bs, Split(folder, '/'), false))
    ensures Admits(b.path, BrowsePath(b, Some(folder)))
  {
    JoinUnder(bs, false, folder);
    InsideAdmitted(bs, Walk(bs, Split(folder, '/'), false), EndsWithSlash(folder));
  }

  /** A folder that climbs above the bucket is refused with 403. */
  lemma BrowseEscapeRejected(st: Store, user: Option<string>, bucket: string, bs: seq<string>, folder: string)
    requires FindBucket(st, user, bucket).Some?
    requires NormalSegs(bs) && |bs| > 0 && FindBucket(st, user, bucket).value.path == Abs(bs) && folder != ""
    requires Walk(bs, Split(folder, '/'), false) < bs
    ensures Browse(st, user, bucket, Some(folder)) == Fail(403, "Access denied")
  {
    JoinUnder(bs, false, folder);
    AncestorRejected(bs, Walk(bs, Split(folder, '/'), false), EndsWithSlash(folder));
  }

  /** In particular `folder=..` is refused. */
  lemma BrowseParentRejected(st: Store, user: Option<string>, bucket: string, bs: seq<string>)
    requires FindBucket(st, user, bucket).Some?
    requires NormalSegs(bs) && |bs| > 0 && FindBucket(st, user, bucket).value.path == Abs(bs)
    ensures Browse(st, user, bucket, Some("..")) == Fail(403, "Access denied")
  {
    SplitNoSeparator("..", '/');
    assert Walk(bs, [".."], false) == bs[..|bs| - 1];
    BrowseEscapeRejected(st, user, bucket, bs, "..");
  }

  /** The guard's gap: `folder=../<name><suffix>` resolves to a sibling directory
      whose name extends the bucket's, which is outside the bucket yet admitted. */
  lemma BrowseSiblingAdmitted(b: Bucket, bs: seq<string>, suffix: string)
    requires NormalSegs(bs) && |bs| > 0 && b.path == Abs(bs)
    requires suffix != "" && '/' !in suffix
    ensures var folder := "../" + bs[|bs| - 1] + suffix;
            var sibling := bs[..|bs| - 1] + [bs[|bs| - 1] + suffix];
            && BrowsePath(b, Some(folder)) == Abs(sibling)
            && Admits(b.path, BrowsePath(b, Some(folder)))
            && !Inside(bs, sibling)
  {
    var n := |bs|;
    var name := bs[n - 1] + suffix;
    var folder := "../" + bs[n - 1] + suffix;
    assert folder == ".." + ['/'] + name;
    SplitConcat("..", name, '/');
    SplitNoSeparator("..", '/');
    SplitNoSeparator(name, '/');
    assert Split(folder, '/') == ["..", name];
    assert Walk(bs, ["..", name], false) == bs[..n - 1] + [name] by {
      assert Walk(bs, ["..", name], false) == Walk(bs[..n - 1], [name], false);
      assert ["..", name][1..] == [name];
    }
    JoinUnder(bs, false, folder);
    assert !EndsWithSlash(folder) by {
      assert folder[|folder| - 1] == name[|name| - 1];
      assert name[|name| - 1] in name;
    }
    SiblingAdmitted(bs, suffix);
  }

  /** The concrete case: for bucket `b` of user `u`, `folder=../b2` browses `<root>/u/b2`. */
  lemma BrowseSiblingExample(b: Bucket, root: seq<string>)
    requires NormalSegs(root) && b.path == Abs(root + ["u", "b"])
    ensures BrowsePath(b, Some("../b2")) == Abs(root + ["u", "b2"])
    ensures Admits(b.path, BrowsePath(b, Some("../b2")))
  {
    var bs := root + ["u", "b"];
    assert NormalSegs(bs) by {
      forall i | 0 <= i < |bs| ensures NormalSeg(bs[i]) {
        if i < |root| { assert bs[i] == root[i]; }
      }
    }
    assert bs[|bs| - 1] == "b";
    assert "../" + bs[|bs| - 1] + "2" == "../b2";
    BrowseSiblingAdmitted(b, bs, "2");
    assert bs[..|bs| - 1] == root + ["u"];
    assert bs[|bs| - 1] + "2" == "b2";
    assert root + ["u"] + ["b2"] == root + ["u", "b2"];
  }

  /** The download path is the bucket path joined with the folder and the file name as one relative path. */
  lemma DownloadJoin(b: Bucket, bs: seq<string>, folder: Option<string>, filename: string)
    requires NormalSegs(bs) && b.path == Abs(bs)
    ensures DownloadPath(b, folder, filename) == JoinPaths([b.path, JoinPaths2(OrElse(folder, ""), filename)])
  {
    JoinUnder2(bs, false, OrElse(folder, ""), filename);
  }

  /** A download whose folder and file name climb above the bucket is refused with 403. */
  lemma DownloadEscapeRejected(st: Store, user: Option<string>, bucket: string, bs: seq<string>,
                               folder: Option<string>, filename: string)
    requires FindBucket(st, user, bucket).Some?
    requires NormalSegs(bs) && |bs| > 0 && FindBucket(st, user, bucket).value.path == Abs(bs)
    requires var rel := JoinPaths2(OrElse(folder, ""), filename);
             rel != "" && Walk(bs, Split(rel, '/'), false) < bs
    ensures Download(st, user, bucket, folder, filename) == Fail(403, "Access denied")
  {
    var rel := JoinPaths2(OrElse(folder, ""), filename);
    DownloadJoin(FindBucket(st, user, bucket).value, bs, folder, filename);
    JoinUnder(bs, false, rel);
    AncestorRejected(bs, Walk(bs, Split(rel, '/'), false), EndsWithSlash(rel));
  }

  // ---------------------------------------------------------------------------
  // Round trips through the file system

  /** A folder created at the top of a bucket appears in the bucket's browse listing. */
  lemma CreateFolderThenBrowse(st: Store, user: Option<string>, bucket: string, bs: seq<string>, name: string)
    requires FindBucket(st, user, bucket).Some?
    requires NormalSegs(bs) && |bs| > 0 && FindBucket(st, user, bucket).value.path == Abs(bs)
    requires NormalSeg(name)
    requires CreateFolder(st, user, bucket, Some(name)).1.Ok?
    ensures var st' := CreateFolder(st, user, bucket, Some(name)).0;
            && Browse(st', user, bucket, None).Ok?
            && Item(name, "folder", 0) in Browse(st', user, bucket, None).value
  {
    var b := FindBucket(st, user, bucket).value;
    var st' := CreateFolder(st, user, bucket, Some(name)).0;
    JoinName(bs, name);
    LocateAbsStr(bs + [name], false);
    var target := bs + [name];
    assert target[..|bs|] == bs && target[..|target|] == target;
    assert FindBucket(st', user, bucket) == Some(b);
    BrowseBucketRoot(b, bs, None);
    LocateAbsStr(bs, false);
    assert Exists(st'.fs, b.path);
    assert target in ChildPaths(st'.fs, bs);
  }

  /** A file uploaded to the top of a bucket can be downloaded by its name. */
  lemma UploadThenDownload(st: Store, user: Option<string>, bucket: string, bs: seq<string>, f: UploadedFile)
    requires FindBucket(st, user, bucket).Some?
    requires NormalSegs(bs) && |bs| > 0 && FindBucket(st, user, bucket).value.path == Abs(bs)
    requires NormalSeg(f.originalName)
    requires Upload(st, user, bucket, None, true, Some(f)).1.Ok?
    ensures var st' := Upload(st, user, bucket, None, true, Some(f)).0;
            Download(st', user, bucket, None, f.originalName) == Ok(Abs(bs + [f.originalName]))
  {
    var b := FindBucket(st, user, bucket).value;
    var st' := Upload(st, user, bucket, None, true, Some(f)).0;
    JoinUnder(bs, false, "");
    assert UploadDir(b, None) == Abs(bs);
    JoinName(bs, f.originalName);
    LocateAbsStr(bs + [f.originalName], false);
    DownloadJoin(b, bs, None, f.originalName);
    assert DownloadPath(b, None, f.originalName) == Abs(bs + [f.originalName]);
    assert FindBucket(st', user, bucket) == Some(b);
    InsideAdmitted(bs, bs + [f.originalName], false);
    JoinLastChar(bs + [f.originalName]);
  }

  /** A `folder` field sent after the file part has no effect: the file lands
      at the top of the bucket, where a download without a folder finds it.
      Both clients append the file part first. */
  lemma LateFolderAtTop(st: Store, user: Option<string>, bucket: string, bs: seq<string>,
                        folder: Option<string>, f: UploadedFile)
    requires FindBucket(st, user, bucket).Some?
    requires NormalSegs(bs) && |bs| > 0 && FindBucket(st, user, bucket).value.path == Abs(bs)
    requires NormalSeg(f.originalName)
    requires Upload(st, user, bucket, folder, false, Some(f)).1.Ok?
    ensures var st' := Upload(st, user, bucket, folder, false, Some(f)).0;
            Download(st', user, bucket, None, f.originalName) == Ok(Abs(bs + [f.originalName]))
  {
    assert Upload(st, user, bucket, folder, false, Some(f)) == Upload(st, user, bucket, None, true, Some(f));
    UploadThenDownload(st, user, bucket, bs, f);
  }

  /** From bucket `<pre>/<u>/<b>`, the relative path `../../<v>/<x>` locates `<pre>/<v>/<x>`. */
  lemma EscapeLocate(pre: seq<string>, u: string, bname: string, v: string, x: string)
    requires NormalSegs(pre) && NormalSeg(u) && NormalSeg(bname) && NormalSeg(v) && NormalSeg(x)
    ensures JoinPaths([Abs(pre + [u, bname]), "../../" + v + "/" + x]) == Abs(pre + [v, x])
    ensures Locate(JoinPaths([Abs(pre + [u, bname]), "../../" + v + "/" + x])) == pre + [v, x]
    ensures NormalSegs(pre + [v, x])
  {
    var bs := pre + [u, bname];
    var f := "../../" + v + "/" + x;
    assert NormalSegs(bs) by {
      forall i | 0 <= i < |bs| ensures NormalSeg(bs[i]) {
        if i < |pre| { assert bs[i] == pre[i]; }
      }
    }
    assert f == ".." + ['/'] + (".." + ['/'] + (v + ['/'] + x));
    SplitConcat("..", ".." + ['/'] + (v + ['/'] + x), '/');
    SplitConcat("..", v + ['/'] + x, '/');
    SplitConcat(v, x, '/');
    SplitNoSeparator("..", '/');
    SplitNoSeparator(v, '/');
    SplitNoSeparator(x, '/');
    var segs := ["..", "..", v, x];
    assert Split(f, '/') == segs;
    assert Walk(bs, segs, false) == pre + [v, x] by {
      assert segs[1..] == ["..", v, x] && segs[2..] == [v, x];
      assert Step(bs, "..", false) == pre + [u];
      assert Step(pre + [u], "..", false) == pre;
      assert Walk(bs, segs, false) == Walk(pre, [v, x], false);
      WalkNormal(pre, [v, x], false);
    }
    JoinUnder(bs, false, f);
    assert NormalSegs(pre + [v, x]) by {
      forall i | 0 <= i < |pre + [v, x]| ensures NormalSeg((pre + [v, x])[i]) {
        if i < |pre| { assert (pre + [v, x])[i] == pre[i]; }
      }
    }
    assert !EndsWithSlash(f) by { assert f[|f| - 1] == x[|x| - 1]; }
    LocateAbsStr(pre + [v, x], false);
  }

  /** Folder creation has no guard: from bucket `<pre>/<u>/<b>`, the folder
      `../../<v>/<x>` is created inside user `v`'s directory. */
  lemma CreateFolderEscapes(st: Store, user: Option<string>, bucket: string, pre: seq<string>,
                            u: string, bname: string, v: string, x: string)
    requires FindBucket(st, user, bucket).Some?
    requires NormalSegs(pre) && NormalSeg(u) && NormalSeg(bname) && NormalSeg(v) && NormalSeg(x)
    requires FindBucket(st, user, bucket).value.path == Abs(pre + [u, bname])
    requires CreateFolder(st, user, bucket, Some("../../" + v + "/" + x)).1.Ok?
    ensures var st' := CreateFolder(st, user, bucket, Some("../../" + v + "/" + x)).0;
            pre + [v, x] in st'.fs && st'.fs[pre + [v, x]] == Dir
  {
    EscapeLocate(pre, u, bname, v, x);
    var target := pre + [v, x];
    assert target == target[..|target|];
  }

  /** An upload whose destination prints as the absolute path of normal
      segments `ds` stores a file of a plain name as `ds + [name]`, whenever no
      file stands in the way. */
  lemma UploadInto(st: Store, user: Option<string>, bucket: string, folder: string,
                   ds: seq<string>, f: UploadedFile)
    requires FindBucket(st, user, bucket).Some?
    requires NormalSegs(ds) && NormalSeg(f.originalName)
    requires UploadDir(FindBucket(st, user, bucket).value, Some(folder)) == Abs(ds)
    requires !Blocked(st.fs, ds)
    requires !(ds + [f.originalName] in st.fs && st.fs[ds + [f.originalName]].Dir?)
    ensures var r := Upload(st, user, bucket, Some(folder), true, Some(f));
            && r.1 == Ok("File uploaded successfully")
            && ds + [f.originalName] in r.0.fs
            && r.0.fs[ds + [f.originalName]] == File(f.size)
  {
    var dir := Abs(ds);
    LocateAbsStr(ds, false);
    JoinName(ds, f.originalName);
    var t := ds + [f.originalName];
    LocateAbsStr(t, false);
    JoinLastChar(t);
    var fs1 := EnsureDir(st.fs, ds).value;
    assert t[..|t| - 1] == ds && ds == ds[..|ds|];
    assert !(t in fs1 && fs1[t].Dir?);
  }

  /** Upload has no guard either: from bucket `<pre>/<u>/<b>`, with the
      folder `../../<v>/<x>` sent before the file, a file of a plain name
      lands in user `v`'s directory, whenever no file stands in the way. */
  lemma UploadEscapes(st: Store, user: Option<string>, bucket: string, pre: seq<string>,
                      u: string, bname: string, v: string, x: string, f: UploadedFile)
    requires FindBucket(st, user, bucket).Some?
    requires NormalSegs(pre) && NormalSeg(u) && NormalSeg(bname) && NormalSeg(v) && NormalSeg(x)
    requires NormalSeg(f.originalName)
    requires FindBucket(st, user, bucket).value.path == Abs(pre + [u, bname])
    requires !Blocked(st.fs, pre + [v, x])
    requires !(pre + [v, x, f.originalName] in st.fs && st.fs[pre + [v, x, f.originalName]].Dir?)
    ensures var r := Upload(st, user, bucket, Some("../../" + v + "/" + x), true, Some(f));
            && r.1 == Ok("File uploaded successfully")
            && pre + [v, x, f.originalName] in r.0.fs
            && r.0.fs[pre + [v, x, f.originalName]] == File(f.size)
  {
    EscapeLocate(pre, u, bname, v, x);
    assert pre + [v, x] + [f.originalName] == pre + [v, x, f.originalName];
    UploadInto(st, user, bucket, "../../" + v + "/" + x, pre + [v, x], f);
  }
}

=== FILE: web_client.dfy ===
/** The path logic of the browser file manager: the breadcrumb trail of the
    current folder, opening a folder item, the path a rename sends, the icon
    of an item, and the master-key login check. Rendering, `fetch` and
    `localStorage` are not modelled. */
module WebClient {
  import opened Common
  import opened FolderPath
  import AuthGate

  /** `parts.filter(p => p)`: the non-empty segments, in order. */
  function Compact(parts: seq<string>): (r: seq<string>)
    ensures forall i :: 0 <= i < |r| ==> r[i] != ""
    ensures forall s :: s in r <==> s in parts && s != ""
    ensures "" !in parts ==> r == parts
    decreases |parts|
  {
    if |parts| == 0 then []
    else if parts[0] == "" then Compact(parts[1..])
    else [parts[0]] + Compact(parts[1..])
  }

  /** The folders the breadcrumb trail of `folder` links to, after the bucket root
      (`updateBreadcrumb`): the k-th link is the first k+1 non-empty segments. */
  method Breadcrumbs(folder: string) returns (links: seq<string>)
    ensures var parts := Compact(Split(folder, '/'));
            && |links| == |parts|
            && (forall k :: 0 <= k < |links| ==> links[k] == Join(parts[..k + 1], '/'))
            && (|links| > 0 ==> links[0] == parts[0])
            && (forall k :: 0 <= k < |links| - 1 ==> links[k + 1] == ChildPath(links[k], parts[k + 1]))
            && (|links| > 0 ==> links[|links| - 1] == Join(parts, '/'))
    ensures "" !in Split(folder, '/') ==> |links| > 0 && links[|links| - 1] == folder
  {
    var parts := Compact(Split(folder, '/'));
    links := [];
    var path := "";
    var i := 0;
    while i < |parts|
      invariant 0 <= i <= |parts|
      invariant |links| == i
      invariant path == Join(parts[..i], '/')
      invariant i > 0 ==> path != "" && path == links[i - 1]
      invariant forall k :: 0 <= k < i ==> links[k] == Join(parts[..k + 1], '/')
      invariant i > 0 ==> links[0] == parts[0]
      invariant forall k :: 0 <= k < i - 1 ==> links[k + 1] == ChildPath(links[k], parts[k + 1])
    {
      var next := (if path != "" then path + "/" else "") + parts[i];
      if i == 0 {
        assert parts[..1] == [parts[0]];
      } else {
        assert parts[..i + 1] == parts[..i] + [parts[i]];
        JoinAppend(parts[..i], [parts[i]], '/');
      }
      assert next == Join(parts[..i + 1], '/');
      links := links + [next];
      path := next;
      i := i + 1;
    }
    assert parts[..|parts|] == parts;
    if "" !in Split(folder, '/') {
      JoinSplit(folder, '/');
    }
  }

  /** `handleItemClick(name, type)`: the folder it opens, if any. */
  function ItemClick(folder: string, name: string, kind: string): (r: Option<string>)
    ensures r.Some? <==> kind == "folder"
    ensures r.Some? ==> Split(r.value, '/') == (if folder == "" then [] else Split(folder, '/')) + Split(name, '/')
  {
    ChildSegments(folder, name);
    if kind == "folder" then Some(ChildPath(folder, name)) else None
  }

  /** `renameItem`: the new path it sends, or nothing when the prompt gave an
      empty name or the old one. */
  function RenamePath(path: string, newName: Option<string>): (r: Option<string>)
    ensures r.None? <==> !Truthy(newName) || newName.value == LastSegment(path)
  {
    if !Truthy(newName) || newName.value == LastSegment(path) then None
    else
      var parts := Split(path, '/');
      Some(Join(parts[..|parts| - 1] + [newName.value], '/'))
  }

  /** The leading part of a path, up to and including its last '/'. */
  function Dirname(path: string): string {
    var parts := Split(path, '/');
    if |parts| == 1 then "" else Join(parts[..|parts| - 1], '/') + "/"
  }

  /** A rename keeps everything before the last segment and replaces only that segment. */
  lemma {:induction false} RenameReplacesLast(path: string, newName: string)
    requires RenamePath(path, Some(newName)).Some?
    ensures path == Dirname(path) + LastSegment(path)
    ensures RenamePath(path, Some(newName)).value == Dirname(path) + newName
  {
    var parts := Split(path, '/');
    var n := |parts|;
    SplitLast(path);
    if n >= 2 {
      var lead := parts[..n - 1];
      assert |lead| >= 1;
      JoinAppend(lead, [newName], '/');
      assert Join([newName], '/') == newName;
    } else {
      assert parts[..n - 1] + [newName] == [newName];
    }
  }

  /** Renaming to a plain name and then back to the old name restores the path. */
  lemma {:induction false} RenameBack(path: string, newName: string)
    requires '/' !in newName
    requires RenamePath(path, Some(newName)).Some? && LastSegment(path) != ""
    ensures var renamed := RenamePath(path, Some(newName)).value;
            && LastSegment(renamed) == newName
            && Dirname(renamed) == Dirname(path)
            && RenamePath(renamed, Some(LastSegment(path))) == Some(path)
  {
    var renamed := RenamePath(path, Some(newName)).value;
    var parts := Split(path, '/');
    var n := |parts|;
    var lead := parts[..n - 1];
    assert renamed == Join(lead + [newName], '/');
    assert forall i :: 0 <= i < |lead + [newName]| ==> '/' !in (lead + [newName])[i];
    SplitJoin(lead + [newName], '/');
    var parts' := Split(renamed, '/');
    assert parts' == lead + [newName];
    assert parts'[..|parts'| - 1] == lead;
    RenameReplacesLast(path, newName);
    RenameReplacesLast(renamed, LastSegment(path));
  }

  const FolderIcon := "\U{1F4C1}"
  const DefaultIcon := "\U{1F4C4}"
  const DocumentIcon := "\U{1F4DD}"
  const SheetIcon := "\U{1F4CA}"
  const ImageIcon := "\U{1F5BC}\U{FE0F}"
  const VideoIcon := "\U{1F3A5}"
  const AudioIcon := "\U{1F3B5}"
  const ArchiveIcon := "\U{1F4E6}"
  const TextIcon := "\U{1F4C3}"

  /** The `icons` table of `getFileIcon`. */
  function IconFor(ext: string): Option<string> {
    if ext == "pdf" then Some(DefaultIcon)
    else if ext in {"doc", "docx"} then Some(DocumentIcon)
    else if ext in {"xls", "xlsx"} then Some(SheetIcon)
    else if ext in {"jpg", "jpeg", "png", "gif"} then Some(ImageIcon)
    else if ext in {"mp4", "avi", "mov"} then Some(VideoIcon)
    else if ext in {"mp3", "wav"} then Some(AudioIcon)
    else if ext in {"zip", "rar"} then Some(ArchiveIcon)
    else if ext == "txt" then Some(TextIcon)
    else None
  }

  /** `item.name.split('.').pop().toLowerCase()` */
  function Extension(name: string): string {
    var parts := Split(name, '.');
    Lower(parts[|parts| - 1])
  }

  /** `getFileIcon(item)` */
  function FileIcon(kind: string, name: string): (icon: string)
    ensures kind == "folder" ==> icon == FolderIcon
    ensures kind != "folder" && IconFor(Extension(name)).None? ==> icon == DefaultIcon
    ensures kind != "folder" ==>
              var e := Extension(name);
              && icon != FolderIcon
              && (e == "pdf" ==> icon == DefaultIcon)
              && (e in {"doc", "docx"} <==> icon == DocumentIcon)
              && (e in {"xls", "xlsx"} <==> icon == SheetIcon)
              && (e in {"jpg", "jpeg", "png", "gif"} <==> icon == ImageIcon)
              && (e in {"mp4", "avi", "mov"} <==> icon == VideoIcon)
              && (e in {"mp3", "wav"} <==> icon == AudioIcon)
              && (e in {"zip", "rar"} <==> icon == ArchiveIcon)
              && (e == "txt" <==> icon == TextIcon)
    ensures icon in {FolderIcon, DefaultIcon, DocumentIcon, SheetIcon, ImageIcon, VideoIcon, AudioIcon, ArchiveIcon, TextIcon}
  {
    if kind == "folder" then FolderIcon
    else IconFor(Extension(name)).GetOr(DefaultIcon)
  }

  /** Only the text after the last '.' decides the icon. */
  lemma IconByLastExtension(kind: string, base: string, ext: string)
    requires '.' !in ext
    ensures FileIcon(kind, base + "." + ext) == FileIcon(kind, ext)
  {
    SplitConcat(base, ext, '.');
    SplitNoSeparator(ext, '.');
  }

  /** The segments of a lower-cased string are the lower-cased segments,
      for a separator that no letter lower-cases to. */
  lemma {:induction false} SplitLower(s: string)
    ensures |Split(Lower(s), '.')| == |Split(s, '.')|
    ensures forall i :: 0 <= i < |Split(s, '.')| ==> Split(Lower(s), '.')[i] == Lower(Split(s, '.')[i])
    decreases |s|
  {
    if |s| > 0 {
      SplitLower(s[1..]);
      assert Lower(s)[1..] == Lower(s[1..]);
      assert Lower(s)[0] == LowerChar(s[0]);
      assert (LowerChar(s[0]) == '.') == (s[0] == '.');
      if s[0] != '.' {
        var rest := Split(s[1..], '.');
        assert Lower([s[0]] + rest[0]) == [LowerChar(s[0])] + Lower(rest[0]);
      }
    }
  }

  /** The icon does not depend on letter case. */
  lemma IconIgnoresCase(kind: string, name: string)
    ensures FileIcon(kind, Lower(name)) == FileIcon(kind, name)
  {
    SplitLower(name);
    var parts := Split(name, '.');
    var last := parts[|parts| - 1];
    assert Lower(Lower(last)) == Lower(last);
  }

  const ClientMasterKey := "cloudx-admin-2024-secure-key"

  /** `loginWithMasterKey()`: whether the typed key is accepted. */
  function LoginWithMasterKey(input: string): (accepted: bool)
    ensures accepted <==> input == AuthGate.DefaultMasterKey
  {
    input == ClientMasterKey
  }

  /** A key the page accepts is the server's admin key while `MASTER_KEY` is
      unset; once it is set to another value, the page's login no longer
      reaches admin routes. */
  lemma LoginMatchesServer(records: seq<AuthGate.KeyRecord>, input: string, env: Option<string>, now: string)
    requires LoginWithMasterKey(input)
    ensures !Truthy(env) ==> AuthGate.RequireAuth(records, AuthGate.MasterKey(env), Some(input), now)
                             == (records, Ok(AuthGate.AdminIdentity))
    ensures Truthy(env) && env.value != input ==>
              !AuthGate.RequireAuth(records, AuthGate.MasterKey(env), Some(input), now).1.Ok?
              || !AuthGate.RequireAuth(records, AuthGate.MasterKey(env), Some(input), now).1.value.isAdmin
  {
  }
}
